=== FILE: README.md ===
# Dox documentation site: content pipeline model

A Dafny model of the part of the Dox documentation site that turns URLs into documents and navigation, covering:

- the static manifest of bundled documents, with its two lookup tables:
  - by slug;
  - the navigation index keyed by id, slug path and root alias;
- how a `docs.json` page reference becomes a sidebar item, with the helpers it uses (`slugifyId`, `normalizeHref`, `deriveTitleFromSlug`);
- the sidebar sections built from nested navigation groups, and the per-tab sidebar collections of one language;
- resolving a catch-all route's slug segments to a document: static entries first, then a per-key cache of filesystem loads;
- searching the content roots for a `.mdx` file;
- turning a found file into a document entry:
  - snippet-import extraction;
  - snippet loader resolution from the fixed registry;
  - frontmatter defaults;
- the shell's choice of the active sidebar collection, and what happens when the user picks another one;
- the XML escaping and the per-entry strings of the changelog RSS feed.

The model is functional. Each mutable thing in the source becomes an explicit value that is passed in and returned:

- the document cache becomes a `map` that `GetDocFromParams` takes and returns;
- the selected collection id becomes an `Option<string>` argument;
- a router push becomes the `navigateTo` of a returned `Change`.

The one class, `Resolver.DocumentCache`, wraps the cache map for a caller that keeps it as state; its `Get` is `GetDocFromParams` on the stored map.

The filesystem is a map from paths to file contents. The MDX compiler is a function parameter from cleaned source to frontmatter: it gives nothing for a source it rejects. The snippet modules that dynamic `import()` would load are a map of module path to exports.

Modules:

| module | what it holds |
|---|---|
| `Wrappers` | `Option` and `Result` |
| `Text` | character classes as the source's regular expressions define them; `split`, `join`, `trim` and the lemmas about them |
| `Slug` | `slugifyId`, `normalizeHref`, `deriveTitleFromSlug` |
| `Docs` | `DocEntry`, the manifest, `docEntriesBySlug`, `docIndex`, `resolveDocForNavigation` |
| `Navigation` | `buildNavigationSections`, `buildSidebarCollectionsFromDocsJson` |
| `Snippets` | the snippet registry and its loaders |
| `Compiler` | `extractSnippetComponents` and the pure part of `compileDocEntry` |
| `Resolver` | `findDocSource`, `loadDocFromFilesystem`, `getDocFromParams` and its cache |
| `Shell` | `collectionContainsPath`, the active-collection choice, `onCollectionChange`, the sidebar's `isActive` |
| `Rss` | `escapeXml` and the feed item fields |

## Model

| member | source | states |
|---|---|---|
| Docs.Entry | src/data/docs.ts:28-31 | an entry keeps every configured field, and its href is "/" followed by the slug joined with "/", which is "/" for the empty slug |
| Docs.BySlug | src/data/docs.ts:147-152 | every stored entry is a manifest entry, stored under its own joined slug |
| Docs.BySlugLastWins | src/data/docs.ts:148-152 | when two manifest entries share a slug path, the later one is the one stored |
| Docs.BySlugKeys | src/data/docs.ts:148-152 | a key is in `docEntriesBySlug` exactly when some entry's slug joins to it |
| Docs.DocIndexKeys | src/data/docs.ts:197-208 | the navigation index's keys are exactly the entries' ids, their non-empty slug paths, and "/" and "" when some entry has the empty slug |
| Docs.DocIndex | src/data/docs.ts:197-208 | every value of the navigation index is one of the entries it was built from |
| Docs.PrefixKeys | src/data/docs.ts:198-207 | one more entry adds exactly its id, its non-empty slug path and, for a root entry, the two root aliases |
| Docs.DocIndexValues | src/data/docs.ts:197-208 | every value of the index is an entry of the manifest |
| Docs.DocIndexIdWins | src/data/docs.ts:199 | the id key is set unconditionally, so it holds the last entry with that id unless a later root entry overwrites "/" or "" |
| Docs.DocIndexRootAlias | src/data/docs.ts:204-207 | "/" and "" both map to the last entry with the empty slug |
| Docs.DocIndexFirstSlugWins | src/data/docs.ts:200-203 | a slug path alias is set only if the key is absent, so the first entry with that slug path keeps it when no id claims it |
| Docs.ResolveDocForNavigation | src/data/docs.ts:210-234 | no item exactly when the page id is empty and "" is not indexed; an indexed id, or the id without its leading slash, yields that entry's fields; any other non-empty id yields the synthesized item: slugified id, title derived from the id, normalized href, no badge, empty description |
| Docs.SynthesizedItemShape | src/data/docs.ts:222-233 | an unknown non-empty page id gets a synthesized item whose id is `slugifyId` of the page id (a slug), whose href is `normalizeHref` of it (site-relative or an http(s) URL), whose title is derived from it, with no badge and an empty description |
| Docs.LeadingSlashIsOptional | src/data/docs.ts:211 | "/p" resolves like "p" when only "p" is indexed |
| Docs.NavigationHrefs | src/data/docs.ts:210-234 | when every indexed entry has a site-relative href, every resolved item's href is non-empty and is site-relative or absolute http(s) |
| Docs.EntryHrefs | src/data/docs.ts:28-31 | entries built by `entry` all have site-relative hrefs in the index |
| Slug.SlugifyId | src/data/docs.ts:236-241 | the result contains only a-z, 0-9 and single dashes and has no dash at either end, and it keeps exactly the letters and digits of the lower-cased input in order |
| Slug.SlugifyFixpoints | src/data/docs.ts:236-241 | a string is left unchanged exactly when it already has slug shape |
| Slug.SlugifyIdempotent | src/data/docs.ts:236-241 | slugifying twice is the same as slugifying once |
| Slug.NormalizeHref | src/data/docs.ts:243-248 | an http(s) URL, in any letter case, is kept; anything else starts with "/" afterwards; the input is a suffix of the result and at most one character is added; the input is unchanged exactly when it is a URL or already starts with "/" |
| Slug.NormalizeHrefIdempotent | src/data/docs.ts:243-248 | normalizing twice is the same as normalizing once |
| Slug.DeriveTitleFromSlug | src/data/docs.ts:250-261 | "Overview" when the id has no non-empty segment; otherwise the title is as long as the last segment and has no dash, underscore or slash, and every word start is not a lower-case letter |
| Slug.CapitalizeFrom | src/data/docs.ts:260 | exactly the characters at `\b\w` positions are upper-cased |
| Slug.LastSegmentHasNoSlash | src/data/docs.ts:251-254 | the popped segment has no "/" |
| Slug.GettingStartedTitle | src/data/docs.ts:250-261 | "getting-started" gets the title "Getting Started" |
| Slug.NestedTitle | src/data/docs.ts:250-261 | leading and trailing slashes are ignored, only the last segment counts, and underscores become spaces: "/guides/api_keys/" gets "Api Keys" |
| Navigation.BuildNavigationSections | src/data/docs.ts:263-298 | no section is empty, and reading the sections' items in order gives exactly the resolved leaf pages of the group tree, depth first, with unresolvable pages dropped |
| Navigation.Walk | src/data/docs.ts:270-295 | the loop over one group's pages keeps the item order: flushed items, then buffered items, then the resolved leaves still to come |
| Navigation.FlushItems | src/data/docs.ts:279-285 | flushing a buffer emits a section only when the buffer is non-empty, and loses no item |
| Navigation.EveryLeafResolves | src/data/docs.ts:222-233 | once "" is indexed, every leaf page produces exactly one item, the one `resolveDocForNavigation` gives it, in page order |
| Navigation.InterleavingKept | src/data/docs.ts:279-295 | items on both sides of a subgroup go into separate sections under the parent title, with the subgroup's section, titled "parent • child", in between |
| Navigation.SectionTitles | src/data/docs.ts:263-298 | the item/title pairs of the sections are exactly the reference depth-first flattening, in which a leaf placed directly in a group is titled by the non-empty ancestor names and the group's name joined with " • " ("General" when there are none), and a nested group extends that chain by its own name |
| Navigation.WalkTitles | src/data/docs.ts:270-295 | the loop over one group's pages keeps the titles: the emitted sections, then the pending run under the current title, then the remaining leaves under their chains |
| Navigation.ChainsExtend | src/data/docs.ts:287-290 | every chain in the flattening begins with the chain of the group it starts from |
| Navigation.TitlesExtendAncestors | src/data/docs.ts:263-298 | every section title is the joined title of a chain that starts with the ancestors' non-empty names and the group's own |
| Navigation.DirectLeavesTitle | src/data/docs.ts:266-283 | the items of a page placed first in a group are shown, first, under the group's own title |
| Navigation.SelectLanguage | src/data/docs.ts:301-303 | the first language with the requested code if there is one, else the first language, and none only when there are no languages |
| Navigation.TabCollection | src/data/docs.ts:309-320 | the id is the tab's own id when given, else `slugifyId` of the label; the caption and href are the tab's; the sections are those of all its groups in order, none of them empty, and each item sits under the title of its group chain |
| Navigation.GroupsSections | src/data/docs.ts:312 | the flat-mapped sections of several groups hold the resolved leaves of all groups, in order |
| Navigation.GroupsTitles | src/data/docs.ts:312 | across all of a tab's groups, every item is shown under the title of its own chain of group names, starting from its top-level group |
| Navigation.BuildSidebarCollections | src/data/docs.ts:300-321 | no collections when the configuration has no language; otherwise one collection per tab of the chosen language, in tab order |
| Snippets.ResolveSnippetComponent | src/mdx/snippet-registry.ts:31-34 | a loader exactly when both the path and the name are registered; that loader is for the requested export, under "/snippets/" |
| Snippets.RegistryShape | src/mdx/snippet-registry.ts:16-29 | four registered paths, each under "/snippets/" with exactly one export whose loader imports that export |
| Snippets.RegistryKeys | src/mdx/snippet-registry.ts:16-29 | the registry's paths are exactly the four snippet files |
| Snippets.LookupIsExact | src/mdx/snippet-registry.ts:31-34 | a path without its leading slash is not found |
| Snippets.NamesAreCaseSensitive | src/mdx/snippet-registry.ts:31-34 | an export name in another letter case is not found |
| Snippets.RunLoader | src/mdx/snippet-registry.ts:5-14 | a loader yields the named export exactly when its module provides it, and fails with "not found" exactly when the module loads without that export |
| Snippets.NotFoundMessage | src/mdx/snippet-registry.ts:10 | the error message quotes the missing export's name at a fixed position |
| Compiler.ParseCanonical | src/data/get-doc.ts:118 | a well-formed `import { names } from 'path';` line parses back to its names and path |
| Compiler.IndentationIgnored | src/data/get-doc.ts:118 | leading whitespace before `import` does not change the parse |
| Compiler.Scan | src/data/get-doc.ts:118 | any parsed statement has a non-empty imports part without "}" and a non-empty path without quotes |
| Compiler.TrimmedPieces | src/data/get-doc.ts:128-131 | every non-empty trimmed comma piece is a name without commas or outer whitespace |
| Compiler.NamesRoundTrip | src/data/get-doc.ts:128-131 | names joined with commas split back into the same names |
| Compiler.SnippetImport | src/data/get-doc.ts:122-126 | only statements whose trimmed path starts with "/snippets/" are taken |
| Compiler.Register | src/data/get-doc.ts:133-140 | every injector stays the loader of the export it is named after; in production nothing is warned |
| Compiler.RegisterAllNames | src/data/get-doc.ts:133-140 | after processing the imports, a name has an injector exactly when it had one before or some import of it resolves |
| Compiler.LaterImportWins | src/data/get-doc.ts:136 | when a name is imported twice, the last resolving import decides its loader |
| Compiler.RegisterAllWarnings | src/data/get-doc.ts:137-139 | outside production, the warnings are the unresolved imports in order |
| Compiler.WarningMessage | src/data/get-doc.ts:138 | the warning text quotes the unresolved name at a fixed position, followed by the path |
| Compiler.CleanedLines | src/data/get-doc.ts:122-143 | the cleaned source has the same number of lines; each snippet import line becomes empty, and every other line is kept |
| Compiler.NoSnippetImportsUnchanged | src/data/get-doc.ts:120-146 | a source without snippet imports is returned unchanged, with no injectors and no warnings |
| Compiler.InjectedNames | src/data/get-doc.ts:120-146 | a name gets an injector exactly when some snippet import of it resolves in the registry |
| Compiler.WarningsOutsideProduction | src/data/get-doc.ts:137-139 | outside production, one warning per unresolvable snippet name, in source order |
| Compiler.ExtractSnippetComponents | src/data/get-doc.ts:120-146 | every injector is the loader of the export it is named after; production never warns |
| Compiler.DocId | src/data/get-doc.ts:104 | the id is the slug path if non-empty, else a non-empty frontmatter title, else "doc"; it is never empty |
| Compiler.CompiledEntry | src/data/get-doc.ts:96-115 | each frontmatter field is carried over when present; when absent, the title is derived from the slug path and the others default to "", "Docs", no keywords, "5 min" and today's date; the badge is copied as is; the id follows `DocId`; the href follows the manifest rule for the slug |
| Compiler.LoadComponents | src/data/get-doc.ts:79-82 | either every injector's component loads, giving a component for exactly those names, or the result names exactly the injectors whose loaders fail |
| Compiler.CompileDocEntry | src/data/get-doc.ts:76-116 | the entry is produced exactly when every snippet loads and the compiler accepts the cleaned source; it is the compiled entry of the compiler's frontmatter, carries the cleaned source and one component per injector, and its slug is the requested one |
| Resolver.NormalizeSegments | src/data/get-doc.ts:32 | a missing parameter gives no segments; otherwise exactly the empty segments are removed: none remains, every non-empty input segment is kept, the length drops by the number of empty ones, and input without empty segments comes back unchanged |
| Resolver.NormalizeKeepsOrder | src/data/get-doc.ts:32 | normalizing distributes over concatenation and keeps a single segment exactly when it is non-empty, so the kept segments stay in their order |
| Resolver.RequestKey | src/data/get-doc.ts:33 | the key is empty exactly when no segment remains, and splitting it at "/" gives back the normalized segments when none of them contains "/" |
| Resolver.NormalizeIdempotent | src/data/get-doc.ts:32 | normalizing normalized segments changes nothing |
| Resolver.EmptySegmentsIgnored | src/data/get-doc.ts:32-33 | an empty segment anywhere does not change the cache key |
| Resolver.SlugFile | src/data/get-doc.ts:58 | the empty slug path stands for "home"; any other path is used as is |
| Resolver.Candidates | src/data/get-doc.ts:58-59 | a slug file already ending in ".mdx" is the only candidate; otherwise the candidates are the slug file plus ".mdx", then the slug file plus "/index.mdx" |
| Resolver.FirstFound | src/data/get-doc.ts:61-73 | a result is an existing file from the list, and there is none exactly when no listed path exists |
| Resolver.FirstFoundIsFirst | src/data/get-doc.ts:61-73 | no earlier path of the list exists |
| Resolver.FirstRootWins | src/data/get-doc.ts:61-66 | a hit under the first root is returned before anything under later roots |
| Resolver.FileBeforeIndex | src/data/get-doc.ts:59-66 | "x.mdx" is preferred over "x/index.mdx" in the same root |
| Resolver.FindDocSource | src/data/get-doc.ts:57-74 | the nested search loops return the first existing path, roots outermost and candidates innermost |
| Resolver.SearchRoots | src/data/get-doc.ts:61-73 | the loops agree with the first existing path of the roots-by-candidates order |
| Resolver.LoadDocFromFilesystem | src/data/get-doc.ts:48-77 | there is no document exactly when no candidate path exists; when the first existing path cannot be read the load is rejected; otherwise a found document is the successful compile of that file's contents and a rejection is the compile's rejection; a found document has the requested slug, the manifest's href rule and a non-empty id |
| Resolver.UnreadableStopsSearch | src/data/get-doc.ts:61-77 | an existing but unreadable "/a/guide.mdx" stops the search: the load of "guide" is rejected although "/b/guide.mdx" is readable |
| Resolver.Lookup | src/data/get-doc.ts:31-46 | static entries are answered without touching the cache; a load happens exactly when the key is neither static nor cached; the answer is then stored under the key; earlier entries are unchanged and the key set grows only by that key |
| Resolver.GetDocFromParams | src/data/get-doc.ts:31-46 | the filesystem is read exactly when the key is neither static nor cached, and the result is then the load of the normalized segments |
| Resolver.Serve | src/data/get-doc.ts:31-46 | a run of requests gets one answer per request |
| Resolver.DocumentCache.Get | src/data/get-doc.ts:29-46 | the answer and the stored cache are those `GetDocFromParams` gives for the stored cache |
| Resolver.CacheOnlyGrows | src/data/get-doc.ts:39-45 | across any sequence of requests, no cache entry is ever dropped or replaced |
| Resolver.LoadsWereUncached | src/data/get-doc.ts:39-43 | every load was for a key that was neither static nor already cached |
| Resolver.AtMostOneLoadPerKey | src/data/get-doc.ts:39-43 | across any sequence of requests, each key is loaded at most once |
| Resolver.ResultsAreCached | src/data/get-doc.ts:39-45 | every non-static answer is the cached entry for its key |
| Resolver.StaticAnswers | src/data/get-doc.ts:34-37 | a request whose key is static is answered with the static entry |
| Resolver.SameKeySameOutcome | src/data/get-doc.ts:31-46 | two requests with the same key get the same answer, whatever came between them |
| Resolver.HrefMatchesRequest | src/data/get-doc.ts:31-46 | the served document's href is the requested key's URL, and the cache keeps that property |
| Shell.ItemsMatchIff | src/components/layout/site-shell.tsx:15 | `items.some(...)` holds exactly when some item is active for the path |
| Shell.ContainsPathIff | src/components/layout/site-shell.tsx:13-17 | a collection contains a path exactly when some item of some section is active for it |
| Shell.RootMatchesOnlyRoot | src/components/navigation/sidebar.tsx:22-25 | the "/" item is active only on the home page |
| Shell.ActiveBelow | src/components/navigation/sidebar.tsx:26 | an item other than "/" stays active on every path below it |
| Shell.PrefixIgnoresSegments | src/components/navigation/sidebar.tsx:26 | the match is by string prefix, not by path segment: "/api" is active on "/apix" |
| Shell.ActiveOnOwnPage | src/components/navigation/sidebar.tsx:22-27 | every item is active on its own href |
| Shell.IsActive | src/components/navigation/sidebar.tsx:22-27 | an active link is always a prefix of the pathname |
| Shell.ContainsPath | src/components/layout/site-shell.tsx:13-17 | a collection without sections holds no page |
| Shell.Navigable | src/components/layout/site-shell.tsx:23 | exactly the collections with at least one section are kept, and nothing else |
| Shell.NavigableConcat | src/components/layout/site-shell.tsx:23 | the filter distributes over concatenation, so the kept collections stay in their original order |
| Shell.NavigableKeepsAll | src/components/layout/site-shell.tsx:23 | when every collection has sections, all of them are kept |
| Shell.NavigableSplit | src/components/layout/site-shell.tsx:23 | a navigable collection comes right after the navigable collections before it |
| Shell.FindContaining | src/components/layout/site-shell.tsx:25 | the first collection holding the path is found, and none is found exactly when none holds it |
| Shell.FindById | src/components/layout/site-shell.tsx:30 | the first collection with the id is found, and none is found exactly when no collection has it |
| Shell.Matched | src/components/layout/site-shell.tsx:24-27 | a collection is matched exactly when there are collections, and it is one of them |
| Shell.MatchedHolding | src/components/layout/site-shell.tsx:24-25 | the first navigable collection holding the path is the matched one |
| Shell.MatchedFirstNavigable | src/components/layout/site-shell.tsx:24-26 | when no navigable collection holds the path, the first navigable collection is matched |
| Shell.MatchedFallback | src/components/layout/site-shell.tsx:24-27 | when no collection has sections, the first collection is matched |
| Shell.Selected | src/components/layout/site-shell.tsx:28-30 | a selection counts only when its id is non-empty and names a collection with sections, and such an id always selects one |
| Shell.SelectedIsFirst | src/components/layout/site-shell.tsx:29-30 | the selection is the first navigable collection carrying the id |
| Shell.Active | src/components/layout/site-shell.tsx:31-38 | nothing is shown exactly when there are no collections; otherwise one of them is |
| Shell.ActiveHoldsPage | src/components/layout/site-shell.tsx:24-34 | when some navigable collection holds the path, the active one holds it too |
| Shell.SelectionWins | src/components/layout/site-shell.tsx:31-34 | a selected collection that holds the path is the active one |
| Shell.MatchWhenSelectionMisses | src/components/layout/site-shell.tsx:31-34 | without a usable selection holding the path, the matched collection is active |
| Shell.NothingNavigable | src/components/layout/site-shell.tsx:24-27 | when no collection has sections, the first collection is shown |
| Shell.FirstHref | src/components/layout/site-shell.tsx:54 | the first section's first item's href, and only when it is non-empty |
| Shell.OnCollectionChange | src/components/layout/site-shell.tsx:48-57 | an unknown id is ignored; otherwise it is selected, and the router moves to the collection's first page exactly when it has one and the collection does not hold the current path |
| Shell.SelectionTakesEffect | src/components/layout/site-shell.tsx:48-57 | after picking a collection with a first page, the shell shows that collection at the resulting path, provided the collection already held the page or its first href is a plain site pathname |
| Shell.PathOf | src/components/layout/site-shell.tsx:21 | the pathname seen after a push is the longest prefix of the href without "?" or "#"; the rest starts at one of them |
| Shell.FragmentHrefLosesSelection | src/components/layout/site-shell.tsx:29-56 | pushing the first href "/x#y" lands on the pathname "/x", and the other navigable collection is shown instead of the picked one |
| Shell.EmptyIdNeverSelected | src/components/layout/site-shell.tsx:28-34 | selecting the empty id has no effect on which collection is shown |
| Rss.EscapeXmlPerCharacter | src/app/changelog/rss.xml/route.ts:27-34 | the five passes are equivalent to replacing each character with its entity in one pass; `&` is escaped first, so no entity is escaped twice |
| Rss.EscapeEach | src/app/changelog/rss.xml/route.ts:27-34 | escaping never shortens, keeps the text exactly when it has no markup character, and leaves no `<`, `>`, `"` or `'` |
| Rss.EscapeXmlShape | src/app/changelog/rss.xml/route.ts:27-34 | the escaped text has no delimiter characters, is at least as long, and equals the input exactly when the input has no markup |
| Rss.EscapeXmlConcat | src/app/changelog/rss.xml/route.ts:27-34 | escaping distributes over concatenation |
| Rss.EscapesAmpersandAgain | src/app/changelog/rss.xml/route.ts:29 | an existing entity is escaped again: "&" always becomes "&amp;" |
| Rss.UnescapeEscape | src/app/changelog/rss.xml/route.ts:27-34 | replacing the five entities back recovers the original text |
| Rss.EscapeXmlInjective | src/app/changelog/rss.xml/route.ts:27-34 | different texts never escape to the same output |
| Rss.BaseUrl | src/app/changelog/rss.xml/route.ts:3 | the configured site URL, even an empty one, or else "http://localhost:3000" |
| Rss.ItemLink | src/app/changelog/rss.xml/route.ts:41 | the link is the base URL followed by exactly "/changelog", unescaped |
| Rss.GuidExtendsLink | src/app/changelog/rss.xml/route.ts:41-42 | the guid is the item's link followed by "#" and the version |
| Rss.ItemGuid | src/app/changelog/rss.xml/route.ts:42 | the guid is the base URL followed by "/changelog#", ending with the version, unescaped |
| Rss.TitleReadsBack | src/app/changelog/rss.xml/route.ts:40 | the item title unescapes to the site name, a space and the version |
| Rss.ItemTitle | src/app/changelog/rss.xml/route.ts:40 | the title starts with the site name and a space, and is exactly "Dox " and the version when the version has no markup character |
| Rss.DescriptionText | src/app/changelog/rss.xml/route.ts:44 | the text starts with the summary and a newline, and with single-line summary and items it splits into the summary followed by one "- " bullet per item |
| Rss.DescriptionLines | src/app/changelog/rss.xml/route.ts:44 | the unescaped description splits into the description line followed by one "- " bullet per item |
| Rss.NoItemsTrailingNewline | src/app/changelog/rss.xml/route.ts:44 | an entry without items still ends its description with a newline |

## Left out

- Asynchrony: `getDocFromParams` stores a promise in the cache before it settles. The model stores the settled outcome. A rejected or missing load stays cached for the life of the process, as in the source. No concurrent requests are modelled.
- File access is a map from each existing path to its contents, or to "unreadable" when `fs.access` accepts the path but `readFile` fails (a directory, or no read permission). `path.join` is plain concatenation with "/": no `..` or duplicate-slash normalisation, and no `process.cwd()`. The search roots are a parameter.
- `compileMDX` is a function parameter from cleaned source to frontmatter; it gives nothing for a source it rejects. Remark and rehype plugins, the MDX component map and the rendered React content are not modelled. A compiled body records its cleaned source and resolved components.
- Compiler.ExtractSnippetComponents: the regular expression is applied line by line to "\n"-separated lines. An import spanning several lines, blank lines absorbed by a match's `\s*`, and `$` before "\r", U+2028 or U+2029 are outside the model.
- Compiler.ExtractSnippetComponents: under the `m` flag `^` also matches right after "\r", U+2028 and U+2029, so the source can strip an import that follows one of them inside a "\n"-line (for example the part of `x\rimport {A} from '/snippets/a.jsx'` after the "\r"); the model keeps such a line whole.
- Snippets.ResolveSnippetComponent: the lookup `registry[path]?.[name]` follows the object prototype chain, so for a registered path any `Object.prototype` member name finds an inherited member. These are "constructor", "toString", "toLocaleString", "valueOf", "hasOwnProperty", "isPrototypeOf", "propertyIsEnumerable", "__defineGetter__", "__defineSetter__", "__lookupGetter__", "__lookupSetter__" and "__proto__". For every name but "__proto__" the source stores the inherited function as an injector without a warning, and the later unbound `await resolver()` calls it with no receiver. Eight of them throw there, because they convert the missing receiver to an object: "toLocaleString", "valueOf", "hasOwnProperty", "propertyIsEnumerable" and the four accessor helpers. The document is then rejected. "constructor", "toString" and "isPrototypeOf" return a value (an empty object, "[object Undefined]", false) that becomes the component, and the document compiles. For "__proto__" the lookup yields `Object.prototype`, and the assignment `snippetInjectors[name] = loader` goes through the prototype setter and creates no own property, so the source registers nothing and gives no warning. The model finds only the registered exports. For all twelve names it returns no loader, warns outside production, and compiles the document.
- Slug.SlugifyId: lower-casing maps ASCII letters plus the two non-ASCII characters whose lower case starts with an ASCII letter (U+212A Kelvin sign and U+0130). Other Unicode case mappings are not modelled, as they cannot introduce a-z or 0-9.
- Compiler.LoadComponents: the source awaits loaders in order and throws at the first failure. The model reports the whole set of failing names, and it does not distinguish which one failed first.
- The `pubDate` (`Date.toUTCString`), the surrounding channel template and the response headers of the RSS route are not modelled. The feed's fixed entries list is not modelled either; entries are parameters.
- Shell.SelectionTakesEffect: the picked collection is shown after the push only when its first href is a site pathname without query or fragment (or it already held the page). An http(s) or "//" first href leaves the site, and an href with "?" or "#" lands on a pathname its own item does not match (`FragmentHrefLosesSelection`); the shell then shows the matched collection.
- React rendering, the zustand collections store and the Next.js router are not modelled. The pathname is a parameter, and a router push is the returned `Change`.
- `searchableDocs` and the remaining manifest consumers (pagination, breadcrumbs, sitemap) are not modelled.
- Docs.Manifest: the ten bundled entries are transcribed as data, and their MDX modules are named, not compiled. No contract restates the table's contents; the lemmas about the lookup tables hold for any list of entries.
- Navigation.BuildNavigationSections: where one run of leaves ends and the next begins is stated by the item/title pairs (`SectionTitles`) and by the `InterleavingKept` example, not by a general lemma about section boundaries. Two consecutive runs with the same title are not shown to stay separate in general.

## Behaviour worth knowing

- A tab with an `href` still gets its groups' sections.
- `normalizeHref` keeps a protocol-relative "//x" as is.
- The guid and link URLs are not escaped.
- An empty collection id can never be selected, because `selectedCollectionId && …` treats "" as no selection.

=== FILE: compiler.dfy ===
/** Compiling a document found on disk (src/data/get-doc.ts): the snippet
    import lines are stripped from the source and their names resolved through
    the snippet registry, the registered loaders are run, and the entry's
    metadata is filled in from the frontmatter with defaults. */
module Compiler {
  import opened Wrappers
  import opened Text
  import opened Slug
  import opened Snippets
  import opened Docs

  // ---------------------------------------------------------------------------
  // The import pattern, one line at a time
  // ---------------------------------------------------------------------------

  /** What the import pattern captures: the text between the braces and the
      text between the quotes. */
  datatype ImportStatement = ImportStatement(imports: string, fromPath: string)

  predicate IsQuote(c: char) {
    c == '\'' || c == '"'
  }

  /** `;?\s*$` at the end of a line. */
  predicate IsLineEnd(s: string) {
    TrimStart(if |s| > 0 && s[0] == ';' then s[1..] else s) == ""
  }

  /** Where the scan is in the pattern. The flags record whether the `\s+`
      being read has seen its first whitespace character yet. */
  datatype Phase =
    | LeadingSpace                                  // `^\s*`, then `import`
    | BeforeBrace(spaced: bool)                     // `\s+\{`
    | InImports(imports: string)                    // `([^}]+)\}`
    | BeforeFrom(imports: string, spaced: bool)     // `\s+from`
    | BeforeQuote(imports: string, spaced: bool)    // `\s+['"]`
    | InPath(imports: string, path: string)         // `([^'"]+)['"]`, then `;?\s*$`

  /** What the captures of a phase must satisfy for the scan to be on track. */
  predicate PhaseOk(p: Phase) {
    match p
    case InImports(imports) => '}' !in imports
    case BeforeFrom(imports, _) => |imports| > 0 && '}' !in imports
    case BeforeQuote(imports, _) => |imports| > 0 && '}' !in imports
    case InPath(imports, path) => |imports| > 0 && '}' !in imports && forall k :: 0 <= k < |path| ==> !IsQuote(path[k])
    case _ => true
  }

  /** The pattern
        `^\s*import\s+\{([^}]+)\}\s+from\s+['"]([^'"]+)['"];?\s*$`
      read left to right over one line. No part of it can give back what it
      has read to a later part, so the scan never backtracks. */
  function Scan(s: string, p: Phase): (r: Option<ImportStatement>)
    requires PhaseOk(p)
    ensures r.Some? ==> |r.value.imports| > 0 && '}' !in r.value.imports
    ensures r.Some? ==> |r.value.fromPath| > 0 && forall k :: 0 <= k < |r.value.fromPath| ==> !IsQuote(r.value.fromPath[k])
    decreases |s|
  {
    match p
    case LeadingSpace =>
      if |s| > 0 && IsSpace(s[0]) then Scan(s[1..], p)
      else if StartsWith(s, "import") then Scan(s[6..], BeforeBrace(false))
      else None
    case BeforeBrace(spaced) =>
      if |s| > 0 && IsSpace(s[0]) then Scan(s[1..], BeforeBrace(true))
      else if spaced && |s| > 0 && s[0] == '{' then Scan(s[1..], InImports(""))
      else None
    case InImports(imports) =>
      if |s| == 0 then None
      else if s[0] != '}' then Scan(s[1..], InImports(imports + [s[0]]))
      else if imports == "" then None
      else Scan(s[1..], BeforeFrom(imports, false))
    case BeforeFrom(imports, spaced) =>
      if |s| > 0 && IsSpace(s[0]) then Scan(s[1..], BeforeFrom(imports, true))
      else if spaced && StartsWith(s, "from") then Scan(s[4..], BeforeQuote(imports, false))
      else None
    case BeforeQuote(imports, spaced) =>
      if |s| > 0 && IsSpace(s[0]) then Scan(s[1..], BeforeQuote(imports, true))
      else if spaced && |s| > 0 && IsQuote(s[0]) then Scan(s[1..], InPath(imports, ""))
      else None
    case InPath(imports, path) =>
      if |s| == 0 then None
      else if !IsQuote(s[0]) then Scan(s[1..], InPath(imports, path + [s[0]]))
      else if path != "" && IsLineEnd(s[1..]) then Some(ImportStatement(imports, path))
      else None
  }

  /** The import pattern applied to a single line. */
  function ParseImportLine(line: string): Option<ImportStatement> {
    Scan(line, LeadingSpace)
  }

  /** The import line as it is usually written. */
  function CanonicalImport(imports: string, path: string): string {
    "import {" + imports + "} from '" + path + "';"
  }

  /** The braces' contents are read up to the first closing brace. */
  lemma {:induction false} ScanImports(chunk: string, rest: string, imports: string)
    requires '}' !in imports && '}' !in chunk
    ensures Scan(chunk + rest, InImports(imports)) == Scan(rest, InImports(imports + chunk))
    decreases |chunk|
  {
    if |chunk| == 0 {
      assert chunk + rest == rest;
      assert imports + chunk == imports;
    } else {
      assert (chunk + rest)[0] == chunk[0];
      assert (chunk + rest)[1..] == chunk[1..] + rest;
      assert imports + [chunk[0]] + chunk[1..] == imports + chunk;
      ScanImports(chunk[1..], rest, imports + [chunk[0]]);
    }
  }

  /** The path is read up to the first quote. */
  lemma {:induction false} ScanPath(chunk: string, rest: string, imports: string, path: string)
    requires |imports| > 0 && '}' !in imports
    requires forall k :: 0 <= k < |path| ==> !IsQuote(path[k])
    requires forall k :: 0 <= k < |chunk| ==> !IsQuote(chunk[k])
    ensures Scan(chunk + rest, InPath(imports, path)) == Scan(rest, InPath(imports, path + chunk))
    decreases |chunk|
  {
    if |chunk| == 0 {
      assert chunk + rest == rest;
      assert path + chunk == path;
    } else {
      assert (chunk + rest)[0] == chunk[0];
      assert (chunk + rest)[1..] == chunk[1..] + rest;
      assert path + [chunk[0]] + chunk[1..] == path + chunk;
      ScanPath(chunk[1..], rest, imports, path + [chunk[0]]);
    }
  }

  /** One step of the scan over a whitespace character inside a `\s+`. */
  lemma SpaceStep(c: char, rest: string, p: Phase)
    requires IsSpace(c) && PhaseOk(p)
    requires p.BeforeBrace? || p.BeforeFrom? || p.BeforeQuote?
    ensures p.BeforeBrace? ==> Scan([c] + rest, p) == Scan(rest, BeforeBrace(true))
    ensures p.BeforeFrom? ==> Scan([c] + rest, p) == Scan(rest, BeforeFrom(p.imports, true))
    ensures p.BeforeQuote? ==> Scan([c] + rest, p) == Scan(rest, BeforeQuote(p.imports, true))
  {
    assert ([c] + rest)[1..] == rest;
  }

  /** The keyword `from` after its whitespace. */
  lemma FromStep(word: string, rest: string, imports: string)
    requires word == "from" && |imports| > 0 && '}' !in imports
    ensures Scan(word + rest, BeforeFrom(imports, true)) == Scan(rest, BeforeQuote(imports, false))
  {
    assert (word + rest)[0] == 'f';
    assert (word + rest)[..4] == word;
    assert (word + rest)[4..] == rest;
  }

  /** The keyword `import` at the start of the line. */
  lemma ImportStep(word: string, rest: string)
    requires word == "import"
    ensures Scan(word + rest, LeadingSpace) == Scan(rest, BeforeBrace(false))
  {
    assert (word + rest)[0] == 'i';
    assert (word + rest)[..6] == word;
    assert (word + rest)[6..] == rest;
  }

  /** A single character that moves the scan to its next phase: the opening
      brace, the closing brace, the opening quote. */
  lemma DelimiterStep(c: char, rest: string, p: Phase)
    requires PhaseOk(p)
    requires (p == BeforeBrace(true) && c == '{')
      || (p.InImports? && c == '}' && p.imports != "")
      || (p.BeforeQuote? && p.spaced && IsQuote(c))
    ensures p.BeforeBrace? ==> Scan([c] + rest, p) == Scan(rest, InImports(""))
    ensures p.InImports? ==> Scan([c] + rest, p) == Scan(rest, BeforeFrom(p.imports, false))
    ensures p.BeforeQuote? ==> Scan([c] + rest, p) == Scan(rest, InPath(p.imports, ""))
  {
    assert ([c] + rest)[1..] == rest;
  }

  /** The closing quote and the optional semicolon end the line. */
  lemma CloseStep(q: char, semi: string, imports: string, path: string)
    requires IsQuote(q) && (semi == "" || semi == ";")
    requires |imports| > 0 && '}' !in imports
    requires |path| > 0 && forall k :: 0 <= k < |path| ==> !IsQuote(path[k])
    ensures Scan([q] + semi, InPath(imports, path)) == Some(ImportStatement(imports, path))
  {
    assert ([q] + semi)[1..] == semi;
  }

  /** The canonical line, spelled out piece by piece. */
  lemma CanonicalPieces(imports: string, path: string)
    ensures CanonicalImport(imports, path)
         == "import" + ([' '] + (['{'] + (imports + (['}'] + ([' '] + ("from" + ([' '] + (['\''] + (path + (['\''] + ";"))))))))))
  {
  }

  /** Round trip: the canonical line of a well-formed statement parses back to it. */
  lemma ParseCanonical(imports: string, path: string)
    requires |imports| > 0 && '}' !in imports
    requires |path| > 0 && forall k :: 0 <= k < |path| ==> !IsQuote(path[k])
    ensures ParseImportLine(CanonicalImport(imports, path)) == Some(ImportStatement(imports, path))
  {
    var t5 := [' '] + (['\''] + (path + (['\''] + ";")));
    var t4 := [' '] + ("from" + t5);
    var t3 := imports + (['}'] + t4);
    var t2 := ['{'] + t3;
    var t1 := [' '] + t2;
    CanonicalPieces(imports, path);
    ImportStep("import", t1);
    SpaceStep(' ', t2, BeforeBrace(false));
    DelimiterStep('{', t3, BeforeBrace(true));
    ScanImports(imports, ['}'] + t4, "");
    assert "" + imports == imports;
    DelimiterStep('}', t4, InImports(imports));
    SpaceStep(' ', "from" + t5, BeforeFrom(imports, false));
    FromStep("from", t5, imports);
    SpaceStep(' ', ['\''] + (path + (['\''] + ";")), BeforeQuote(imports, false));
    DelimiterStep('\'', path + (['\''] + ";"), BeforeQuote(imports, true));
    ScanPath(path, ['\''] + ";", imports, "");
    assert "" + path == path;
    CloseStep('\'', ";", imports, path);
  }

  /** Indentation in front of an import line is ignored. */
  lemma {:induction false} IndentationIgnored(ws: string, line: string)
    requires forall k :: 0 <= k < |ws| ==> IsSpace(ws[k])
    ensures ParseImportLine(ws + line) == ParseImportLine(line)
    decreases |ws|
  {
    if |ws| == 0 {
      assert ws + line == line;
    } else {
      assert (ws + line)[0] == ws[0];
      assert (ws + line)[1..] == ws[1..] + line;
      IndentationIgnored(ws[1..], line);
    }
  }

  // ---------------------------------------------------------------------------
  // The imported names
  // ---------------------------------------------------------------------------

  /** `parts.map((name) => name.trim())`. */
  function TrimAll(parts: seq<string>): (r: seq<string>)
    ensures |r| == |parts|
    ensures forall k :: 0 <= k < |r| ==> r[k] == Trim(parts[k])
  {
    if |parts| == 0 then [] else [Trim(parts[0])] + TrimAll(parts[1..])
  }

  /** A name read from an import list: non-empty, without commas, and without
      whitespace at either end. */
  predicate IsName(t: string) {
    t != "" && ',' !in t && !IsSpace(t[0]) && !IsSpace(t[|t| - 1])
  }

  /** The trimmed comma-separated pieces are names, apart from the empty ones. */
  lemma TrimmedPieces(imports: string)
    ensures forall t :: t in TrimAll(Split(imports, ',')) && t != "" ==> IsName(t)
  {
    var parts := Split(imports, ',');
    var trimmed := TrimAll(parts);
    forall t | t in trimmed && t != ""
      ensures IsName(t)
    {
      var j :| 0 <= j < |trimmed| && trimmed[j] == t;
      NotInTrim(parts[j], ',');
    }
  }

  /** `imports.split(',').map((name) => name.trim()).filter(Boolean)`. */
  function ImportedNames(imports: string): (names: seq<string>)
    ensures forall k :: 0 <= k < |names| ==> IsName(names[k])
  {
    TrimmedPieces(imports);
    NonEmpty(TrimAll(Split(imports, ',')))
  }

  /** Round trip: names joined by commas are read back as they were. */
  lemma NamesRoundTrip(names: seq<string>)
    requires |names| > 0
    requires forall k :: 0 <= k < |names| ==> IsName(names[k])
    ensures ImportedNames(Join(names, ",")) == names
  {
    SplitJoin(names, ',');
    forall k | 0 <= k < |names|
      ensures Trim(names[k]) == names[k]
    {
      TrimOfTrimmed(names[k]);
    }
    assert TrimAll(names) == names;
    NonEmptyKeepsAll(names);
  }

  // ---------------------------------------------------------------------------
  // extractSnippetComponents
  // ---------------------------------------------------------------------------

  /** One imported name with the (trimmed) module path it comes from. */
  datatype Import = Import(path: string, name: string)

  /** A development-mode warning about a name the registry does not know. */
  datatype Warning = Warning(name: string, path: string)

  /** The loaders found so far, by component name, and the warnings issued. */
  datatype Collected = Collected(injectors: map<string, Loader>, warnings: seq<Warning>)

  datatype Rewritten = Rewritten(lines: seq<string>, collected: Collected)

  datatype Extracted = Extracted(cleanedSource: string, snippetInjectors: map<string, Loader>, warnings: seq<Warning>)

  /** The statement on a line when the line imports from a snippet module: one
      the pattern matches whose trimmed path starts with "/snippets/". */
  function SnippetImport(line: string): (r: Option<ImportStatement>)
    ensures r.Some? ==> StartsWith(Trim(r.value.fromPath), SnippetPrefix) && ParseImportLine(line) == r
  {
    match ParseImportLine(line)
    case Some(st) => if StartsWith(Trim(st.fromPath), SnippetPrefix) then Some(st) else None
    case None => None
  }

  /** The names a line imports from snippet modules, in order; none for any other line. */
  function ImportsOf(line: string): (r: seq<Import>)
    ensures SnippetImport(line).None? ==> r == []
    ensures forall k :: 0 <= k < |r| ==> r[k].name != "" && StartsWith(r[k].path, SnippetPrefix)
  {
    match SnippetImport(line)
    case None => []
    case Some(st) =>
      var names := ImportedNames(st.imports);
      seq(|names|, k requires 0 <= k < |names| => Import(Trim(st.fromPath), names[k]))
  }

  /** Every injector is the loader of the export of its own name. */
  predicate LoadersNamed(injectors: map<string, Loader>) {
    forall n :: n in injectors ==> injectors[n].exportName == n
  }

  /** One step of `names.forEach`: a registered name is (re)bound to its loader,
      an unknown one only warns, and only outside production. */
  function Register(acc: Collected, imp: Import, production: bool): (r: Collected)
    ensures LoadersNamed(acc.injectors) ==> LoadersNamed(r.injectors)
    ensures production ==> r.warnings == acc.warnings
  {
    match ResolveSnippetComponent(imp.path, imp.name)
    case Some(loader) => Collected(acc.injectors[imp.name := loader], acc.warnings)
    case None => if production then acc else Collected(acc.injectors, acc.warnings + [Warning(imp.name, imp.path)])
  }

  function RegisterAll(acc: Collected, imports: seq<Import>, production: bool): (r: Collected)
    ensures LoadersNamed(acc.injectors) ==> LoadersNamed(r.injectors)
    ensures production ==> r.warnings == acc.warnings
    decreases |imports|
  {
    if |imports| == 0 then acc else RegisterAll(Register(acc, imports[0], production), imports[1..], production)
  }

  /** The names of `imports` that the registry resolves. */
  ghost predicate Resolvable(imports: seq<Import>, n: string) {
    exists j :: 0 <= j < |imports| && imports[j].name == n && ResolveSnippetComponent(imports[j].path, n).Some?
  }

  /** The warnings for `imports`, in order: one per name the registry does not resolve. */
  function Unresolved(imports: seq<Import>): seq<Warning> {
    if |imports| == 0 then []
    else
      var w := if ResolveSnippetComponent(imports[0].path, imports[0].name).None?
        then [Warning(imports[0].name, imports[0].path)] else [];
      w + Unresolved(imports[1..])
  }

  lemma {:induction false} RegisterAllConcat(acc: Collected, a: seq<Import>, b: seq<Import>, production: bool)
    ensures RegisterAll(acc, a + b, production) == RegisterAll(RegisterAll(acc, a, production), b, production)
    decreases |a|
  {
    if |a| == 0 {
      assert a + b == b;
    } else {
      assert (a + b)[0] == a[0];
      assert (a + b)[1..] == a[1..] + b;
      RegisterAllConcat(Register(acc, a[0], production), a[1..], b, production);
    }
  }

  /** The names bound after registering are the ones bound before plus the
      resolvable imported ones; nothing is ever unbound. */
  lemma {:induction false} RegisterAllNames(acc: Collected, imports: seq<Import>, production: bool, n: string)
    ensures n in RegisterAll(acc, imports, production).injectors <==> n in acc.injectors || Resolvable(imports, n)
    decreases |imports|
  {
    if |imports| > 0 {
      var next := Register(acc, imports[0], production);
      RegisterAllNames(next, imports[1..], production, n);
      ResolvableCons(imports, n);
    }
  }

  lemma ResolvableCons(imports: seq<Import>, n: string)
    requires |imports| > 0
    ensures Resolvable(imports, n) <==>
      (imports[0].name == n && ResolveSnippetComponent(imports[0].path, n).Some?) || Resolvable(imports[1..], n)
  {
    if Resolvable(imports, n) {
      var j :| 0 <= j < |imports| && imports[j].name == n && ResolveSnippetComponent(imports[j].path, n).Some?;
      if j > 0 {
        assert imports[1..][j - 1] == imports[j];
      }
    }
    if Resolvable(imports[1..], n) {
      var j :| 0 <= j < |imports[1..]| && imports[1..][j].name == n && ResolveSnippetComponent(imports[1..][j].path, n).Some?;
      assert imports[j + 1] == imports[1..][j];
    }
  }

  /** Outside production the warnings are exactly the unresolved names, in order. */
  lemma {:induction false} RegisterAllWarnings(acc: Collected, imports: seq<Import>)
    ensures RegisterAll(acc, imports, false).warnings == acc.warnings + Unresolved(imports)
    decreases |imports|
  {
    if |imports| == 0 {
      assert acc.warnings + [] == acc.warnings;
    } else {
      var next := Register(acc, imports[0], false);
      RegisterAllWarnings(next, imports[1..]);
      var w := if ResolveSnippetComponent(imports[0].path, imports[0].name).None?
        then [Warning(imports[0].name, imports[0].path)] else [];
      assert next.warnings == acc.warnings + w;
      assert acc.warnings + w + Unresolved(imports[1..]) == acc.warnings + (w + Unresolved(imports[1..]));
    }
  }

  /** A later import of a registered name rebinds it. */
  lemma LaterImportWins(acc: Collected, imports: seq<Import>, last: Import, production: bool)
    requires ResolveSnippetComponent(last.path, last.name).Some?
    ensures last.name in RegisterAll(acc, imports + [last], production).injectors
    ensures RegisterAll(acc, imports + [last], production).injectors[last.name]
         == ResolveSnippetComponent(last.path, last.name).value
  {
    RegisterAllConcat(acc, imports, [last], production);
    assert [last][1..] == [];
  }

  /** What the `replace` callback leaves of a line: nothing of a snippet
      import, all of any other line. */
  function CleanLine(line: string): (r: string)
    ensures r == "" || r == line
    ensures '\n' in r ==> '\n' in line
  {
    if SnippetImport(line).Some? then "" else line
  }

  /** The lines that are left, one for each line of the source. */
  function CleanLines(lines: seq<string>): (r: seq<string>)
    ensures |r| == |lines|
    ensures forall k :: 0 <= k < |lines| ==> r[k] == CleanLine(lines[k])
  {
    if |lines| == 0 then [] else [CleanLine(lines[0])] + CleanLines(lines[1..])
  }

  /** The `replace` over the lines: a snippet import line becomes empty and
      registers its names; every other line is kept as it is. */
  function RewriteLines(lines: seq<string>, acc: Collected, production: bool): (r: Rewritten)
    ensures r.lines == CleanLines(lines)
    decreases |lines|
  {
    if |lines| == 0 then Rewritten([], acc)
    else
      var here := CleanLine(lines[0]);
      var rest := RewriteLines(lines[1..], RegisterAll(acc, ImportsOf(lines[0]), production), production);
      Rewritten([here] + rest.lines, rest.collected)
  }

  /** All snippet imports of a list of lines, in order. */
  function AllImports(lines: seq<string>): seq<Import> {
    if |lines| == 0 then [] else ImportsOf(lines[0]) + AllImports(lines[1..])
  }

  /** Rewriting line by line registers exactly the imports of all lines, in order. */
  lemma {:induction false} RewriteCollects(lines: seq<string>, acc: Collected, production: bool)
    ensures RewriteLines(lines, acc, production).collected == RegisterAll(acc, AllImports(lines), production)
    decreases |lines|
  {
    if |lines| > 0 {
      var next := RegisterAll(acc, ImportsOf(lines[0]), production);
      RewriteCollects(lines[1..], next, production);
      RegisterAllConcat(acc, ImportsOf(lines[0]), AllImports(lines[1..]), production);
    }
  }

  lemma {:induction false} NoImportsAnywhere(lines: seq<string>)
    requires forall k :: 0 <= k < |lines| ==> SnippetImport(lines[k]).None?
    ensures AllImports(lines) == []
  {
    if |lines| > 0 {
      NoImportsAnywhere(lines[1..]);
    }
  }

  /** `extractSnippetComponents(source)`, with `production` standing for the
      `NODE_ENV` test. It never fails; every loader it returns is the one for
      the export of the name it is stored under, and production issues no warning. */
  function ExtractSnippetComponents(source: string, production: bool): (r: Extracted)
    ensures LoadersNamed(r.snippetInjectors)
    ensures production ==> r.warnings == []
  {
    var rw := RewriteLines(Split(source, '\n'), Collected(map[], []), production);
    RewriteCollects(Split(source, '\n'), Collected(map[], []), production);
    Extracted(Join(rw.lines, "\n"), rw.collected.injectors, rw.collected.warnings)
  }

  /** The cleaned source has the same lines as the source, except that each
      snippet import line is now empty. */
  lemma CleanedLines(source: string, production: bool)
    ensures var lines := Split(source, '\n');
      var cleaned := Split(ExtractSnippetComponents(source, production).cleanedSource, '\n');
      && |cleaned| == |lines|
      && forall k :: 0 <= k < |lines| ==> cleaned[k] == CleanLine(lines[k])
  {
    var lines := Split(source, '\n');
    var rw := RewriteLines(lines, Collected(map[], []), production);
    assert forall k :: 0 <= k < |rw.lines| ==> '\n' !in rw.lines[k];
    SplitJoin(rw.lines, '\n');
  }

  /** A source without snippet imports comes back unchanged, with no loaders and no warnings. */
  lemma NoSnippetImportsUnchanged(source: string, production: bool)
    requires forall k :: 0 <= k < |Split(source, '\n')| ==> SnippetImport(Split(source, '\n')[k]).None?
    ensures ExtractSnippetComponents(source, production) == Extracted(source, map[], [])
  {
    var lines := Split(source, '\n');
    var rw := RewriteLines(lines, Collected(map[], []), production);
    assert rw.lines == lines;
    RewriteCollects(lines, Collected(map[], []), production);
    NoImportsAnywhere(lines);
  }

  /** A name gets a loader exactly when some snippet import of the source
      names it and the registry resolves it under that import's path. */
  lemma InjectedNames(source: string, production: bool, n: string)
    ensures n in ExtractSnippetComponents(source, production).snippetInjectors
        <==> Resolvable(AllImports(Split(source, '\n')), n)
  {
    var lines := Split(source, '\n');
    RewriteCollects(lines, Collected(map[], []), production);
    RegisterAllNames(Collected(map[], []), AllImports(lines), production, n);
  }

  /** Outside production there is one warning per unresolved imported name, in order. */
  lemma WarningsOutsideProduction(source: string)
    ensures ExtractSnippetComponents(source, false).warnings == Unresolved(AllImports(Split(source, '\n')))
  {
    var lines := Split(source, '\n');
    RewriteCollects(lines, Collected(map[], []), false);
    RegisterAllWarnings(Collected(map[], []), AllImports(lines));
    assert [] + Unresolved(AllImports(lines)) == Unresolved(AllImports(lines));
  }

  /** The console text of a warning. */
  function WarningMessage(w: Warning): (m: string)
    ensures |m| == |w.name| + |w.path| + 54
    ensures m[44..44 + |w.name|] == w.name
  {
    "[docs] Unable to resolve snippet component \"" + w.name + "\" from \"" + w.path + "\"."
  }

  // ---------------------------------------------------------------------------
  // compileDocEntry
  // ---------------------------------------------------------------------------

  /** The optional fields a document's frontmatter may set. */
  datatype Frontmatter = Frontmatter(
    title: Option<string>,
    description: Option<string>,
    group: Option<string>,
    badge: Option<string>,
    keywords: Option<seq<string>>,
    timeEstimate: Option<string>,
    lastUpdated: Option<string>)

  const NoFrontmatter := Frontmatter(None, None, None, None, None, None, None)

  /** Why a found document does not load: a snippet loader failed, the
      compiler rejected the source, or the file exists but `readFile` fails
      on it (a directory, or no read permission). */
  datatype Rejection = SnippetsMissing(names: set<string>) | InvalidSource | UnreadableSource

  /** `slugPath || frontmatter?.title || 'doc'`: empty strings count as absent. */
  function DocId(slugPath: string, title: Option<string>): (id: string)
    ensures id != ""
    ensures slugPath != "" ==> id == slugPath
    ensures slugPath == "" && title.Some? && title.value != "" ==> id == title.value
  {
    if slugPath != "" then slugPath
    else if title.Some? && title.value != "" then title.value
    else "doc"
  }

  /** The entry for a compiled document: the frontmatter's fields where set,
      the defaults elsewhere, and the `href` the manifest rule gives the slug. */
  function CompiledEntry(slug: seq<string>, fm: Frontmatter, body: Body, today: string): (d: DocEntry)
    ensures d == Entry(ConfigOf(d)) && d.slug == slug && d.body == body
    ensures d.id != ""
    ensures d.id == DocId(SlugKey(slug), fm.title)
    ensures fm.title.Some? ==> d.title == fm.title.value
    ensures fm.title.None? ==> d.title == DeriveTitleFromSlug(SlugKey(slug))
    ensures fm.description.Some? ==> d.description == fm.description.value
    ensures fm.group.Some? ==> d.group == fm.group.value
    ensures d.badge == fm.badge
    ensures fm.keywords.Some? ==> d.keywords == fm.keywords.value
    ensures fm.timeEstimate.Some? ==> d.timeEstimate == fm.timeEstimate.value
    ensures fm.lastUpdated.Some? ==> d.lastUpdated == fm.lastUpdated.value
    ensures fm.description.None? ==> d.description == ""
    ensures fm.group.None? ==> d.group == "Docs"
    ensures fm.keywords.None? ==> d.keywords == []
    ensures fm.timeEstimate.None? ==> d.timeEstimate == "5 min"
    ensures fm.lastUpdated.None? ==> d.lastUpdated == today
    ensures fm == NoFrontmatter ==>
      && d.description == "" && d.group == "Docs" && d.badge.None?
      && d.keywords == [] && d.timeEstimate == "5 min" && d.lastUpdated == today
  {
    var slugPath := SlugKey(slug);
    DocEntry(
      DocId(slugPath, fm.title),
      fm.title.GetOr(DeriveTitleFromSlug(slugPath)),
      fm.description.GetOr(""),
      slug,
      "/" + slugPath,
      fm.group.GetOr("Docs"),
      fm.badge,
      fm.keywords.GetOr([]),
      body,
      fm.timeEstimate.GetOr("5 min"),
      fm.lastUpdated.GetOr(today))
  }

  /** Awaiting every injector's loader: the components by name when all of them
      load, otherwise the names whose loaders fail. */
  function LoadComponents(injectors: map<string, Loader>, modules: Modules): (r: Result<map<string, Component>, set<string>>)
    ensures r.Success? ==> r.value.Keys == injectors.Keys
    ensures r.Success? ==> forall n :: n in r.value ==> RunLoader(injectors[n], modules) == Success(r.value[n])
    ensures r.Failure? ==> r.error != {}
    ensures r.Failure? ==> forall n :: n in r.error <==> n in injectors && RunLoader(injectors[n], modules).Failure?
  {
    if forall n :: n in injectors ==> RunLoader(injectors[n], modules).Success? then
      Success(map n | n in injectors :: RunLoader(injectors[n], modules).value)
    else
      var failing := set n | n in injectors && RunLoader(injectors[n], modules).Failure?;
      var bad :| bad in injectors && RunLoader(injectors[bad], modules).Failure?;
      assert bad in failing;
      Failure(failing)
  }

  /** `compileDocEntry(filePath, slugSegments)` once the file's text is read.
      `compile` stands for the MDX compiler: the frontmatter of a source it
      accepts, nothing for one it rejects. */
  function CompileDocEntry(slug: seq<string>, source: string, modules: Modules,
                           compile: string -> Option<Frontmatter>, today: string, production: bool)
    : (r: Result<DocEntry, Rejection>)
    ensures r.Success? ==> r.value == Entry(ConfigOf(r.value)) && r.value.slug == slug && r.value.id != ""
    ensures r.Success? ==>
      && r.value.body.Compiled?
      && r.value.body.source == ExtractSnippetComponents(source, production).cleanedSource
      && r.value.body.components.Keys == ExtractSnippetComponents(source, production).snippetInjectors.Keys
    ensures r.Success? <==>
      && LoadComponents(ExtractSnippetComponents(source, production).snippetInjectors, modules).Success?
      && compile(ExtractSnippetComponents(source, production).cleanedSource).Some?
    ensures r.Success? ==>
      r.value == CompiledEntry(slug, compile(ExtractSnippetComponents(source, production).cleanedSource).value, r.value.body, today)
  {
    var extracted := ExtractSnippetComponents(source, production);
    match LoadComponents(extracted.snippetInjectors, modules)
    case Failure(names) => Failure(SnippetsMissing(names))
    case Success(components) =>
      match compile(extracted.cleanedSource)
      case None => Failure(InvalidSource)
      case Some(fm) => Success(CompiledEntry(slug, fm, Compiled(extracted.cleanedSource, components), today))
  }
}

=== FILE: docs.dfy ===
/** The static document manifest of src/data/docs.ts and the two indices built
    from it once at start-up, plus the resolution of a navigation page id to a
    navigation item. */
module Docs {
  import opened Wrappers
  import opened Text
  import opened Slug
  import opened Snippets

  /** What renders a document: a component bundled at build time, or the
      cleaned source of a compiled file with the snippet components injected. */
  datatype Body = Bundled(moduleName: string) | Compiled(source: string, components: map<string, Component>)

  datatype DocEntry = DocEntry(
    id: string,
    title: string,
    description: string,
    slug: seq<string>,
    href: string,
    group: string,
    badge: Option<string>,
    keywords: seq<string>,
    body: Body,
    timeEstimate: string,
    lastUpdated: string)

  /** A manifest row as written, before `entry` adds the `href`. */
  datatype DocConfig = DocConfig(
    id: string,
    title: string,
    description: string,
    slug: seq<string>,
    group: string,
    badge: Option<string>,
    keywords: seq<string>,
    body: Body,
    timeEstimate: string,
    lastUpdated: string)

  datatype NavItem = NavItem(id: string, title: string, href: string, badge: Option<string>, description: Option<string>)

  /** The key a slug is stored under: its segments joined by '/'. */
  function SlugKey(slug: seq<string>): string {
    Join(slug, "/")
  }

  /** The `href` of the page a slug names. */
  function HrefOf(slug: seq<string>): (href: string)
    ensures href == "/" + SlugKey(slug)
    ensures href[1..] == SlugKey(slug)
  {
    if |slug| > 0 then "/" + SlugKey(slug) else "/"
  }

  /** Drops the `href`, recovering the manifest row. */
  function ConfigOf(d: DocEntry): DocConfig {
    DocConfig(d.id, d.title, d.description, d.slug, d.group, d.badge, d.keywords, d.body, d.timeEstimate, d.lastUpdated)
  }

  /** `entry(config)`: the row with its `href`, "/" for the root page. */
  function Entry(c: DocConfig): (d: DocEntry)
    ensures ConfigOf(d) == c
    ensures d.href == "/" + SlugKey(c.slug)
    ensures |c.slug| == 0 ==> d.href == "/"
  {
    DocEntry(c.id, c.title, c.description, c.slug, HrefOf(c.slug), c.group, c.badge, c.keywords, c.body, c.timeEstimate, c.lastUpdated)
  }

  /** `docEntries`: the ten bundled documents, the root introduction first. */
  function Manifest(): seq<DocEntry> {
    [
      Entry(DocConfig("introduction", "Introduction", "Overview of the Dox template architecture and guiding principles.",
        [], "Overview", None, ["overview", "dox", "mintlify alternative"], Bundled("Introduction"), "4 min", "2024-12-01")),
      Entry(DocConfig("quickstart", "Quickstart", "Spin up a fully functional documentation workspace in minutes.",
        ["quickstart"], "Overview", None, ["setup", "install"], Bundled("Quickstart"), "6 min", "2024-12-02")),
      Entry(DocConfig("authentication", "Authentication", "API key management, OAuth flows, and session hardening tips.",
        ["authentication"], "Core", None, ["oauth", "api keys"], Bundled("Authentication"), "5 min", "2024-12-02")),
      Entry(DocConfig("pagination", "Pagination", "Cursor-based pagination semantics for every collection endpoint.",
        ["pagination"], "Core", None, ["pagination", "cursor"], Bundled("Pagination"), "3 min", "2024-12-02")),
      Entry(DocConfig("webhooks", "Webhooks", "Reliable events, signing strategies, and delivery guarantees.",
        ["webhooks"], "Integrations", Some("beta"), ["webhooks", "events"], Bundled("Webhooks"), "7 min", "2024-12-03")),
      Entry(DocConfig("sdks", "SDKs", "Language SDKs with typed responses and ergonomic helpers.",
        ["sdks"], "Integrations", None, ["sdk", "client"], Bundled("Sdks"), "4 min", "2024-12-03")),
      Entry(DocConfig("errors", "Errors", "Consistent error payloads with trace IDs for debugging.",
        ["errors"], "References", None, ["errors", "debugging"], Bundled("Errors"), "2 min", "2024-12-03")),
      Entry(DocConfig("customization", "Customization", "Modify spacing, panels, and typography via shared layout tokens.",
        ["customization"], "Foundations", None, ["layout", "theming"], Bundled("Customization"), "3 min", "2024-12-05")),
      Entry(DocConfig("showcase", "Visual Regression Deck", "Stress-test headings, callouts, and multi-language code blocks.",
        ["showcase"], "Foundations", None, ["testing", "visual"], Bundled("Showcase"), "4 min", "2024-12-06")),
      Entry(DocConfig("api-reference", "API Reference Automation", "Wire an OpenAPI spec into the docs shell with overrides and grouping.",
        ["api-reference"], "References", None, ["openapi", "reference"], Bundled("ApiReferenceGuide"), "5 min", "2024-12-07"))
    ]
  }

  // ---------------------------------------------------------------------------
  // docEntriesBySlug: slug key -> entry, a later entry overwriting an earlier one.
  // ---------------------------------------------------------------------------

  function BySlug(es: seq<DocEntry>): (r: map<string, DocEntry>)
    ensures forall k :: k in r ==> r[k] in es && SlugKey(r[k].slug) == k
  {
    if |es| == 0 then map[]
    else BySlug(es[..|es| - 1])[SlugKey(es[|es| - 1].slug) := es[|es| - 1]]
  }

  /** Every entry's key is present, and a key maps to the last entry carrying it. */
  lemma {:induction false} BySlugLastWins(es: seq<DocEntry>, i: nat)
    requires i < |es|
    requires forall j :: i < j < |es| ==> SlugKey(es[j].slug) != SlugKey(es[i].slug)
    ensures SlugKey(es[i].slug) in BySlug(es) && BySlug(es)[SlugKey(es[i].slug)] == es[i]
    decreases |es|
  {
    if i < |es| - 1 {
      BySlugLastWins(es[..|es| - 1], i);
    }
  }

  /** The keys are exactly the entries' keys. */
  lemma {:induction false} BySlugKeys(es: seq<DocEntry>, k: string)
    ensures k in BySlug(es) <==> exists i :: 0 <= i < |es| && SlugKey(es[i].slug) == k
    decreases |es|
  {
    if |es| > 0 {
      var init := es[..|es| - 1];
      BySlugKeys(init, k);
      if exists i :: 0 <= i < |init| && SlugKey(init[i].slug) == k {
        var i :| 0 <= i < |init| && SlugKey(init[i].slug) == k;
        assert es[i] == init[i];
      }
      if exists i :: 0 <= i < |es| && SlugKey(es[i].slug) == k {
        var i :| 0 <= i < |es| && SlugKey(es[i].slug) == k;
        if i < |init| { assert init[i] == es[i]; }
      }
    }
  }

  // ---------------------------------------------------------------------------
  // docIndex: id, slug-path alias and root aliases.
  // ---------------------------------------------------------------------------

  /** Registering one document: its id unconditionally, its slug path only when
      that key is still free, and a root document also under "/" and "". */
  function IndexStep(m: map<string, DocEntry>, d: DocEntry): map<string, DocEntry> {
    var withId := m[d.id := d];
    var slugPath := SlugKey(d.slug);
    var withAlias := if slugPath != "" && slugPath !in withId then withId[slugPath := d] else withId;
    if |d.slug| == 0 then withAlias["/" := d]["" := d] else withAlias
  }

  function DocIndex(es: seq<DocEntry>): (r: map<string, DocEntry>)
    ensures forall k :: k in r ==> r[k] in es
  {
    if |es| == 0 then map[] else IndexStep(DocIndex(es[..|es| - 1]), es[|es| - 1])
  }

  predicate IsRoot(d: DocEntry) {
    |d.slug| == 0
  }

  /** The keys of the index: every id, every non-empty slug path, and "/" and ""
      when there is a root document. */
  ghost predicate IsIndexKey(es: seq<DocEntry>, k: string) {
    || (exists i :: 0 <= i < |es| && es[i].id == k)
    || (k != "" && exists i :: 0 <= i < |es| && SlugKey(es[i].slug) == k)
    || ((k == "/" || k == "") && exists i :: 0 <= i < |es| && IsRoot(es[i]))
  }

  lemma {:induction false} DocIndexKeys(es: seq<DocEntry>, k: string)
    ensures k in DocIndex(es) <==> IsIndexKey(es, k)
    decreases |es|
  {
    if |es| > 0 {
      var init := es[..|es| - 1];
      DocIndexKeys(init, k);
      PrefixKeys(es, k);
    }
  }

  lemma PrefixKeys(es: seq<DocEntry>, k: string)
    requires |es| > 0
    ensures var init := es[..|es| - 1]; var d := es[|es| - 1];
      IsIndexKey(es, k) <==>
        IsIndexKey(init, k) || d.id == k || (k != "" && SlugKey(d.slug) == k) || ((k == "/" || k == "") && IsRoot(d))
  {
    var init := es[..|es| - 1];
    if IsIndexKey(init, k) {
      if exists i :: 0 <= i < |init| && init[i].id == k {
        var i :| 0 <= i < |init| && init[i].id == k;
        assert es[i] == init[i];
      }
      if k != "" && exists i :: 0 <= i < |init| && SlugKey(init[i].slug) == k {
        var i :| 0 <= i < |init| && SlugKey(init[i].slug) == k;
        assert es[i] == init[i];
      }
      if (k == "/" || k == "") && exists i :: 0 <= i < |init| && IsRoot(init[i]) {
        var i :| 0 <= i < |init| && IsRoot(init[i]);
        assert es[i] == init[i];
      }
    }
    if exists i :: 0 <= i < |es| - 1 && es[i].id == k {
      var i :| 0 <= i < |es| - 1 && es[i].id == k;
      assert init[i] == es[i];
    }
    if k != "" && exists i :: 0 <= i < |es| - 1 && SlugKey(es[i].slug) == k {
      var i :| 0 <= i < |es| - 1 && SlugKey(es[i].slug) == k;
      assert init[i] == es[i];
    }
    if (k == "/" || k == "") && exists i :: 0 <= i < |es| - 1 && IsRoot(es[i]) {
      var i :| 0 <= i < |es| - 1 && IsRoot(es[i]);
      assert init[i] == es[i];
    }
  }

  /** Every value in the index is one of the documents. */
  lemma {:induction false} DocIndexValues(es: seq<DocEntry>, k: string)
    requires k in DocIndex(es)
    ensures DocIndex(es)[k] in es
    decreases |es|
  {
    if |es| > 0 {
      var init := es[..|es| - 1];
      if k in DocIndex(init) && DocIndex(es)[k] == DocIndex(init)[k] {
        DocIndexValues(init, k);
      }
    }
  }

  /** A document owns its id unless a later document reuses that id, or the id
      is "/" or "" and a later root document claims the root aliases. */
  lemma {:induction false} DocIndexIdWins(es: seq<DocEntry>, i: nat)
    requires i < |es|
    requires forall j :: i < j < |es| ==> es[j].id != es[i].id
    requires es[i].id == "/" || es[i].id == "" ==> forall j :: i < j < |es| ==> !IsRoot(es[j])
    ensures es[i].id in DocIndex(es) && DocIndex(es)[es[i].id] == es[i]
    decreases |es|
  {
    if i < |es| - 1 {
      DocIndexIdWins(es[..|es| - 1], i);
    }
  }

  /** The root aliases point at the last root document, unless a later document
      has "/" or "" as its id. */
  lemma {:induction false} DocIndexRootAlias(es: seq<DocEntry>, i: nat)
    requires i < |es| && IsRoot(es[i])
    requires forall j :: i < j < |es| ==> !IsRoot(es[j]) && es[j].id != "/" && es[j].id != ""
    ensures "/" in DocIndex(es) && DocIndex(es)["/"] == es[i]
    ensures "" in DocIndex(es) && DocIndex(es)[""] == es[i]
    decreases |es|
  {
    if i < |es| - 1 {
      DocIndexRootAlias(es[..|es| - 1], i);
    }
  }

  /** A slug path that is nobody's id (and not a root alias in use) maps to
      the FIRST document with that path: later ones find the key taken. */
  lemma {:induction false} DocIndexFirstSlugWins(es: seq<DocEntry>, i: nat)
    requires i < |es|
    requires SlugKey(es[i].slug) != ""
    requires forall j :: 0 <= j < i ==> SlugKey(es[j].slug) != SlugKey(es[i].slug)
    requires forall j :: 0 <= j < |es| ==> es[j].id != SlugKey(es[i].slug)
    requires SlugKey(es[i].slug) == "/" ==> forall j :: 0 <= j < |es| ==> !IsRoot(es[j])
    ensures SlugKey(es[i].slug) in DocIndex(es) && DocIndex(es)[SlugKey(es[i].slug)] == es[i]
    decreases |es|
  {
    var k := SlugKey(es[i].slug);
    if i < |es| - 1 {
      DocIndexFirstSlugWins(es[..|es| - 1], i);
    } else {
      var init := es[..|es| - 1];
      DocIndexKeys(init, k);
      assert forall j :: 0 <= j < |init| ==> init[j] == es[j];
      assert !IsIndexKey(init, k);
    }
  }

  // ---------------------------------------------------------------------------
  // resolveDocForNavigation
  // ---------------------------------------------------------------------------

  /** `pageId.replace(/^\//, '')`: at most one leading slash removed. */
  function StripLeadingSlash(pageId: string): string {
    if |pageId| > 0 && pageId[0] == '/' then pageId[1..] else pageId
  }

  /** The navigation fields of a document. */
  function ItemOf(d: DocEntry): NavItem {
    NavItem(d.id, d.title, d.href, d.badge, Some(d.description))
  }

  /** The best-effort item for a page id no document answers to. */
  function SynthesizedItem(pageId: string): NavItem {
    NavItem(SlugifyId(pageId), DeriveTitleFromSlug(pageId), NormalizeHref(pageId), None, Some(""))
  }

  function LookupDoc(pageId: string, index: map<string, DocEntry>): Option<DocEntry> {
    if pageId in index then Some(index[pageId])
    else if StripLeadingSlash(pageId) in index then Some(index[StripLeadingSlash(pageId)])
    else None
  }

  function ResolveDocForNavigation(pageId: string, index: map<string, DocEntry>): (r: Option<NavItem>)
    ensures r.None? <==> pageId == "" && "" !in index
    ensures pageId in index ==> r == Some(ItemOf(index[pageId]))
    ensures LookupDoc(pageId, index).Some? ==> r == Some(ItemOf(LookupDoc(pageId, index).value))
    ensures LookupDoc(pageId, index).None? && pageId != "" ==>
      r == Some(NavItem(SlugifyId(pageId), DeriveTitleFromSlug(pageId), NormalizeHref(pageId), None, Some("")))
  {
    match LookupDoc(pageId, index)
    case Some(doc) => Some(ItemOf(doc))
    case None => if pageId == "" then None else Some(SynthesizedItem(pageId))
  }

  /** A page id no document answers to still yields an item: its id is a slug,
      it has no badge and an empty description, and its href is site-absolute
      unless the page id is an external URL. */
  lemma SynthesizedItemShape(pageId: string, index: map<string, DocEntry>)
    requires LookupDoc(pageId, index).None? && pageId != ""
    ensures var r := ResolveDocForNavigation(pageId, index);
      && r.Some? && IsSlug(r.value.id) && r.value.badge.None? && r.value.description == Some("")
      && (StartsWith(r.value.href, "/") || IsHttpUrl(r.value.href))
      && r.value.title == DeriveTitleFromSlug(pageId)
      && r.value.id == SlugifyId(pageId) && r.value.href == NormalizeHref(pageId)
  {
  }

  /** A page id with or without its leading slash finds the same document when
      the slashed form is not itself a key. */
  lemma LeadingSlashIsOptional(p: string, index: map<string, DocEntry>)
    requires "/" + p !in index && p in index
    ensures ResolveDocForNavigation("/" + p, index) == ResolveDocForNavigation(p, index)
  {
    assert StripLeadingSlash("/" + p) == p;
  }

  /** When every indexed document has a site-absolute href, so does every
      navigation item, unless a page id names an external URL. */
  lemma NavigationHrefs(pageId: string, index: map<string, DocEntry>)
    requires forall k :: k in index ==> StartsWith(index[k].href, "/")
    ensures var r := ResolveDocForNavigation(pageId, index);
      r.Some? ==> |r.value.href| > 0 && (StartsWith(r.value.href, "/") || IsHttpUrl(r.value.href))
  {
  }

  /** Documents built with `entry` all have site-absolute hrefs, and so has the index. */
  lemma EntryHrefs(es: seq<DocEntry>)
    requires forall i :: 0 <= i < |es| ==> es[i] == Entry(ConfigOf(es[i]))
    ensures forall k :: k in DocIndex(es) ==> StartsWith(DocIndex(es)[k].href, "/")
  {
    forall k | k in DocIndex(es)
      ensures StartsWith(DocIndex(es)[k].href, "/")
    {
      DocIndexValues(es, k);
      var d := DocIndex(es)[k];
      assert d == Entry(ConfigOf(d));
      assert d.href[..1] == "/";
    }
  }
}

=== FILE: navigation.dfy ===
/** The navigation builder of src/data/docs.ts: the nested group/page tree of
    the navigation description is flattened depth-first into titled sections,
    one list of sections per top-level tab. */
module Navigation {
  import opened Wrappers
  import opened Text
  import opened Slug
  import opened Docs

  /** A group of the navigation description; its pages are page ids or nested groups. */
  datatype NavGroup = NavGroup(group: string, pages: seq<Page>)
  datatype Page = PageRef(pageId: string) | Subgroup(sub: NavGroup)

  datatype Section = Section(title: string, items: seq<NavItem>)

  datatype Tab = Tab(id: Option<string>, tab: string, href: Option<string>, groups: Option<seq<NavGroup>>)
  datatype Language = Language(language: string, tabs: seq<Tab>)

  /** A sidebar collection; `caption` is the source's `label` (a reserved word here). */
  datatype Collection = Collection(id: string, caption: string, sections: seq<Section>, href: Option<string>)

  const TitleSeparator := " \U{2022} "

  /** The title of a section: its non-empty ancestor chain joined by " • ",
      "General" when there is none. */
  function SectionTitle(segments: seq<string>): string {
    if |segments| > 0 then Join(segments, TitleSeparator) else "General"
  }

  /** All items of a list of sections, in order. */
  function ItemsOf(sections: seq<Section>): seq<NavItem> {
    if |sections| == 0 then [] else sections[0].items + ItemsOf(sections[1..])
  }

  /** The item a page id resolves to, as a list of zero or one items. */
  function Resolved(pageId: string, index: map<string, DocEntry>): seq<NavItem> {
    match ResolveDocForNavigation(pageId, index)
    case Some(item) => [item]
    case None => []
  }

  /** The items the page ids resolve to, skipping the ones that resolve to nothing. */
  function ResolvedItems(pageIds: seq<string>, index: map<string, DocEntry>): seq<NavItem> {
    if |pageIds| == 0 then [] else Resolved(pageIds[0], index) + ResolvedItems(pageIds[1..], index)
  }

  predicate NoEmptySection(sections: seq<Section>) {
    forall k :: 0 <= k < |sections| ==> |sections[k].items| > 0
  }

  /** The page ids of a group, depth-first in declaration order. */
  function LeafIds(g: NavGroup): seq<string>
    decreases g, 1
  {
    LeafIdsFrom(g, 0)
  }

  function LeafIdsFrom(g: NavGroup, i: nat): seq<string>
    requires i <= |g.pages|
    decreases g, 0, |g.pages| - i
  {
    if i == |g.pages| then []
    else
      var here := match g.pages[i] case PageRef(p) => [p] case Subgroup(sub) => LeafIds(sub);
      here + LeafIdsFrom(g, i + 1)
  }

  /** Closes the pending run of leaf items as one section, if there is one. */
  function Flush(done: seq<Section>, title: string, buffer: seq<NavItem>): seq<Section> {
    if |buffer| > 0 then done + [Section(title, buffer)] else done
  }

  /** `buildNavigationSections(group, ancestors)`: no section is empty, and the
      sections' items are exactly the group's resolvable page ids, depth-first. */
  function BuildNavigationSections(g: NavGroup, ancestors: seq<string>, index: map<string, DocEntry>): (r: seq<Section>)
    ensures NoEmptySection(r)
    ensures ItemsOf(r) == ResolvedItems(LeafIds(g), index)
    decreases g, 1
  {
    var segments := NonEmpty(ancestors + [g.group]);
    var r := Walk(g, 0, segments, [], [], index);
    assert ItemsOf([]) + [] == [];
    r
  }

  /** The `forEach` over `group.pages`, with the sections emitted so far and the
      buffered run of leaf items as accumulators. */
  function Walk(g: NavGroup, i: nat, segments: seq<string>, done: seq<Section>, buffer: seq<NavItem>,
                index: map<string, DocEntry>): (r: seq<Section>)
    requires i <= |g.pages|
    requires NoEmptySection(done)
    ensures NoEmptySection(r)
    ensures ItemsOf(r) == ItemsOf(done) + buffer + ResolvedItems(LeafIdsFrom(g, i), index)
    decreases g, 0, |g.pages| - i
  {
    var title := SectionTitle(segments);
    if i == |g.pages| then
      FlushItems(done, title, buffer);
      Flush(done, title, buffer)
    else
      match g.pages[i]
      case PageRef(p) =>
        var r := Walk(g, i + 1, segments, done, buffer + Resolved(p, index), index);
        LeafStep(g, i, p, ItemsOf(done), buffer, index);
        r
      case Subgroup(sub) =>
        var flushed := Flush(done, title, buffer);
        FlushItems(done, title, buffer);
        var nested := BuildNavigationSections(sub, segments, index);
        ItemsOfConcat(flushed, nested);
        var r := Walk(g, i + 1, segments, flushed + nested, [], index);
        assert ItemsOf(r) == ItemsOf(done) + buffer + ResolvedItems(LeafIds(sub), index) + []
                             + ResolvedItems(LeafIdsFrom(g, i + 1), index);
        SubgroupStep(g, i, sub, ItemsOf(done) + buffer, index);
        r
  }

  lemma LeafStep(g: NavGroup, i: nat, p: string, prefix: seq<NavItem>, buffer: seq<NavItem>,
                 index: map<string, DocEntry>)
    requires i < |g.pages| && g.pages[i] == PageRef(p)
    ensures prefix + (buffer + Resolved(p, index)) + ResolvedItems(LeafIdsFrom(g, i + 1), index)
         == prefix + buffer + ResolvedItems(LeafIdsFrom(g, i), index)
  {
    LeafItems(g, i, p, index);
    Regroup(prefix, buffer, Resolved(p, index), ResolvedItems(LeafIdsFrom(g, i + 1), index));
  }

  lemma LeafItems(g: NavGroup, i: nat, p: string, index: map<string, DocEntry>)
    requires i < |g.pages| && g.pages[i] == PageRef(p)
    ensures ResolvedItems(LeafIdsFrom(g, i), index) == Resolved(p, index) + ResolvedItems(LeafIdsFrom(g, i + 1), index)
  {
    assert LeafIdsFrom(g, i) == [p] + LeafIdsFrom(g, i + 1);
    ResolvedItemsConcat([p], LeafIdsFrom(g, i + 1), index);
    assert ResolvedItems([p], index) == Resolved(p, index) + ResolvedItems([], index);
  }

  lemma Regroup<T>(a: seq<T>, b: seq<T>, c: seq<T>, d: seq<T>)
    ensures a + (b + c) + d == a + b + (c + d)
  {
  }

  lemma SubgroupStep(g: NavGroup, i: nat, sub: NavGroup, prefix: seq<NavItem>, index: map<string, DocEntry>)
    requires i < |g.pages| && g.pages[i] == Subgroup(sub)
    ensures prefix + ResolvedItems(LeafIds(sub), index) + [] + ResolvedItems(LeafIdsFrom(g, i + 1), index)
         == prefix + ResolvedItems(LeafIdsFrom(g, i), index)
  {
    assert LeafIdsFrom(g, i) == LeafIds(sub) + LeafIdsFrom(g, i + 1);
    ResolvedItemsConcat(LeafIds(sub), LeafIdsFrom(g, i + 1), index);
    var x, y := ResolvedItems(LeafIds(sub), index), ResolvedItems(LeafIdsFrom(g, i + 1), index);
    assert prefix + x + [] == prefix + x;
    ConcatAssoc(prefix, x, y);
  }

  lemma FlushItems(done: seq<Section>, title: string, buffer: seq<NavItem>)
    requires NoEmptySection(done)
    ensures NoEmptySection(Flush(done, title, buffer))
    ensures ItemsOf(Flush(done, title, buffer)) == ItemsOf(done) + buffer
  {
    if |buffer| > 0 {
      ItemsOfConcat(done, [Section(title, buffer)]);
      assert ItemsOf([Section(title, buffer)]) == buffer + ItemsOf([]);
    }
  }

  lemma {:induction false} ItemsOfConcat(a: seq<Section>, b: seq<Section>)
    ensures ItemsOf(a + b) == ItemsOf(a) + ItemsOf(b)
    decreases |a|
  {
    if |a| == 0 {
      assert a + b == b;
    } else {
      assert (a + b)[0] == a[0] && (a + b)[1..] == a[1..] + b;
      ItemsOfConcat(a[1..], b);
      ConcatAssoc(a[0].items, ItemsOf(a[1..]), ItemsOf(b));
    }
  }

  lemma {:induction false} ResolvedItemsConcat(a: seq<string>, b: seq<string>, index: map<string, DocEntry>)
    ensures ResolvedItems(a + b, index) == ResolvedItems(a, index) + ResolvedItems(b, index)
    decreases |a|
  {
    if |a| == 0 {
      assert a + b == b;
    } else {
      assert (a + b)[0] == a[0] && (a + b)[1..] == a[1..] + b;
      ResolvedItemsConcat(a[1..], b, index);
      ConcatAssoc(Resolved(a[0], index), ResolvedItems(a[1..], index), ResolvedItems(b, index));
    }
  }

  /** Flattening drops no page id: every one resolves when the index has a
      root document, so the items line up one-to-one with the leaves. */
  lemma {:induction false} EveryLeafResolves(pageIds: seq<string>, index: map<string, DocEntry>)
    requires "" in index
    ensures |ResolvedItems(pageIds, index)| == |pageIds|
    ensures forall k :: 0 <= k < |pageIds| ==>
      Some(ResolvedItems(pageIds, index)[k]) == ResolveDocForNavigation(pageIds[k], index)
  {
    if |pageIds| > 0 {
      EveryLeafResolves(pageIds[1..], index);
    }
  }

  /** The leaf runs on either side of a nested group are not merged:
      `A: [p1, B: [p2], p3]` gives `A: [p1]`, `A • B: [p2]`, `A: [p3]`. */
  lemma InterleavingKept(a: string, b: string, p1: string, p2: string, p3: string,
                         i1: NavItem, i2: NavItem, i3: NavItem, index: map<string, DocEntry>)
    requires a != "" && b != ""
    requires Resolved(p1, index) == [i1] && Resolved(p2, index) == [i2] && Resolved(p3, index) == [i3]
    ensures BuildNavigationSections(NavGroup(a, [PageRef(p1), Subgroup(NavGroup(b, [PageRef(p2)])), PageRef(p3)]), [], index)
         == [Section(a, [i1]), Section(a + TitleSeparator + b, [i2]), Section(a, [i3])]
  {
    var g := NavGroup(a, [PageRef(p1), Subgroup(NavGroup(b, [PageRef(p2)])), PageRef(p3)]);
    var s12 := [Section(a, [i1]), Section(a + TitleSeparator + b, [i2])];
    InterleavingHead(g, a, b, p1, p2, p3, i1, i2, index);
    InterleavingTail(g, a, p3, s12, i3, index);
    assert SectionTitle([a]) == a;
    assert s12 + [Section(a, [i3])] == [Section(a, [i1]), Section(a + TitleSeparator + b, [i2]), Section(a, [i3])];
  }

  /** The first two steps of `InterleavingKept`: the run before the nested
      group is closed, then the nested group's own section follows. */
  lemma InterleavingHead(g: NavGroup, a: string, b: string, p1: string, p2: string, p3: string,
                         i1: NavItem, i2: NavItem, index: map<string, DocEntry>)
    requires a != "" && b != ""
    requires g == NavGroup(a, [PageRef(p1), Subgroup(NavGroup(b, [PageRef(p2)])), PageRef(p3)])
    requires Resolved(p1, index) == [i1] && Resolved(p2, index) == [i2]
    ensures BuildNavigationSections(g, [], index)
         == Walk(g, 2, [a], [Section(a, [i1]), Section(a + TitleSeparator + b, [i2])], [], index)
  {
    var inner := NavGroup(b, [PageRef(p2)]);
    BuildTopLevel(g, index);
    HeadLeaf(g, a, p1, i1, index);
    HeadSubgroup(g, a, inner, i1, index);
    InnerWalk(inner, a, b, p2, i2, index);
    assert [Section(a, [i1])] + [Section(a + TitleSeparator + b, [i2])]
        == [Section(a, [i1]), Section(a + TitleSeparator + b, [i2])];
  }

  lemma HeadLeaf(g: NavGroup, a: string, p1: string, i1: NavItem, index: map<string, DocEntry>)
    requires |g.pages| > 0 && g.pages[0] == PageRef(p1) && Resolved(p1, index) == [i1]
    ensures Walk(g, 0, [a], [], [], index) == Walk(g, 1, [a], [], [i1], index)
  {
    WalkLeaf(g, 0, p1, [a], [], [], index);
    assert [] + Resolved(p1, index) == [i1];
  }

  lemma HeadSubgroup(g: NavGroup, a: string, inner: NavGroup, i1: NavItem, index: map<string, DocEntry>)
    requires |g.pages| > 1 && g.pages[1] == Subgroup(inner)
    ensures NoEmptySection([Section(a, [i1])] + BuildNavigationSections(inner, [a], index))
    ensures Walk(g, 1, [a], [], [i1], index)
         == Walk(g, 2, [a], [Section(a, [i1])] + BuildNavigationSections(inner, [a], index), [], index)
  {
    WalkSubgroup(g, 1, inner, [a], [], [i1], index);
    assert SectionTitle([a]) == a;
    assert Flush([], a, [i1]) == [Section(a, [i1])];
  }

  /** A top-level group with a non-empty name titles its sections by that name alone. */
  lemma BuildTopLevel(g: NavGroup, index: map<string, DocEntry>)
    requires g.group != ""
    ensures BuildNavigationSections(g, [], index) == Walk(g, 0, [g.group], [], [], index)
  {
    assert [] + [g.group] == [g.group];
    NonEmptyKeepsAll([g.group]);
  }

  /** The last steps of `InterleavingKept`: the run after the nested group
      becomes a section of its own. */
  lemma InterleavingTail(g: NavGroup, a: string, p3: string, done: seq<Section>, i3: NavItem,
                         index: map<string, DocEntry>)
    requires |g.pages| == 3 && g.pages[2] == PageRef(p3) && NoEmptySection(done)
    requires Resolved(p3, index) == [i3]
    ensures Walk(g, 2, [a], done, [], index) == done + [Section(SectionTitle([a]), [i3])]
  {
    WalkLeaf(g, 2, p3, [a], done, [], index);
    assert [] + Resolved(p3, index) == [i3];
    WalkEnd(g, [a], done, [i3], index);
  }

  /** The nested single-page group of `InterleavingKept` on its own. */
  lemma InnerWalk(inner: NavGroup, a: string, b: string, p2: string, i2: NavItem, index: map<string, DocEntry>)
    requires a != "" && b != "" && inner == NavGroup(b, [PageRef(p2)])
    requires Resolved(p2, index) == [i2]
    ensures BuildNavigationSections(inner, [a], index) == [Section(a + TitleSeparator + b, [i2])]
  {
    assert NonEmpty([a] + [b]) == [a, b] by { assert [a] + [b] == [a, b]; NonEmptyKeepsAll([a, b]); }
    assert SectionTitle([a, b]) == a + TitleSeparator + b by {
      assert [a, b][1..] == [b];
      assert Join([b], TitleSeparator) == b;
    }
    assert BuildNavigationSections(inner, [a], index) == Walk(inner, 0, [a, b], [], [], index);
    WalkLeaf(inner, 0, p2, [a, b], [], [], index);
    assert [] + Resolved(p2, index) == [i2];
    WalkEnd(inner, [a, b], [], [i2], index);
    assert Flush([], a + TitleSeparator + b, [i2]) == [Section(a + TitleSeparator + b, [i2])];
  }

  /** One step of the walk over a page id: its item joins the pending run.
      An unfolding of `Walk`, used as a proof step by `InterleavingKept` and `WalkTitles`. */
  lemma WalkLeaf(g: NavGroup, i: nat, p: string, segments: seq<string>, done: seq<Section>, buffer: seq<NavItem>,
                 index: map<string, DocEntry>)
    requires i < |g.pages| && g.pages[i] == PageRef(p) && NoEmptySection(done)
    ensures Walk(g, i, segments, done, buffer, index) == Walk(g, i + 1, segments, done, buffer + Resolved(p, index), index)
  {
  }

  /** The end of the walk: the pending run becomes the last section.
      An unfolding of `Walk`, used as a proof step by `InterleavingKept` and `WalkTitles`. */
  lemma WalkEnd(g: NavGroup, segments: seq<string>, done: seq<Section>, buffer: seq<NavItem>,
                index: map<string, DocEntry>)
    requires NoEmptySection(done)
    ensures Walk(g, |g.pages|, segments, done, buffer, index) == Flush(done, SectionTitle(segments), buffer)
  {
  }

  /** One step of the walk over a nested group: the pending run is closed,
      then the group's own sections follow. An unfolding of `Walk`, used as
      a proof step by `InterleavingKept` and `WalkTitles`. */
  lemma WalkSubgroup(g: NavGroup, i: nat, sub: NavGroup, segments: seq<string>, done: seq<Section>, buffer: seq<NavItem>,
                     index: map<string, DocEntry>)
    requires i < |g.pages| && g.pages[i] == Subgroup(sub) && NoEmptySection(done)
    ensures Walk(g, i, segments, done, buffer, index)
         == Walk(g, i + 1, segments, Flush(done, SectionTitle(segments), buffer) + BuildNavigationSections(sub, segments, index), [], index)
  {
  }

  // ---------------------------------------------------------------------------
  // Section titles: every item is shown under the title of its group chain.
  // ---------------------------------------------------------------------------

  /** Each item paired with the same tag. */
  function Tag<T>(t: T, items: seq<NavItem>): (r: seq<(T, NavItem)>)
    ensures |r| == |items|
    ensures forall k :: 0 <= k < |r| ==> r[k] == (t, items[k])
  {
    seq(|items|, k requires 0 <= k < |items| => (t, items[k]))
  }

  /** Every item of the sections paired with the title it is shown under. */
  function TitledItems(sections: seq<Section>): seq<(string, NavItem)> {
    if |sections| == 0 then [] else Tag(sections[0].title, sections[0].items) + TitledItems(sections[1..])
  }

  /** The reference flattening: every resolved leaf of `g`, depth-first, paired
      with its chain of non-empty group names. Leaves placed directly in `g`
      get `chain`; a nested group extends it by its own name. */
  function LeafChains(g: NavGroup, chain: seq<string>, index: map<string, DocEntry>): seq<(seq<string>, NavItem)>
    decreases g, 1
  {
    LeafChainsFrom(g, 0, chain, index)
  }

  function LeafChainsFrom(g: NavGroup, i: nat, chain: seq<string>, index: map<string, DocEntry>): seq<(seq<string>, NavItem)>
    requires i <= |g.pages|
    decreases g, 0, |g.pages| - i
  {
    if i == |g.pages| then []
    else
      var here := match g.pages[i]
        case PageRef(p) => Tag(chain, Resolved(p, index))
        case Subgroup(sub) => LeafChains(sub, NonEmpty(chain + [sub.group]), index);
      here + LeafChainsFrom(g, i + 1, chain, index)
  }

  /** Each chain replaced by the section title it reads as. */
  function Titles(xs: seq<(seq<string>, NavItem)>): (r: seq<(string, NavItem)>)
    ensures |r| == |xs|
    ensures forall k :: 0 <= k < |r| ==> r[k] == (SectionTitle(xs[k].0), xs[k].1)
  {
    seq(|xs|, k requires 0 <= k < |xs| => (SectionTitle(xs[k].0), xs[k].1))
  }

  lemma TagConcat<T>(t: T, a: seq<NavItem>, b: seq<NavItem>)
    ensures Tag(t, a + b) == Tag(t, a) + Tag(t, b)
  {
  }

  lemma TitlesConcat(a: seq<(seq<string>, NavItem)>, b: seq<(seq<string>, NavItem)>)
    ensures Titles(a + b) == Titles(a) + Titles(b)
  {
  }

  lemma TitlesOfTag(chain: seq<string>, items: seq<NavItem>)
    ensures Titles(Tag(chain, items)) == Tag(SectionTitle(chain), items)
  {
  }

  lemma {:induction false} TitledItemsConcat(a: seq<Section>, b: seq<Section>)
    ensures TitledItems(a + b) == TitledItems(a) + TitledItems(b)
    decreases |a|
  {
    if |a| == 0 {
      assert a + b == b;
    } else {
      assert (a + b)[0] == a[0] && (a + b)[1..] == a[1..] + b;
      TitledItemsConcat(a[1..], b);
      ConcatAssoc(Tag(a[0].title, a[0].items), TitledItems(a[1..]), TitledItems(b));
    }
  }

  /** Closing the pending run shows its items under the current title. */
  lemma FlushTitles(done: seq<Section>, title: string, buffer: seq<NavItem>)
    ensures TitledItems(Flush(done, title, buffer)) == TitledItems(done) + Tag(title, buffer)
  {
    if |buffer| > 0 {
      TitledItemsConcat(done, [Section(title, buffer)]);
      assert TitledItems([Section(title, buffer)]) == Tag(title, buffer) + TitledItems([]);
    } else {
      assert Tag(title, buffer) == [];
    }
  }

  /** `buildNavigationSections` shows every item under the title of its chain:
      the item/title pairs of its sections are exactly the reference
      flattening with each chain read as a title. */
  lemma {:induction false} SectionTitles(g: NavGroup, ancestors: seq<string>, index: map<string, DocEntry>)
    ensures TitledItems(BuildNavigationSections(g, ancestors, index))
         == Titles(LeafChains(g, NonEmpty(ancestors + [g.group]), index))
    decreases g, 1
  {
    var segments := NonEmpty(ancestors + [g.group]);
    WalkTitles(g, 0, segments, [], [], index);
    assert TitledItems([]) + Tag(SectionTitle(segments), []) == [];
  }

  /** The walk's invariant for titles: what is emitted, then the pending run
      under the current title, then the rest of the group's leaves. */
  lemma {:induction false} WalkTitles(g: NavGroup, i: nat, segments: seq<string>, done: seq<Section>,
                                      buffer: seq<NavItem>, index: map<string, DocEntry>)
    requires i <= |g.pages|
    requires NoEmptySection(done)
    ensures TitledItems(Walk(g, i, segments, done, buffer, index))
         == TitledItems(done) + Tag(SectionTitle(segments), buffer) + Titles(LeafChainsFrom(g, i, segments, index))
    decreases g, 0, |g.pages| - i
  {
    var title := SectionTitle(segments);
    if i == |g.pages| {
      WalkEnd(g, segments, done, buffer, index);
      FlushTitles(done, title, buffer);
      assert LeafChainsFrom(g, i, segments, index) == [];
    } else {
      var next := LeafChainsFrom(g, i + 1, segments, index);
      match g.pages[i]
      case PageRef(p) =>
        var items := Resolved(p, index);
        WalkLeaf(g, i, p, segments, done, buffer, index);
        WalkTitles(g, i + 1, segments, done, buffer + items, index);
        assert LeafChainsFrom(g, i, segments, index) == Tag(segments, items) + next;
        LeafTitlesStep(TitledItems(done), segments, buffer, items, next);
      case Subgroup(sub) =>
        var flushed := Flush(done, title, buffer);
        var nested := BuildNavigationSections(sub, segments, index);
        var chains := LeafChains(sub, NonEmpty(segments + [sub.group]), index);
        FlushItems(done, title, buffer);
        WalkSubgroup(g, i, sub, segments, done, buffer, index);
        WalkTitles(g, i + 1, segments, flushed + nested, [], index);
        assert LeafChainsFrom(g, i, segments, index) == chains + next;
        SectionTitles(sub, segments, index);
        SubgroupTitlesStep(done, title, buffer, nested, chains, next);
    }
  }

  /** A leaf's items join the pending run under the current title. */
  lemma LeafTitlesStep(emitted: seq<(string, NavItem)>, segments: seq<string>, buffer: seq<NavItem>,
                       items: seq<NavItem>, next: seq<(seq<string>, NavItem)>)
    ensures emitted + Tag(SectionTitle(segments), buffer + items) + Titles(next)
         == emitted + Tag(SectionTitle(segments), buffer) + Titles(Tag(segments, items) + next)
  {
    var title := SectionTitle(segments);
    TagConcat(title, buffer, items);
    TitlesConcat(Tag(segments, items), next);
    TitlesOfTag(segments, items);
    ConcatAssoc(emitted + Tag(title, buffer), Tag(title, items), Titles(next));
  }

  /** A nested group closes the pending run and then shows its own items. */
  lemma SubgroupTitlesStep(done: seq<Section>, title: string, buffer: seq<NavItem>, nested: seq<Section>,
                           chains: seq<(seq<string>, NavItem)>, next: seq<(seq<string>, NavItem)>)
    requires TitledItems(nested) == Titles(chains)
    ensures TitledItems(Flush(done, title, buffer) + nested) + Tag(title, []) + Titles(next)
         == TitledItems(done) + Tag(title, buffer) + Titles(chains + next)
  {
    var emitted := TitledItems(done) + Tag(title, buffer);
    TitledItemsConcat(Flush(done, title, buffer), nested);
    FlushTitles(done, title, buffer);
    assert TitledItems(Flush(done, title, buffer) + nested) == emitted + Titles(chains);
    assert |Tag(title, [])| == 0;
    TitlesConcat(chains, next);
    ConcatAssoc(emitted, Titles(chains), Titles(next));
  }

  /** Every tagged chain starts with `chain`. */
  predicate AllExtend(chain: seq<string>, xs: seq<(seq<string>, NavItem)>) {
    forall k :: 0 <= k < |xs| ==> chain <= xs[k].0
  }

  lemma AllExtendConcat(chain: seq<string>, a: seq<(seq<string>, NavItem)>, b: seq<(seq<string>, NavItem)>)
    requires AllExtend(chain, a) && AllExtend(chain, b)
    ensures AllExtend(chain, a + b)
  {
    forall k | 0 <= k < |a + b|
      ensures chain <= (a + b)[k].0
    {
      if k >= |a| {
        assert (a + b)[k] == b[k - |a|];
      }
    }
  }

  lemma AllExtendShorter(chain: seq<string>, longer: seq<string>, xs: seq<(seq<string>, NavItem)>)
    requires chain <= longer && AllExtend(longer, xs)
    ensures AllExtend(chain, xs)
  {
  }

  /** Adding a non-empty name to a chain of non-empty names extends it. */
  lemma ChainGrows(chain: seq<string>, name: string)
    requires forall k :: 0 <= k < |chain| ==> chain[k] != ""
    ensures chain <= NonEmpty(chain + [name])
    ensures forall k :: 0 <= k < |NonEmpty(chain + [name])| ==> NonEmpty(chain + [name])[k] != ""
  {
    NonEmptyConcat(chain, [name]);
    NonEmptyKeepsAll(chain);
  }

  /** Every chain of the reference flattening extends the chain it starts
      from, so a nested section's title begins with its ancestors' names. */
  lemma {:induction false} ChainsExtend(g: NavGroup, chain: seq<string>, index: map<string, DocEntry>)
    requires forall k :: 0 <= k < |chain| ==> chain[k] != ""
    ensures AllExtend(chain, LeafChains(g, chain, index))
    decreases g, 1
  {
    ChainsExtendFrom(g, 0, chain, index);
  }

  lemma {:induction false} ChainsExtendFrom(g: NavGroup, i: nat, chain: seq<string>, index: map<string, DocEntry>)
    requires i <= |g.pages|
    requires forall k :: 0 <= k < |chain| ==> chain[k] != ""
    ensures AllExtend(chain, LeafChainsFrom(g, i, chain, index))
    decreases g, 0, |g.pages| - i
  {
    if i < |g.pages| {
      var rest := LeafChainsFrom(g, i + 1, chain, index);
      ChainsExtendFrom(g, i + 1, chain, index);
      match g.pages[i]
      case PageRef(p) =>
        var here := Tag(chain, Resolved(p, index));
        assert LeafChainsFrom(g, i, chain, index) == here + rest;
        assert AllExtend(chain, here);
        AllExtendConcat(chain, here, rest);
      case Subgroup(sub) =>
        var longer := NonEmpty(chain + [sub.group]);
        var here := LeafChains(sub, longer, index);
        assert LeafChainsFrom(g, i, chain, index) == here + rest;
        ChainGrows(chain, sub.group);
        ChainsExtend(sub, longer, index);
        AllExtendShorter(chain, longer, here);
        AllExtendConcat(chain, here, rest);
    }
  }

  /** Every item of `buildNavigationSections(g, ancestors)` is shown under
      the title of a chain that starts with the ancestors' non-empty names
      followed by the group's own. */
  lemma TitlesExtendAncestors(g: NavGroup, ancestors: seq<string>, index: map<string, DocEntry>)
    ensures var titled := TitledItems(BuildNavigationSections(g, ancestors, index));
      forall k :: 0 <= k < |titled| ==>
        exists c :: NonEmpty(ancestors + [g.group]) <= c && titled[k].0 == SectionTitle(c)
  {
    var chain := NonEmpty(ancestors + [g.group]);
    var chains := LeafChains(g, chain, index);
    SectionTitles(g, ancestors, index);
    ChainsExtend(g, chain, index);
    var titled := TitledItems(BuildNavigationSections(g, ancestors, index));
    forall k | 0 <= k < |titled|
      ensures exists c :: chain <= c && titled[k].0 == SectionTitle(c)
    {
      assert chain <= chains[k].0 && titled[k].0 == SectionTitle(chains[k].0);
    }
  }

  /** Items placed directly in a group, before any nested group, are shown
      under the group's own title: the chain of its ancestors and its name. */
  lemma DirectLeavesTitle(g: NavGroup, ancestors: seq<string>, p: string, index: map<string, DocEntry>)
    requires |g.pages| > 0 && g.pages[0] == PageRef(p)
    ensures var titled := TitledItems(BuildNavigationSections(g, ancestors, index));
      var items := Resolved(p, index);
      |titled| >= |items| && titled[..|items|] == Tag(SectionTitle(NonEmpty(ancestors + [g.group])), items)
  {
    var chain := NonEmpty(ancestors + [g.group]);
    SectionTitles(g, ancestors, index);
    var items := Resolved(p, index);
    assert LeafChainsFrom(g, 0, chain, index) == Tag(chain, items) + LeafChainsFrom(g, 1, chain, index);
    TitlesConcat(Tag(chain, items), LeafChainsFrom(g, 1, chain, index));
    TitlesOfTag(chain, items);
  }

  // ---------------------------------------------------------------------------
  // buildSidebarCollectionsFromDocsJson
  // ---------------------------------------------------------------------------

  /** The language whose code matches, else the first one, else none. */
  function SelectLanguage(languages: seq<Language>, code: string): (r: Option<Language>)
    ensures r.None? <==> |languages| == 0
    ensures r.Some? ==> r.value in languages
    ensures (exists k :: 0 <= k < |languages| && languages[k].language == code) ==>
      r.Some? && r.value.language == code
    ensures (forall k :: 0 <= k < |languages| ==> languages[k].language != code) && |languages| > 0 ==>
      r == Some(languages[0])
    ensures forall k :: 0 <= k < |languages| && languages[k].language == code ==>
      (forall j :: 0 <= j < k ==> languages[j].language != code) ==> r == Some(languages[k])
  {
    match FindLanguage(languages, code, 0)
    case Some(k) => Some(languages[k])
    case None => if |languages| > 0 then Some(languages[0]) else None
  }

  /** `languages.find(...)` from position `i`: the index of the first language
      with the given code. */
  function FindLanguage(languages: seq<Language>, code: string, i: nat): (r: Option<nat>)
    requires i <= |languages|
    ensures r.Some? ==> (i <= r.value < |languages| && languages[r.value].language == code
      && forall j :: i <= j < r.value ==> languages[j].language != code)
    ensures r.None? ==> forall j :: i <= j < |languages| ==> languages[j].language != code
    decreases |languages| - i
  {
    if i == |languages| then None
    else if languages[i].language == code then Some(i)
    else FindLanguage(languages, code, i + 1)
  }

  /** `groups.flatMap((group) => buildNavigationSections(group))`. */
  function GroupsSections(groups: seq<NavGroup>, index: map<string, DocEntry>): (r: seq<Section>)
    ensures NoEmptySection(r)
    ensures ItemsOf(r) == ResolvedItems(GroupsLeafIds(groups), index)
  {
    if |groups| == 0 then []
    else
      var first := BuildNavigationSections(groups[0], [], index);
      var rest := GroupsSections(groups[1..], index);
      ItemsOfConcat(first, rest);
      ResolvedItemsConcat(LeafIds(groups[0]), GroupsLeafIds(groups[1..]), index);
      first + rest
  }

  function GroupsLeafIds(groups: seq<NavGroup>): seq<string> {
    if |groups| == 0 then [] else LeafIds(groups[0]) + GroupsLeafIds(groups[1..])
  }

  /** The reference flattening of a tab's groups, each from its own name. */
  function GroupsLeafChains(groups: seq<NavGroup>, index: map<string, DocEntry>): seq<(seq<string>, NavItem)> {
    if |groups| == 0 then []
    else LeafChains(groups[0], NonEmpty([] + [groups[0].group]), index) + GroupsLeafChains(groups[1..], index)
  }

  /** The sections of all of a tab's groups show every item under the title
      of its chain. */
  lemma {:induction false} GroupsTitles(groups: seq<NavGroup>, index: map<string, DocEntry>)
    ensures TitledItems(GroupsSections(groups, index)) == Titles(GroupsLeafChains(groups, index))
  {
    if |groups| > 0 {
      var first := BuildNavigationSections(groups[0], [], index);
      var chains := LeafChains(groups[0], NonEmpty([] + [groups[0].group]), index);
      GroupsTitles(groups[1..], index);
      TitledItemsConcat(first, GroupsSections(groups[1..], index));
      SectionTitles(groups[0], [], index);
      TitlesConcat(chains, GroupsLeafChains(groups[1..], index));
    }
  }

  /** One tab's collection: explicit id or the slugified label, the label, the
      sections of all its groups and its href, copied whether or not it is set. */
  function TabCollection(tab: Tab, index: map<string, DocEntry>): (c: Collection)
    ensures tab.id.Some? ==> c.id == tab.id.value
    ensures tab.id.None? ==> c.id == SlugifyId(tab.tab) && IsSlug(c.id)
    ensures NoEmptySection(c.sections)
    ensures ItemsOf(c.sections) == ResolvedItems(GroupsLeafIds(tab.groups.GetOr([])), index)
    ensures c.caption == tab.tab && c.href == tab.href
    ensures TitledItems(c.sections) == Titles(GroupsLeafChains(tab.groups.GetOr([]), index))
  {
    GroupsTitles(tab.groups.GetOr([]), index);
    Collection(tab.id.GetOr(SlugifyId(tab.tab)), tab.tab, GroupsSections(tab.groups.GetOr([]), index), tab.href)
  }

  function BuildSidebarCollections(languages: seq<Language>, code: string, index: map<string, DocEntry>): (r: seq<Collection>)
    ensures SelectLanguage(languages, code).None? ==> r == []
    ensures SelectLanguage(languages, code).Some? ==>
      var tabs := SelectLanguage(languages, code).value.tabs;
      |r| == |tabs| && forall k :: 0 <= k < |tabs| ==> r[k] == TabCollection(tabs[k], index)
  {
    match SelectLanguage(languages, code)
    case None => []
    case Some(language) => seq(|language.tabs|, k requires 0 <= k < |language.tabs| => TabCollection(language.tabs[k], index))
  }

  /** The collections the site starts with: the "en" language, or the first one. */
  function SidebarCollections(languages: seq<Language>, index: map<string, DocEntry>): seq<Collection> {
    BuildSidebarCollections(languages, "en", index)
  }
}

=== FILE: resolver.dfy ===
/** Looking a document up by its URL segments (src/data/get-doc.ts): the
    static manifest first, then a cache, per key, of what loading the document
    from the content directories produced. */
module Resolver {
  import opened Wrappers
  import opened Text
  import opened Snippets
  import opened Docs
  import opened Compiler

  // ---------------------------------------------------------------------------
  // The request key
  // ---------------------------------------------------------------------------

  /** `Array.isArray(slugSegments) ? slugSegments.filter(Boolean) : []`, with
      `None` standing for an argument that is not an array. */
  function NormalizeSegments(params: Option<seq<string>>): (r: seq<string>)
    ensures forall k :: 0 <= k < |r| ==> r[k] != ""
    ensures params.None? ==> r == []
    ensures params.Some? ==> forall k :: 0 <= k < |r| ==> r[k] in params.value
    ensures params.Some? ==> forall p :: p in params.value && p != "" ==> p in r
    ensures params.Some? ==> |r| + multiset(params.value)[""] == |params.value|
    ensures params.Some? && (forall k :: 0 <= k < |params.value| ==> params.value[k] != "") ==> r == params.value
  {
    match params
    case None => []
    case Some(segments) =>
      NonEmptyCount(segments);
      if forall k :: 0 <= k < |segments| ==> segments[k] != "" then
        NonEmptyKeepsAll(segments);
        NonEmpty(segments)
      else NonEmpty(segments)
  }

  /** The key a request is looked up under. */
  function RequestKey(params: Option<seq<string>>): (r: string)
    ensures r == "" <==> NormalizeSegments(params) == []
    ensures NormalizeSegments(params) != [] && (forall k :: 0 <= k < |NormalizeSegments(params)| ==> '/' !in NormalizeSegments(params)[k])
      ==> Split(r, '/') == NormalizeSegments(params)
  {
    var segments := NormalizeSegments(params);
    if segments != [] && forall k :: 0 <= k < |segments| ==> '/' !in segments[k] then
      SplitJoin(segments, '/');
      SlugKey(segments)
    else SlugKey(segments)
  }

  /** Normalising keeps the order of the segments: it distributes over
      concatenation, and a single segment is kept exactly when it is not empty. */
  lemma NormalizeKeepsOrder(a: seq<string>, b: seq<string>, x: string)
    ensures NormalizeSegments(Some(a + b)) == NormalizeSegments(Some(a)) + NormalizeSegments(Some(b))
    ensures NormalizeSegments(Some([x])) == if x == "" then [] else [x]
  {
    NonEmptyConcat(a, b);
    assert NonEmpty([x]) == (if x == "" then [] else [x]) by {
      assert [x][1..] == [];
    }
  }

  /** Normalising twice changes nothing. */
  lemma NormalizeIdempotent(params: Option<seq<string>>)
    ensures NormalizeSegments(Some(NormalizeSegments(params))) == NormalizeSegments(params)
  {
    NonEmptyKeepsAll(NormalizeSegments(params));
  }

  /** An empty segment anywhere in the request is dropped, the others keep
      their order, and so the key does not change. */
  lemma EmptySegmentsIgnored(a: seq<string>, b: seq<string>)
    ensures NormalizeSegments(Some(a + [""] + b)) == NormalizeSegments(Some(a + b))
    ensures RequestKey(Some(a + [""] + b)) == RequestKey(Some(a + b))
  {
    NonEmptyConcat(a + [""], b);
    NonEmptyConcat(a, [""]);
    NonEmptyConcat(a, b);
    assert NonEmpty([""]) == [];
    assert NonEmpty(a) + [] == NonEmpty(a);
  }

  // ---------------------------------------------------------------------------
  // findDocSource
  // ---------------------------------------------------------------------------

  /** The directory index a slug path may name, without its extension. */
  const IndexFile := "/index"

  /** The path a slug path is looked up under: the home page for the empty one. */
  function SlugFile(slugPath: string): (p: string)
    ensures p != ""
    ensures slugPath != "" ==> p == slugPath
  {
    if slugPath == "" then "home" else slugPath
  }

  /** A file name tried for the path `p`: `p` itself or an extension of it,
      naming an `.mdx` file. */
  predicate IsCandidateOf(name: string, p: string) {
    StartsWith(name, p) && EndsWith(name, ".mdx")
  }

  /** The file names tried for a slug path, in order: the path itself when it
      already names an `.mdx` file, else the file and the directory index. */
  function Candidates(slugPath: string): (c: seq<string>)
    ensures 1 <= |c| <= 2
    ensures forall k :: 0 <= k < |c| ==> IsCandidateOf(c[k], SlugFile(slugPath))
    ensures |c| == 1 <==> EndsWith(SlugFile(slugPath), ".mdx")
    ensures |c| == 1 ==> c[0] == SlugFile(slugPath)
    ensures |c| == 2 ==> c[0] == SlugFile(slugPath) + ".mdx" && c[1] == SlugFile(slugPath) + IndexFile + ".mdx"
  {
    var p := SlugFile(slugPath);
    CandidateNames(p);
    if EndsWith(p, ".mdx") then [p]
    else [p + ".mdx", p + IndexFile + ".mdx"]
  }

  lemma CandidateNames(p: string)
    ensures EndsWith(p, ".mdx") ==> IsCandidateOf(p, p)
    ensures IsCandidateOf(p + ".mdx", p)
    ensures IsCandidateOf(p + IndexFile + ".mdx", p)
  {
    assert p[..|p|] == p;
    PrefixOfConcat(p, ".mdx");
    SuffixOfConcat(p, ".mdx");
    PrefixOfConcat(p, IndexFile + ".mdx");
    SuffixOfConcat(p + IndexFile, ".mdx");
    assert p + IndexFile + ".mdx" == p + (IndexFile + ".mdx");
  }

  /** `path.join(root, candidate)`, without the normalisation of `.` and `..`. */
  function JoinPath(root: string, candidate: string): string {
    root + "/" + candidate
  }

  /** The paths tried under one root, in candidate order. */
  function Row(root: string, candidates: seq<string>): (r: seq<string>)
    ensures |r| == |candidates|
    ensures forall k :: 0 <= k < |r| ==> r[k] == JoinPath(root, candidates[k])
  {
    seq(|candidates|, k requires 0 <= k < |candidates| => JoinPath(root, candidates[k]))
  }

  /** Every path tried, roots in the outer loop and candidates in the inner one. */
  function SearchPaths(roots: seq<string>, candidates: seq<string>): seq<string> {
    if |roots| == 0 then [] else Row(roots[0], candidates) + SearchPaths(roots[1..], candidates)
  }

  /** The first path of the list that exists. */
  function FirstFound(paths: seq<string>, files: map<string, FileState>): (r: Option<string>)
    ensures r.Some? ==> r.value in files && r.value in paths
    ensures r.None? <==> forall k :: 0 <= k < |paths| ==> paths[k] !in files
  {
    if |paths| == 0 then None
    else if paths[0] in files then Some(paths[0])
    else
      assert forall k :: 1 <= k < |paths| ==> paths[k] == paths[1..][k - 1];
      FirstFound(paths[1..], files)
  }

  /** Nothing before the path found exists. */
  lemma {:induction false} FirstFoundIsFirst(paths: seq<string>, files: map<string, FileState>)
    requires FirstFound(paths, files).Some?
    ensures exists i :: 0 <= i < |paths| && paths[i] == FirstFound(paths, files).value
                        && forall k :: 0 <= k < i ==> paths[k] !in files
  {
    if paths[0] !in files {
      FirstFoundIsFirst(paths[1..], files);
      var i :| 0 <= i < |paths[1..]| && paths[1..][i] == FirstFound(paths, files).value
        && forall k :: 0 <= k < i ==> paths[1..][k] !in files;
      assert paths[i + 1] == paths[1..][i];
      assert forall k :: 1 <= k < i + 1 ==> paths[k] == paths[1..][k - 1];
    } else {
      assert paths[0] == FirstFound(paths, files).value;
    }
  }

  /** Searching a concatenation searches the first part, then the second. */
  lemma {:induction false} FirstFoundConcat(a: seq<string>, b: seq<string>, files: map<string, FileState>)
    ensures FirstFound(a + b, files) == if FirstFound(a, files).Some? then FirstFound(a, files) else FirstFound(b, files)
    decreases |a|
  {
    if |a| == 0 {
      assert a + b == b;
    } else {
      assert (a + b)[0] == a[0];
      assert (a + b)[1..] == a[1..] + b;
      FirstFoundConcat(a[1..], b, files);
    }
  }

  /** Where a slug path's source is: the first existing path of the search. */
  function DocSource(slugPath: string, roots: seq<string>, files: map<string, FileState>): Option<string> {
    FirstFound(SearchPaths(roots, Candidates(slugPath)), files)
  }

  /** A hit under the first root wins over anything under later roots. */
  lemma FirstRootWins(slugPath: string, roots: seq<string>, files: map<string, FileState>, k: nat)
    requires |roots| > 0 && k < |Candidates(slugPath)|
    requires JoinPath(roots[0], Candidates(slugPath)[k]) in files
    ensures DocSource(slugPath, roots, files).Some?
    ensures DocSource(slugPath, roots, files).value in Row(roots[0], Candidates(slugPath))
  {
    var row := Row(roots[0], Candidates(slugPath));
    FirstFoundConcat(row, SearchPaths(roots[1..], Candidates(slugPath)), files);
    assert row[k] in files;
  }

  /** Under one root, the plain file wins over the directory index. */
  lemma FileBeforeIndex(slugPath: string, roots: seq<string>, files: map<string, FileState>)
    requires |roots| > 0
    requires JoinPath(roots[0], Candidates(slugPath)[0]) in files
    ensures DocSource(slugPath, roots, files) == Some(JoinPath(roots[0], Candidates(slugPath)[0]))
  {
    var row := Row(roots[0], Candidates(slugPath));
    FirstFoundConcat(row, SearchPaths(roots[1..], Candidates(slugPath)), files);
  }

  /** `findDocSource(slugPath)`: the two nested loops, returning at the first
      path that exists; a path that does not exist just moves the search on. */
  method FindDocSource(slugPath: string, roots: seq<string>, files: map<string, FileState>) returns (r: Option<string>)
    ensures r == DocSource(slugPath, roots, files)
  {
    r := SearchRoots(roots, Candidates(slugPath), files);
  }

  method SearchRoots(roots: seq<string>, candidates: seq<string>, files: map<string, FileState>) returns (r: Option<string>)
    ensures r == FirstFound(SearchPaths(roots, candidates), files)
  {
    var i := 0;
    while i < |roots|
      invariant 0 <= i <= |roots|
      invariant FirstFound(SearchPaths(roots, candidates), files) == FirstFound(SearchPaths(roots[i..], candidates), files)
    {
      var rest := SearchPaths(roots[i + 1..], candidates);
      NextRoot(roots, i, candidates);
      var j := 0;
      while j < |candidates|
        invariant 0 <= j <= |candidates|
        invariant FirstFound(SearchPaths(roots, candidates), files) == FirstFound(Row(roots[i], candidates[j..]) + rest, files)
      {
        var filePath := JoinPath(roots[i], candidates[j]);
        NextCandidate(roots[i], candidates, j, rest, files);
        if filePath in files {
          return Some(filePath);
        }
        j := j + 1;
      }
      assert Row(roots[i], candidates[j..]) + rest == rest;
      i := i + 1;
    }
    return None;
  }

  lemma NextRoot(roots: seq<string>, i: nat, candidates: seq<string>)
    requires i < |roots|
    ensures SearchPaths(roots[i..], candidates) == Row(roots[i], candidates) + SearchPaths(roots[i + 1..], candidates)
  {
    assert roots[i..][0] == roots[i] && roots[i..][1..] == roots[i + 1..];
  }

  lemma NextCandidate(root: string, candidates: seq<string>, j: nat, rest: seq<string>, files: map<string, FileState>)
    requires j < |candidates|
    ensures var filePath := JoinPath(root, candidates[j]);
      FirstFound(Row(root, candidates[j..]) + rest, files)
        == if filePath in files then Some(filePath) else FirstFound(Row(root, candidates[j + 1..]) + rest, files)
  {
    var filePath := JoinPath(root, candidates[j]);
    var tail := Row(root, candidates[j + 1..]) + rest;
    assert Row(root, candidates[j..]) + rest == [filePath] + tail;
    assert ([filePath] + tail)[0] == filePath && ([filePath] + tail)[1..] == tail;
  }

  // ---------------------------------------------------------------------------
  // loadDocFromFilesystem and getDocFromParams
  // ---------------------------------------------------------------------------

  /** What loading a document produced: the entry, nothing (no source file
      found), or a rejection of the read or the compile. */
  datatype Outcome = Found(doc: DocEntry) | Missing | Rejected(reason: Rejection)

  /** What the file system holds at a path that exists (`fs.access` with its
      default existence check succeeds): contents `readFile` returns, or a
      path `readFile` fails on, such as a directory or a file without read
      permission. */
  datatype FileState = Readable(contents: string) | Unreadable

  /** Everything a lookup depends on that is not part of the model: the static
      entries by slug key, the search roots, the existing paths and what
      reading each gives, the snippet modules, the MDX compiler, today's date
      and whether this is a production build. */
  datatype Env = Env(
    bySlug: map<string, DocEntry>,
    roots: seq<string>,
    files: map<string, FileState>,
    modules: Modules,
    compile: string -> Option<Frontmatter>,
    today: string,
    production: bool)

  /** The outcome a compile result stands for. */
  function OfCompile(compiled: Result<DocEntry, Rejection>): (o: Outcome)
    ensures !o.Missing?
    ensures o.Found? ==> compiled == Success(o.doc)
    ensures o.Rejected? ==> compiled == Failure(o.reason)
  {
    match compiled
    case Success(doc) => Found(doc)
    case Failure(why) => Rejected(why)
  }

  /** What the search finds for a slug path: nothing, or the state of the
      first existing candidate. */
  function SourceFile(slugPath: string, env: Env): (f: Option<FileState>)
    ensures f.None? <==> DocSource(slugPath, env.roots, env.files).None?
    ensures f.Some? ==> DocSource(slugPath, env.roots, env.files).value in env.files
                        && f.value == env.files[DocSource(slugPath, env.roots, env.files).value]
  {
    match DocSource(slugPath, env.roots, env.files)
    case None => None
    case Some(path) => Some(env.files[path])
  }

  /** `loadDocFromFilesystem(slugSegments)`: nothing when no source exists,
      otherwise the read and compile of the first source found. */
  function LoadDocFromFilesystem(segments: seq<string>, env: Env): (o: Outcome)
    ensures o.Missing? <==> DocSource(SlugKey(segments), env.roots, env.files).None?
    ensures o.Found? ==> o.doc.slug == segments && o.doc == Entry(ConfigOf(o.doc)) && o.doc.id != ""
    ensures SourceFile(SlugKey(segments), env) == Some(Unreadable) ==> o == Rejected(UnreadableSource)
    ensures SourceFile(SlugKey(segments), env).Some? && SourceFile(SlugKey(segments), env).value.Readable? ==>
      var compiled := CompileDocEntry(segments, SourceFile(SlugKey(segments), env).value.contents,
                                      env.modules, env.compile, env.today, env.production);
      && (o.Found? ==> compiled == Success(o.doc))
      && (o.Rejected? ==> compiled == Failure(o.reason))
  {
    match SourceFile(SlugKey(segments), env)
    case None => Missing
    case Some(Unreadable) => Rejected(UnreadableSource)
    case Some(Readable(source)) => OfCompile(CompileDocEntry(segments, source, env.modules, env.compile, env.today, env.production))
  }

  /** The search stops at the first existing path even when reading it
      fails: with "/a/guide.mdx" unreadable and "/b/guide.mdx" readable, the
      load of "guide" is rejected and the second root is never read. */
  lemma UnreadableStopsSearch(env: Env, source: string)
    requires env.roots == ["/a", "/b"]
    requires env.files == map["/a/guide.mdx" := Unreadable, "/b/guide.mdx" := Readable(source)]
    ensures LoadDocFromFilesystem(["guide"], env) == Rejected(UnreadableSource)
  {
    assert SlugKey(["guide"]) == "guide";
    var candidates := Candidates("guide");
    assert JoinPath("/a", candidates[0]) == "/a/guide.mdx";
    FirstRootWins("guide", env.roots, env.files, 0);
    FileBeforeIndex("guide", env.roots, env.files);
  }

  /** The answer to one request, the cache after it, and whether it loaded. */
  datatype Response = Response(result: Outcome, cache: map<string, Outcome>, loaded: bool)

  /** How a document is loaded from its normalised segments. */
  type DocLoader = seq<string> -> Outcome

  /** The lookup `getDocFromParams` performs, for any static table and
      loader: the static entry, else the cached outcome, else a load whose
      outcome is cached before it is returned. Writing the entry as soon as
      the load starts means the stored outcome is the one every later request
      for the key receives, whatever it is. */
  function Lookup(cache: map<string, Outcome>, params: Option<seq<string>>,
                  bySlug: map<string, DocEntry>, load: DocLoader): (r: Response)
    ensures var key := RequestKey(params);
      && (key in bySlug ==> r == Response(Found(bySlug[key]), cache, false))
      && (r.loaded <==> key !in bySlug && key !in cache)
      && (r.loaded ==> r.result == load(NormalizeSegments(params)))
      && (key !in bySlug ==> key in r.cache && r.result == r.cache[key])
      && (key !in bySlug && key in cache ==> r.result == cache[key])
      && r.cache.Keys == (if r.loaded then cache.Keys + {key} else cache.Keys)
      && (forall k :: k in cache ==> r.cache[k] == cache[k])
  {
    var normalized := NormalizeSegments(params);
    var key := SlugKey(normalized);
    if key in bySlug then Response(Found(bySlug[key]), cache, false)
    else if key in cache then Response(cache[key], cache, false)
    else
      var pending := load(normalized);
      Response(pending, cache[key := pending], true)
  }

  /** The loader of the site: `loadDocFromFilesystem`. */
  function LoaderOf(env: Env): DocLoader {
    (segments: seq<string>) => LoadDocFromFilesystem(segments, env)
  }

  /** `getDocFromParams(slugSegments)` with `dynamicDocCache` passed in and
      returned. */
  function GetDocFromParams(cache: map<string, Outcome>, params: Option<seq<string>>, env: Env): (r: Response)
    ensures r.loaded <==> RequestKey(params) !in env.bySlug && RequestKey(params) !in cache
    ensures r.loaded ==> r.result == LoadDocFromFilesystem(NormalizeSegments(params), env)
  {
    Lookup(cache, params, env.bySlug, LoaderOf(env))
  }

  /** The outcomes of a sequence of requests, the final cache, and the keys
      loaded, in order. */
  datatype Batch = Batch(results: seq<Outcome>, cache: map<string, Outcome>, loads: seq<string>)

  function Serve(cache: map<string, Outcome>, requests: seq<Option<seq<string>>>,
                 bySlug: map<string, DocEntry>, load: DocLoader): (b: Batch)
    ensures |b.results| == |requests|
    decreases |requests|
  {
    if |requests| == 0 then Batch([], cache, [])
    else
      var first := Lookup(cache, requests[0], bySlug, load);
      var rest := Serve(first.cache, requests[1..], bySlug, load);
      Batch([first.result] + rest.results, rest.cache, (if first.loaded then [RequestKey(requests[0])] else []) + rest.loads)
  }

  /** The cache only grows: no entry is evicted or replaced, whatever it holds. */
  lemma {:induction false} CacheOnlyGrows(cache: map<string, Outcome>, requests: seq<Option<seq<string>>>,
                                          bySlug: map<string, DocEntry>, load: DocLoader)
    ensures var final := Serve(cache, requests, bySlug, load).cache;
      forall k :: k in cache ==> k in final && final[k] == cache[k]
    decreases |requests|
  {
    if |requests| > 0 {
      var first := Lookup(cache, requests[0], bySlug, load);
      CacheOnlyGrows(first.cache, requests[1..], bySlug, load);
    }
  }

  /** No key is loaded that is static or was cached before the requests. */
  lemma {:induction false} LoadsWereUncached(cache: map<string, Outcome>, requests: seq<Option<seq<string>>>,
                                             bySlug: map<string, DocEntry>, load: DocLoader)
    ensures forall l :: l in Serve(cache, requests, bySlug, load).loads ==> l !in cache && l !in bySlug
    decreases |requests|
  {
    if |requests| > 0 {
      var first := Lookup(cache, requests[0], bySlug, load);
      LoadsWereUncached(first.cache, requests[1..], bySlug, load);
      assert cache.Keys <= first.cache.Keys;
    }
  }

  /** No element occurs twice. */
  predicate Distinct<T(==)>(s: seq<T>) {
    forall i, j :: 0 <= i < j < |s| ==> s[i] != s[j]
  }

  lemma DistinctCons<T>(x: T, s: seq<T>)
    requires Distinct(s) && x !in s
    ensures Distinct([x] + s)
  {
    var t := [x] + s;
    forall i, j | 0 <= i < j < |t|
      ensures t[i] != t[j]
    {
      assert t[j] == s[j - 1];
      if i > 0 {
        assert t[i] == s[i - 1];
      }
    }
  }

  /** Each key is loaded at most once. */
  lemma {:induction false} AtMostOneLoadPerKey(cache: map<string, Outcome>, requests: seq<Option<seq<string>>>,
                                               bySlug: map<string, DocEntry>, load: DocLoader)
    ensures Distinct(Serve(cache, requests, bySlug, load).loads)
    decreases |requests|
  {
    if |requests| > 0 {
      var first := Lookup(cache, requests[0], bySlug, load);
      var rest := Serve(first.cache, requests[1..], bySlug, load).loads;
      AtMostOneLoadPerKey(first.cache, requests[1..], bySlug, load);
      if first.loaded {
        LoadsWereUncached(first.cache, requests[1..], bySlug, load);
        DistinctCons(RequestKey(requests[0]), rest);
      } else {
        assert [] + rest == rest;
      }
    }
  }

  /** Every request for a key that is not static gets the outcome the cache
      holds for it at the end. */
  lemma {:induction false} ResultsAreCached(cache: map<string, Outcome>, requests: seq<Option<seq<string>>>,
                                            bySlug: map<string, DocEntry>, load: DocLoader)
    ensures var b := Serve(cache, requests, bySlug, load);
      forall i :: 0 <= i < |requests| && RequestKey(requests[i]) !in bySlug ==>
        RequestKey(requests[i]) in b.cache && b.results[i] == b.cache[RequestKey(requests[i])]
    decreases |requests|
  {
    if |requests| > 0 {
      var first := Lookup(cache, requests[0], bySlug, load);
      var rest := Serve(first.cache, requests[1..], bySlug, load);
      ResultsAreCached(first.cache, requests[1..], bySlug, load);
      CacheOnlyGrows(first.cache, requests[1..], bySlug, load);
      var b := Serve(cache, requests, bySlug, load);
      assert b.results == [first.result] + rest.results && b.cache == rest.cache;
      forall i | 0 <= i < |requests| && RequestKey(requests[i]) !in bySlug
        ensures RequestKey(requests[i]) in b.cache && b.results[i] == b.cache[RequestKey(requests[i])]
      {
        if i > 0 {
          assert requests[i] == requests[1..][i - 1];
          assert b.results[i] == rest.results[i - 1];
        }
      }
    }
  }

  /** A static key is always answered by its static entry. */
  lemma {:induction false} StaticAnswers(cache: map<string, Outcome>, requests: seq<Option<seq<string>>>,
                                         bySlug: map<string, DocEntry>, load: DocLoader, i: nat)
    requires i < |requests| && RequestKey(requests[i]) in bySlug
    ensures Serve(cache, requests, bySlug, load).results[i] == Found(bySlug[RequestKey(requests[i])])
    decreases i
  {
    var first := Lookup(cache, requests[0], bySlug, load);
    var rest := Serve(first.cache, requests[1..], bySlug, load);
    assert Serve(cache, requests, bySlug, load).results == [first.result] + rest.results;
    if i > 0 {
      StaticAnswers(first.cache, requests[1..], bySlug, load, i - 1);
      assert requests[1..][i - 1] == requests[i];
    }
  }

  /** Two requests for the same key get the same outcome, even when that
      outcome is a missing or rejected document. */
  lemma SameKeySameOutcome(cache: map<string, Outcome>, requests: seq<Option<seq<string>>>,
                           bySlug: map<string, DocEntry>, load: DocLoader, i: nat, j: nat)
    requires i < |requests| && j < |requests|
    requires RequestKey(requests[i]) == RequestKey(requests[j])
    ensures Serve(cache, requests, bySlug, load).results[i] == Serve(cache, requests, bySlug, load).results[j]
  {
    if RequestKey(requests[i]) in bySlug {
      StaticAnswers(cache, requests, bySlug, load, i);
      StaticAnswers(cache, requests, bySlug, load, j);
    } else {
      ResultsAreCached(cache, requests, bySlug, load);
    }
  }

  /** Cached and loaded documents are served at the URL of their key. */
  predicate ServedAtKey(key: string, o: Outcome) {
    o.Found? ==> o.doc.href == "/" + key
  }

  /** Whatever is served has its key's URL as `href`, given that the static
      entries and the cache already do. */
  lemma HrefMatchesRequest(cache: map<string, Outcome>, params: Option<seq<string>>, env: Env)
    requires forall k :: k in env.bySlug ==> env.bySlug[k].href == "/" + k
    requires forall k :: k in cache ==> ServedAtKey(k, cache[k])
    ensures ServedAtKey(RequestKey(params), GetDocFromParams(cache, params, env).result)
    ensures forall k :: k in GetDocFromParams(cache, params, env).cache ==>
      ServedAtKey(k, GetDocFromParams(cache, params, env).cache[k])
  {
  }

  /** The document cache as an object, as the module-level map is used. */
  class DocumentCache {
    var entries: map<string, Outcome>
    const env: Env

    constructor(env: Env)
      ensures this.env == env && entries == map[]
    {
      this.env := env;
      entries := map[];
    }

    method Get(params: Option<seq<string>>) returns (o: Outcome)
      modifies this
      ensures o == GetDocFromParams(old(entries), params, env).result
      ensures entries == GetDocFromParams(old(entries), params, env).cache
    {
      var r := GetDocFromParams(entries, params, env);
      entries := r.cache;
      o := r.result;
    }
  }
}

=== FILE: rss.dfy ===
/** The changelog feed's text (src/app/changelog/rss.xml/route.ts): escaping
    with the five predefined entities of section 4.6 of XML 1.0 (Fifth
    Edition), and the strings each feed item is made of. */
module Rss {
  import opened Wrappers
  import opened Text

  /** The site name the feed titles use. */
  const SiteName := "Dox"

  /** The base URL when the site URL variable is not set. */
  const DefaultBaseUrl := "http://localhost:3000"

  // ---------------------------------------------------------------------------
  // Escaping
  // ---------------------------------------------------------------------------

  /** The characters escapeXml replaces. */
  predicate IsMarkup(c: char) {
    c == '&' || c == '<' || c == '>' || c == '"' || c == '\''
  }

  /** The markup characters other than `&`, which never survive escaping. */
  predicate IsDelimiter(c: char) {
    c == '<' || c == '>' || c == '"' || c == '\''
  }

  /** `s.replace(/c/g, entity)`: every occurrence of `c`, left to right. */
  function ReplaceChar(s: string, c: char, entity: string): (r: string)
    ensures c !in s ==> r == s
    ensures forall k :: 0 <= k < |r| ==> r[k] in s || r[k] in entity
  {
    if |s| == 0 then ""
    else (if s[0] == c then entity else [s[0]]) + ReplaceChar(s[1..], c, entity)
  }

  /** Replacing distributes over concatenation. */
  lemma {:induction false} ReplaceConcat(a: string, b: string, c: char, entity: string)
    ensures ReplaceChar(a + b, c, entity) == ReplaceChar(a, c, entity) + ReplaceChar(b, c, entity)
    decreases |a|
  {
    if |a| == 0 {
      assert a + b == b;
    } else {
      assert (a + b)[0] == a[0] && (a + b)[1..] == a[1..] + b;
      ReplaceConcat(a[1..], b, c, entity);
      ConcatAssoc(if a[0] == c then entity else [a[0]], ReplaceChar(a[1..], c, entity), ReplaceChar(b, c, entity));
    }
  }

  /** `escapeXml(str)`: five replacement passes, `&` first. */
  function EscapeXml(s: string): string {
    var amp := ReplaceChar(s, '&', "&amp;");
    var lt := ReplaceChar(amp, '<', "&lt;");
    var gt := ReplaceChar(lt, '>', "&gt;");
    var quot := ReplaceChar(gt, '"', "&quot;");
    ReplaceChar(quot, '\'', "&apos;")
  }

  /** The entity a character stands as in escaped text. */
  function EscapeChar(c: char): (r: string)
    ensures |r| >= 1 && (|r| == 1 <==> !IsMarkup(c))
    ensures !IsMarkup(c) ==> r == [c]
    ensures IsMarkup(c) ==> r[0] == '&'
    ensures forall k :: 0 <= k < |r| ==> !IsDelimiter(r[k])
  {
    match c
    case '&' => "&amp;"
    case '<' => "&lt;"
    case '>' => "&gt;"
    case '"' => "&quot;"
    case '\'' => "&apos;"
    case _ => [c]
  }

  /** Escaping one character at a time, the definition the passes agree with. */
  function EscapeEach(s: string): (r: string)
    ensures |r| >= |s|
    ensures |r| == |s| <==> forall k :: 0 <= k < |s| ==> !IsMarkup(s[k])
    ensures forall k :: 0 <= k < |r| ==> !IsDelimiter(r[k])
  {
    if |s| == 0 then ""
    else
      var rest := EscapeEach(s[1..]);
      assert forall k :: 1 <= k < |s| ==> s[k] == s[1..][k - 1];
      EscapeChar(s[0]) + rest
  }

  /** One pass over a single character. */
  lemma ReplaceOne(c: char, d: char, entity: string)
    ensures ReplaceChar([c], d, entity) == if c == d then entity else [c]
  {
    assert [c][1..] == [];
  }

  /** The five passes applied to a single character give its entity: the
      entities of earlier passes contain nothing a later pass replaces. */
  lemma EscapeOne(c: char)
    ensures EscapeXml([c]) == EscapeChar(c)
  {
    ReplaceOne(c, '&', "&amp;");
    if c == '&' {
      EscapeRest(EscapeChar(c));
    } else {
      ReplaceOne(c, '<', "&lt;");
      if c == '<' {
        EscapeRest(EscapeChar(c));
      } else {
        ReplaceOne(c, '>', "&gt;");
        if c == '>' {
          EscapeRest(EscapeChar(c));
        } else {
          ReplaceOne(c, '"', "&quot;");
          ReplaceOne(c, '\'', "&apos;");
          if c == '"' {
            EscapeRest(EscapeChar(c));
          }
        }
      }
    }
  }

  /** The passes for the delimiters leave text without delimiters unchanged. */
  lemma EscapeRest(entity: string)
    requires forall k :: 0 <= k < |entity| ==> !IsDelimiter(entity[k])
    ensures ReplaceChar(entity, '<', "&lt;") == entity
    ensures ReplaceChar(entity, '>', "&gt;") == entity
    ensures ReplaceChar(entity, '"', "&quot;") == entity
    ensures ReplaceChar(entity, '\'', "&apos;") == entity
  {
    assert '<' !in entity && '>' !in entity && '"' !in entity && '\'' !in entity;
  }

  lemma EscapeXmlConcat(a: string, b: string)
    ensures EscapeXml(a + b) == EscapeXml(a) + EscapeXml(b)
  {
    var a1, b1 := ReplaceChar(a, '&', "&amp;"), ReplaceChar(b, '&', "&amp;");
    ReplaceConcat(a, b, '&', "&amp;");
    var a2, b2 := ReplaceChar(a1, '<', "&lt;"), ReplaceChar(b1, '<', "&lt;");
    ReplaceConcat(a1, b1, '<', "&lt;");
    var a3, b3 := ReplaceChar(a2, '>', "&gt;"), ReplaceChar(b2, '>', "&gt;");
    ReplaceConcat(a2, b2, '>', "&gt;");
    var a4, b4 := ReplaceChar(a3, '"', "&quot;"), ReplaceChar(b3, '"', "&quot;");
    ReplaceConcat(a3, b3, '"', "&quot;");
    ReplaceConcat(a4, b4, '\'', "&apos;");
  }

  /** The five passes in order are one per-character substitution; in
      particular no entity is escaped twice within one call. */
  lemma {:induction false} EscapeXmlPerCharacter(s: string)
    ensures EscapeXml(s) == EscapeEach(s)
    decreases |s|
  {
    if |s| == 0 {
      assert EscapeXml(s) == "";
    } else {
      assert s == [s[0]] + s[1..];
      EscapeXmlConcat([s[0]], s[1..]);
      EscapeOne(s[0]);
      EscapeXmlPerCharacter(s[1..]);
    }
  }

  /** Escaped text holds no `<`, `>`, `"` or `'`, is never shorter than the
      input, and is the input itself exactly when there was nothing to escape. */
  lemma EscapeXmlShape(s: string)
    ensures forall k :: 0 <= k < |EscapeXml(s)| ==> !IsDelimiter(EscapeXml(s)[k])
    ensures |EscapeXml(s)| >= |s|
    ensures EscapeXml(s) == s <==> forall k :: 0 <= k < |s| ==> !IsMarkup(s[k])
  {
    EscapeXmlPerCharacter(s);
    if forall k :: 0 <= k < |s| ==> !IsMarkup(s[k]) {
      NoMarkupUnchanged(s);
    }
  }

  lemma {:induction false} NoMarkupUnchanged(s: string)
    requires forall k :: 0 <= k < |s| ==> !IsMarkup(s[k])
    ensures EscapeEach(s) == s
    decreases |s|
  {
    if |s| > 0 {
      NoMarkupUnchanged(s[1..]);
      assert s == [s[0]] + s[1..];
    }
  }

  /** Escaping is not idempotent: an ampersand already starting an entity
      is escaped again. */
  lemma EscapesAmpersandAgain(t: string)
    ensures EscapeXml("&" + t) == "&amp;" + EscapeXml(t)
  {
    EscapeXmlConcat("&", t);
    EscapeOne('&');
  }

  // ---------------------------------------------------------------------------
  // Reading escaped text back
  // ---------------------------------------------------------------------------

  /** Replacing the five entities by their characters, left to right. */
  function Unescape(r: string): string
    decreases |r|
  {
    if |r| == 0 then ""
    else if r[0] != '&' then [r[0]] + Unescape(r[1..])
    else if StartsWith(r, "&amp;") then "&" + Unescape(r[5..])
    else if StartsWith(r, "&lt;") then "<" + Unescape(r[4..])
    else if StartsWith(r, "&gt;") then ">" + Unescape(r[4..])
    else if StartsWith(r, "&quot;") then "\"" + Unescape(r[6..])
    else if StartsWith(r, "&apos;") then "'" + Unescape(r[6..])
    else "&" + Unescape(r[1..])
  }

  /** An escaped character is read back as itself, whatever follows it. */
  lemma UnescapeStep(c: char, rest: string)
    ensures Unescape(EscapeChar(c) + rest) == [c] + Unescape(rest)
  {
    var e := EscapeChar(c);
    var r := e + rest;
    assert r[..|e|] == e && r[|e|..] == rest;
    if c == '&' {
      assert StartsWith(r, "&amp;");
    } else if c == '<' {
      assert r[1] == 'l';
      assert StartsWith(r, "&lt;");
    } else if c == '>' {
      assert r[1] == 'g';
      assert StartsWith(r, "&gt;");
    } else if c == '"' {
      assert r[1] == 'q';
      assert StartsWith(r, "&quot;");
    } else if c == '\'' {
      assert r[1] == 'a' && r[2] == 'p';
      assert StartsWith(r, "&apos;");
    } else {
      assert r[0] == c && r[1..] == rest;
    }
  }

  /** Unescaping undoes escaping: no text is lost or confused. */
  lemma {:induction false} UnescapeEscape(s: string)
    ensures Unescape(EscapeXml(s)) == s
    decreases |s|
  {
    EscapeXmlPerCharacter(s);
    if |s| > 0 {
      UnescapeStep(s[0], EscapeEach(s[1..]));
      EscapeXmlPerCharacter(s[1..]);
      UnescapeEscape(s[1..]);
      assert s == [s[0]] + s[1..];
    }
  }

  /** Different texts escape differently. */
  lemma EscapeXmlInjective(s: string, t: string)
    requires EscapeXml(s) == EscapeXml(t)
    ensures s == t
  {
    UnescapeEscape(s);
    UnescapeEscape(t);
  }

  // ---------------------------------------------------------------------------
  // Feed items
  // ---------------------------------------------------------------------------

  /** A changelog entry: version, date, summary and bullet items. */
  datatype ChangelogEntry = ChangelogEntry(version: string, date: string, description: string, items: seq<string>)

  /** The feed's base URL: the site URL variable when it is set at all, even
      to the empty string, else the local development server. */
  function BaseUrl(siteUrl: Option<string>): (r: string)
    ensures siteUrl.Some? ==> r == siteUrl.value
    ensures siteUrl.None? ==> r == DefaultBaseUrl
  {
    siteUrl.GetOr(DefaultBaseUrl)
  }

  /** The item title: the site name and the version, escaped. */
  function ItemTitle(e: ChangelogEntry): (r: string)
    ensures StartsWith(r, SiteName + " ")
    ensures (forall k :: 0 <= k < |e.version| ==> !IsMarkup(e.version[k])) ==> r == SiteName + " " + e.version
  {
    TitleEscaping(e.version);
    PrefixOfConcat(SiteName + " ", EscapeXml(e.version));
    EscapeXml(SiteName + " " + e.version)
  }

  /** Escaping the title leaves the site name alone, and a version without
      markup as well. */
  lemma TitleEscaping(version: string)
    ensures EscapeXml(SiteName + " " + version) == SiteName + " " + EscapeXml(version)
    ensures (forall k :: 0 <= k < |version| ==> !IsMarkup(version[k])) ==> EscapeXml(version) == version
  {
    EscapeXmlConcat(SiteName + " ", version);
    SiteNameUnescaped();
    if forall k :: 0 <= k < |version| ==> !IsMarkup(version[k]) {
      EscapeXmlPerCharacter(version);
      NoMarkupUnchanged(version);
    }
  }

  lemma SiteNameUnescaped()
    ensures EscapeXml(SiteName + " ") == SiteName + " "
  {
    var prefix := SiteName + " ";
    assert forall k :: 0 <= k < |prefix| ==> !IsMarkup(prefix[k]);
    EscapeXmlPerCharacter(prefix);
    NoMarkupUnchanged(prefix);
  }

  /** The item's link: the changelog page under the base URL, not escaped. */
  function ItemLink(baseUrl: string): (r: string)
    ensures StartsWith(r, baseUrl) && EndsWith(r, "/changelog")
    ensures |r| == |baseUrl| + |"/changelog"|
  {
    var r := baseUrl + "/changelog";
    assert r[..|baseUrl|] == baseUrl;
    assert r[|r| - |"/changelog"|..] == "/changelog";
    r
  }

  /** The item's permanent identifier: the changelog page with the version
      as fragment, not escaped. */
  function ItemGuid(baseUrl: string, e: ChangelogEntry): (r: string)
    ensures StartsWith(r, baseUrl + "/changelog#") && EndsWith(r, "#" + e.version)
    ensures StartsWith(r, baseUrl)
  {
    var r := baseUrl + "/changelog#" + e.version;
    assert r[..|baseUrl|] == baseUrl;
    assert r[..|baseUrl + "/changelog#"|] == baseUrl + "/changelog#";
    assert r[|r| - |"#" + e.version|..] == "#" + e.version;
    r
  }

  /** The guid is the item's link with the version as fragment. */
  lemma GuidExtendsLink(baseUrl: string, e: ChangelogEntry)
    ensures ItemGuid(baseUrl, e) == ItemLink(baseUrl) + "#" + e.version
    ensures StartsWith(ItemGuid(baseUrl, e), ItemLink(baseUrl) + "#")
  {
    var link := ItemLink(baseUrl);
    assert baseUrl + "/changelog#" + e.version == link + "#" + e.version;
    assert (link + "#" + e.version)[..|link + "#"|] == link + "#";
  }

  /** Each item as a Markdown bullet. */
  function Bullets(items: seq<string>): (r: seq<string>)
    ensures |r| == |items|
    ensures forall k :: 0 <= k < |r| ==> r[k] == "- " + items[k]
  {
    seq(|items|, k requires 0 <= k < |items| => "- " + items[k])
  }

  /** The description text before escaping: the summary, a newline, then
      the bullets one per line. */
  function DescriptionText(e: ChangelogEntry): (r: string)
    ensures StartsWith(r, e.description + "\n")
    ensures |e.items| > 0 && SingleLines(e) ==> Split(r, '\n') == [e.description] + Bullets(e.items)
  {
    PrefixOfConcat(e.description + "\n", Join(Bullets(e.items), "\n"));
    if |e.items| > 0 && SingleLines(e) then
      BulletLines(e.description, e.items);
      e.description + "\n" + Join(Bullets(e.items), "\n")
    else e.description + "\n" + Join(Bullets(e.items), "\n")
  }

  /** Neither the summary nor any item contains a line break. */
  predicate SingleLines(e: ChangelogEntry) {
    && '\n' !in e.description
    && forall k :: 0 <= k < |e.items| ==> '\n' !in e.items[k]
  }

  /** The summary line and the bullet lines split back apart at the line
      breaks that join them. */
  lemma BulletLines(description: string, items: seq<string>)
    requires |items| > 0
    requires '\n' !in description
    requires forall k :: 0 <= k < |items| ==> '\n' !in items[k]
    ensures Split(description + "\n" + Join(Bullets(items), "\n"), '\n') == [description] + Bullets(items)
  {
    var lines := [description] + Bullets(items);
    assert lines[1..] == Bullets(items);
    assert Join(lines, "\n") == description + "\n" + Join(Bullets(items), "\n");
    forall k | 0 <= k < |lines|
      ensures '\n' !in lines[k]
    {
      if k > 0 {
        assert lines[k] == "- " + items[k - 1];
      }
    }
    SplitJoin(lines, '\n');
  }

  /** The item description as it appears in the feed. */
  function ItemDescription(e: ChangelogEntry): string {
    EscapeXml(DescriptionText(e))
  }

  /** The title reads back as the site name and version. */
  lemma TitleReadsBack(e: ChangelogEntry)
    ensures Unescape(ItemTitle(e)) == SiteName + " " + e.version
  {
    UnescapeEscape(SiteName + " " + e.version);
  }

  /** When the summary and the items are single lines, the description reads
      back as the summary followed by one bullet line per item. */
  lemma DescriptionLines(e: ChangelogEntry)
    requires |e.items| > 0
    requires '\n' !in e.description
    requires forall k :: 0 <= k < |e.items| ==> '\n' !in e.items[k]
    ensures Split(Unescape(ItemDescription(e)), '\n') == [e.description] + Bullets(e.items)
  {
    UnescapeEscape(DescriptionText(e));
  }

  /** An entry without items still gets the newline after its summary. */
  lemma NoItemsTrailingNewline(e: ChangelogEntry)
    requires |e.items| == 0
    ensures DescriptionText(e) == e.description + "\n"
  {
  }
}

=== FILE: shell.dfy ===
/** Which sidebar collection the site shell shows for a pathname, and what
    choosing another collection does (src/components/layout/site-shell.tsx). */
module Shell {
  import opened Wrappers
  import opened Text
  import opened Docs
  import opened Navigation

  // ---------------------------------------------------------------------------
  // Matching a pathname
  // ---------------------------------------------------------------------------

  /** Whether a link is the current page: the root link only on the root
      itself, any other link on every pathname it is a plain prefix of. The
      sidebar highlights its items by the same rule. */
  predicate IsActive(href: string, pathname: string)
    ensures IsActive(href, pathname) ==> StartsWith(pathname, href)
  {
    if href == "/" then pathname == "/" else StartsWith(pathname, href)
  }

  /** `items.some(...)`. */
  predicate ItemsMatch(items: seq<NavItem>, pathname: string) {
    |items| > 0 && (IsActive(items[0].href, pathname) || ItemsMatch(items[1..], pathname))
  }

  /** `sections.some((section) => section.items.some(...))`. */
  predicate SectionsMatch(sections: seq<Section>, pathname: string) {
    |sections| > 0 && (ItemsMatch(sections[0].items, pathname) || SectionsMatch(sections[1..], pathname))
  }

  /** `collectionContainsPath(collection, pathname)`. */
  predicate ContainsPath(c: Collection, pathname: string)
    ensures ContainsPath(c, pathname) ==> |c.sections| > 0
  {
    SectionsMatch(c.sections, pathname)
  }

  /** Some item of the sections is active. */
  ghost predicate HasActiveItem(sections: seq<Section>, pathname: string) {
    exists i, j :: 0 <= i < |sections| && 0 <= j < |sections[i].items|
      && IsActive(sections[i].items[j].href, pathname)
  }

  lemma {:induction false} ItemsMatchIff(items: seq<NavItem>, pathname: string)
    ensures ItemsMatch(items, pathname) <==> exists j :: 0 <= j < |items| && IsActive(items[j].href, pathname)
    decreases |items|
  {
    if |items| > 0 {
      ItemsMatchIff(items[1..], pathname);
      if ItemsMatch(items[1..], pathname) {
        var j :| 0 <= j < |items[1..]| && IsActive(items[1..][j].href, pathname);
        assert items[j + 1] == items[1..][j];
      }
      if exists j :: 0 <= j < |items| && IsActive(items[j].href, pathname) {
        var j :| 0 <= j < |items| && IsActive(items[j].href, pathname);
        if j > 0 {
          assert items[1..][j - 1] == items[j];
        }
      }
    }
  }

  /** The nested `some` holds exactly when some item of some section is active. */
  lemma {:induction false} ContainsPathIff(sections: seq<Section>, pathname: string)
    ensures SectionsMatch(sections, pathname) <==> HasActiveItem(sections, pathname)
    decreases |sections|
  {
    if |sections| > 0 {
      ContainsPathIff(sections[1..], pathname);
      ItemsMatchIff(sections[0].items, pathname);
      if SectionsMatch(sections[1..], pathname) {
        var i, j :| 0 <= i < |sections[1..]| && 0 <= j < |sections[1..][i].items|
          && IsActive(sections[1..][i].items[j].href, pathname);
        assert sections[i + 1] == sections[1..][i];
      }
      if HasActiveItem(sections, pathname) {
        var i, j :| 0 <= i < |sections| && 0 <= j < |sections[i].items|
          && IsActive(sections[i].items[j].href, pathname);
        if i > 0 {
          assert sections[1..][i - 1] == sections[i];
        }
      }
    }
  }

  /** The root link marks only the root page. */
  lemma RootMatchesOnlyRoot(pathname: string)
    ensures IsActive("/", pathname) <==> pathname == "/"
  {
  }

  /** Any other link stays active on every page below it. */
  lemma ActiveBelow(href: string, pathname: string, rest: string)
    requires href != "/" && IsActive(href, pathname)
    ensures IsActive(href, pathname + rest)
  {
    assert (pathname + rest)[..|href|] == pathname[..|href|];
  }

  /** The prefix test does not respect path segments: a link is also active
      on sibling pages whose name merely extends its last segment. */
  lemma PrefixIgnoresSegments(href: string, more: string)
    requires href != "/" && more != "" && '/' !in more
    ensures IsActive(href, href + more)
  {
    assert (href + more)[..|href|] == href;
  }

  /** A link is active on its own page. */
  lemma ActiveOnOwnPage(href: string)
    ensures IsActive(href, href)
  {
    assert href[..|href|] == href;
  }

  // ---------------------------------------------------------------------------
  // Choosing the active collection
  // ---------------------------------------------------------------------------

  /** `collections.filter((collection) => collection.sections.length > 0)`. */
  function Navigable(cs: seq<Collection>): (r: seq<Collection>)
    ensures forall k :: 0 <= k < |r| ==> |r[k].sections| > 0 && r[k] in cs
    ensures forall c :: c in cs && |c.sections| > 0 ==> c in r
    ensures |r| <= |cs|
  {
    if |cs| == 0 then []
    else if |cs[0].sections| > 0 then [cs[0]] + Navigable(cs[1..])
    else Navigable(cs[1..])
  }

  /** Filtering keeps the original order: it distributes over concatenation,
      so the navigable collections of a list are those of its parts in turn. */
  lemma {:induction false} NavigableConcat(a: seq<Collection>, b: seq<Collection>)
    ensures Navigable(a + b) == Navigable(a) + Navigable(b)
    decreases |a|
  {
    if |a| > 0 {
      assert (a + b)[1..] == a[1..] + b;
      NavigableConcat(a[1..], b);
    } else {
      assert a + b == b;
    }
  }

  /** Nothing is dropped when every collection has sections. */
  lemma {:induction false} NavigableKeepsAll(cs: seq<Collection>)
    requires forall k :: 0 <= k < |cs| ==> |cs[k].sections| > 0
    ensures Navigable(cs) == cs
  {
    if |cs| > 0 {
      NavigableKeepsAll(cs[1..]);
    }
  }

  /** A navigable collection sits in the filtered list right after the
      navigable collections before it. */
  lemma NavigableSplit(cs: seq<Collection>, k: nat)
    requires k < |cs| && |cs[k].sections| > 0
    ensures Navigable(cs) == Navigable(cs[..k]) + [cs[k]] + Navigable(cs[k + 1..])
  {
    assert cs == cs[..k] + ([cs[k]] + cs[k + 1..]);
    NavigableConcat(cs[..k], [cs[k]] + cs[k + 1..]);
    assert ([cs[k]] + cs[k + 1..])[1..] == cs[k + 1..];
  }

  /** `cs.find((collection) => collectionContainsPath(collection, pathname))`. */
  function FindContaining(cs: seq<Collection>, pathname: string): (r: Option<Collection>)
    ensures r.Some? ==> r.value in cs && ContainsPath(r.value, pathname)
    ensures r.None? <==> forall k :: 0 <= k < |cs| ==> !ContainsPath(cs[k], pathname)
    ensures forall k :: 0 <= k < |cs| && ContainsPath(cs[k], pathname) ==>
      (forall j :: 0 <= j < k ==> !ContainsPath(cs[j], pathname)) ==> r == Some(cs[k])
  {
    if |cs| == 0 then None
    else if ContainsPath(cs[0], pathname) then Some(cs[0])
    else
      assert forall k :: 1 <= k < |cs| ==> cs[k] == cs[1..][k - 1];
      FindContaining(cs[1..], pathname)
  }

  /** `cs.find((collection) => collection.id === id)`. */
  function FindById(cs: seq<Collection>, id: string): (r: Option<Collection>)
    ensures r.Some? ==> r.value in cs && r.value.id == id
    ensures r.None? <==> forall k :: 0 <= k < |cs| ==> cs[k].id != id
    ensures forall k :: 0 <= k < |cs| && cs[k].id == id ==>
      (forall j :: 0 <= j < k ==> cs[j].id != id) ==> r == Some(cs[k])
  {
    if |cs| == 0 then None
    else if cs[0].id == id then Some(cs[0])
    else
      assert forall k :: 1 <= k < |cs| ==> cs[k] == cs[1..][k - 1];
      FindById(cs[1..], id)
  }

  /** The first collection with an id, when it is navigable, is also the
      first navigable one with that id. */
  lemma {:induction false} FindByIdNavigable(cs: seq<Collection>, id: string)
    requires FindById(cs, id).Some? && |FindById(cs, id).value.sections| > 0
    ensures FindById(Navigable(cs), id) == FindById(cs, id)
    decreases |cs|
  {
    if cs[0].id != id {
      FindByIdNavigable(cs[1..], id);
      if |cs[0].sections| > 0 {
        assert Navigable(cs) == [cs[0]] + Navigable(cs[1..]);
        assert ([cs[0]] + Navigable(cs[1..]))[1..] == Navigable(cs[1..]);
      }
    }
  }

  /** `matchedCollection`: the first navigable collection holding the page,
      else the first navigable one, else the first one. */
  function Matched(collections: seq<Collection>, pathname: string): (r: Option<Collection>)
    ensures r.Some? ==> r.value in collections
    ensures r.None? <==> |collections| == 0
  {
    var navigable := Navigable(collections);
    var found := FindContaining(navigable, pathname);
    if found.Some? then found
    else if |navigable| > 0 then Some(navigable[0])
    else if |collections| > 0 then Some(collections[0])
    else None
  }

  /** Collection `k` is the first navigable collection holding the page. */
  predicate FirstHolding(cs: seq<Collection>, pathname: string, k: nat) {
    && k < |cs| && |cs[k].sections| > 0 && ContainsPath(cs[k], pathname)
    && forall j :: 0 <= j < k ==> |cs[j].sections| == 0 || !ContainsPath(cs[j], pathname)
  }

  /** Collection `k` is the first navigable collection. */
  predicate FirstNavigable(cs: seq<Collection>, k: nat) {
    && k < |cs| && |cs[k].sections| > 0
    && forall j :: 0 <= j < k ==> |cs[j].sections| == 0
  }

  /** First tier: the first navigable collection that holds the page. */
  lemma MatchedHolding(collections: seq<Collection>, pathname: string, k: nat)
    requires FirstHolding(collections, pathname, k)
    ensures Matched(collections, pathname) == Some(collections[k])
  {
    var navigable := Navigable(collections);
    NavigableSplit(collections, k);
    var before := Navigable(collections[..k]);
    var i := |before|;
    assert navigable[i] == collections[k];
    forall j | 0 <= j < i
      ensures !ContainsPath(navigable[j], pathname)
    {
      assert navigable[j] == before[j];
      assert before[j] in collections[..k];
    }
  }

  /** Second tier: no navigable collection holds the page, so the first
      navigable one is shown. */
  lemma MatchedFirstNavigable(collections: seq<Collection>, pathname: string, k: nat)
    requires FirstNavigable(collections, k)
    requires forall j :: 0 <= j < |collections| ==> |collections[j].sections| == 0 || !ContainsPath(collections[j], pathname)
    ensures Matched(collections, pathname) == Some(collections[k])
  {
    NavigableSplit(collections, k);
    NavigableNone(collections[..k]);
    var navigable := Navigable(collections);
    assert navigable[0] == collections[k];
    forall j | 0 <= j < |navigable|
      ensures !ContainsPath(navigable[j], pathname)
    {
      assert navigable[j] in collections;
    }
  }

  /** Third tier: with no navigable collection, the first collection. */
  lemma MatchedFallback(collections: seq<Collection>, pathname: string)
    requires |collections| > 0
    requires forall k :: 0 <= k < |collections| ==> |collections[k].sections| == 0
    ensures Matched(collections, pathname) == Some(collections[0])
  {
    NavigableNone(collections);
  }

  /** `selectedCollection`: no selection, or the empty id, selects nothing;
      otherwise the first navigable collection with the selected id. */
  function Selected(collections: seq<Collection>, selected: Option<string>): (r: Option<Collection>)
    ensures r.Some? ==> (selected.Some? && selected.value != "" && r.value.id == selected.value
                         && r.value in collections && |r.value.sections| > 0)
    ensures selected.Some? && selected.value != "" &&
      (exists k :: 0 <= k < |collections| && collections[k].id == selected.value && |collections[k].sections| > 0)
      ==> r.Some?
  {
    if selected.None? || selected.value == "" then None
    else FindById(Navigable(collections), selected.value)
  }

  /** The selection is the first navigable collection carrying the id. */
  lemma SelectedIsFirst(collections: seq<Collection>, id: string, k: nat)
    requires id != "" && k < |collections| && collections[k].id == id && |collections[k].sections| > 0
    requires forall j :: 0 <= j < k ==> collections[j].id != id || |collections[j].sections| == 0
    ensures Selected(collections, Some(id)) == Some(collections[k])
  {
    var navigable := Navigable(collections);
    NavigableSplit(collections, k);
    var before := Navigable(collections[..k]);
    var i := |before|;
    assert navigable[i] == collections[k];
    forall j | 0 <= j < i
      ensures navigable[j].id != id
    {
      assert navigable[j] == before[j];
      assert before[j] in collections[..k];
    }
  }

  /** `activeCollection`; `None` is the shell rendering nothing. */
  function Active(collections: seq<Collection>, pathname: string, selected: Option<string>): (r: Option<Collection>)
    ensures r.None? <==> |collections| == 0
    ensures r.Some? ==> r.value in collections
  {
    var chosen := Selected(collections, selected);
    if chosen.Some? && ContainsPath(chosen.value, pathname) then chosen
    else Matched(collections, pathname)
  }

  /** The shown collection holds the current page whenever some navigable
      collection does. */
  lemma ActiveHoldsPage(collections: seq<Collection>, pathname: string, selected: Option<string>, c: Collection)
    requires c in collections && |c.sections| > 0 && ContainsPath(c, pathname)
    ensures Active(collections, pathname, selected).Some?
    ensures ContainsPath(Active(collections, pathname, selected).value, pathname)
  {
    var navigable := Navigable(collections);
    assert c in navigable;
    var k :| 0 <= k < |navigable| && navigable[k] == c;
  }

  /** A selection that holds the current page wins over the match. */
  lemma SelectionWins(collections: seq<Collection>, pathname: string, id: string, c: Collection)
    requires id != "" && FindById(Navigable(collections), id) == Some(c) && ContainsPath(c, pathname)
    ensures Active(collections, pathname, Some(id)) == Some(c)
  {
  }

  /** A selection that does not hold the page, or no selection, shows the
      first navigable collection holding it, if any. */
  lemma MatchWhenSelectionMisses(collections: seq<Collection>, pathname: string, selected: Option<string>)
    requires Selected(collections, selected).None? || !ContainsPath(Selected(collections, selected).value, pathname)
    ensures Active(collections, pathname, selected) == Matched(collections, pathname)
  {
  }

  lemma {:induction false} NavigableNone(cs: seq<Collection>)
    requires forall k :: 0 <= k < |cs| ==> |cs[k].sections| == 0
    ensures Navigable(cs) == []
  {
    if |cs| > 0 {
      NavigableNone(cs[1..]);
    }
  }

  /** With no navigable collection at all, the first collection is shown. */
  lemma NothingNavigable(collections: seq<Collection>, pathname: string, selected: Option<string>)
    requires |collections| > 0
    requires forall k :: 0 <= k < |collections| ==> |collections[k].sections| == 0
    ensures Active(collections, pathname, selected) == Some(collections[0])
  {
    NavigableNone(collections);
  }

  // ---------------------------------------------------------------------------
  // Switching collections
  // ---------------------------------------------------------------------------

  /** What picking a collection in the top bar does: nothing for an unknown
      id, or select it and perhaps navigate to its first page. */
  datatype Change = Ignored | Select(id: string, navigateTo: Option<string>)

  /** `target.sections[0]?.items[0]?.href`, with the empty href counting as
      absent, as its truthiness test does. */
  function FirstHref(c: Collection): (r: Option<string>)
    ensures r.Some? ==> (r.value != "" && |c.sections| > 0 && |c.sections[0].items| > 0
                         && r.value == c.sections[0].items[0].href)
  {
    if |c.sections| > 0 && |c.sections[0].items| > 0 && c.sections[0].items[0].href != ""
    then Some(c.sections[0].items[0].href)
    else None
  }

  /** `onCollectionChange(id)`. */
  function OnCollectionChange(collections: seq<Collection>, pathname: string, id: string): (r: Change)
    ensures r.Ignored? <==> FindById(collections, id).None?
    ensures r.Select? ==> r.id == id
    ensures r.Select? && r.navigateTo.Some? ==>
      var target := FindById(collections, id).value;
      FirstHref(target) == r.navigateTo && !ContainsPath(target, pathname)
    ensures r.Select? ==>
      var target := FindById(collections, id).value;
      (r.navigateTo.Some? <==> FirstHref(target).Some? && !ContainsPath(target, pathname))
  {
    match FindById(collections, id)
    case None => Ignored
    case Some(target) =>
      var firstHref := FirstHref(target);
      if firstHref.Some? && !ContainsPath(target, pathname) then Select(target.id, firstHref)
      else Select(target.id, None)
  }

  /** The pathname part of an href: everything before the first '?' or '#'. */
  function PathOf(href: string): (p: string)
    ensures StartsWith(href, p)
    ensures '?' !in p && '#' !in p
    ensures |p| < |href| ==> href[|p|] == '?' || href[|p|] == '#'
    decreases |href|
  {
    if |href| == 0 || href[0] == '?' || href[0] == '#' then ""
    else [href[0]] + PathOf(href[1..])
  }

  /** An href is a plain pathname of this site: it starts with a single "/"
      and carries no query or fragment. */
  predicate LocalPath(href: string) {
    StartsWith(href, "/") && !StartsWith(href, "//") && '?' !in href && '#' !in href
  }

  /** A plain pathname is its own path part. */
  lemma {:induction false} PathOfPlain(href: string)
    requires '?' !in href && '#' !in href
    ensures PathOf(href) == href
    decreases |href|
  {
    if |href| > 0 {
      assert '?' !in href[1..] && '#' !in href[1..] by {
        forall k | 0 <= k < |href[1..]| ensures href[1..][k] != '?' && href[1..][k] != '#' {
          assert href[1..][k] == href[k + 1];
        }
      }
      PathOfPlain(href[1..]);
    }
  }

  /** The pathname the shell sees after a change: the page it was on, or the
      path part of the page navigated to. An http(s) or protocol-relative
      href leaves the site, and the shell sees no pathname at all. */
  function Destination(r: Change, pathname: string): Option<string> {
    if r.Select? && r.navigateTo.Some? then
      var href := r.navigateTo.value;
      if StartsWith(href, "/") && !StartsWith(href, "//") then Some(PathOf(href)) else None
    else Some(pathname)
  }

  /** Picking a collection that has a first page shows that collection
      afterwards: either it already held the page, or the browser moves to
      its first page, which it holds. The move only lands on that page when
      the first href is a plain pathname of the site. */
  lemma SelectionTakesEffect(collections: seq<Collection>, pathname: string, id: string)
    requires id != ""
    requires FindById(collections, id).Some? && FirstHref(FindById(collections, id).value).Some?
    requires !ContainsPath(FindById(collections, id).value, pathname) ==>
               LocalPath(FirstHref(FindById(collections, id).value).value)
    ensures var r := OnCollectionChange(collections, pathname, id);
      Destination(r, pathname).Some?
      && Active(collections, Destination(r, pathname).value, Some(id)) == FindById(collections, id)
  {
    var target := FindById(collections, id).value;
    var r := OnCollectionChange(collections, pathname, id);
    if r.navigateTo.Some? {
      var first := target.sections[0].items[0];
      PathOfPlain(first.href);
      assert Destination(r, pathname) == Some(first.href);
      ActiveOnOwnPage(first.href);
      assert ItemsMatch(target.sections[0].items, first.href);
      ShownWhenHeld(collections, first.href, id);
    } else {
      ShownWhenHeld(collections, pathname, id);
    }
  }

  /** Without the plain-pathname condition the selection can be lost: the
      first page "/x#y" is reached at the pathname "/x", which "/x#y" is not
      a prefix of, so the first navigable collection is shown instead. */
  lemma FragmentHrefLosesSelection()
    ensures var other := Collection("o", "Other", [Section("A", [NavItem("o", "O", "/other", None, Some(""))])], None);
      var target := Collection("t", "Target", [Section("B", [NavItem("x", "X", "/x#y", None, Some(""))])], None);
      var r := OnCollectionChange([other, target], "/other", "t");
      && Destination(r, "/other") == Some("/x")
      && Active([other, target], "/x", Some("t")) == Some(other)
  {
    var other := Collection("o", "Other", [Section("A", [NavItem("o", "O", "/other", None, Some(""))])], None);
    var target := Collection("t", "Target", [Section("B", [NavItem("x", "X", "/x#y", None, Some(""))])], None);
    var cs := [other, target];
    assert PathOf("/x#y") == "/x" by {
      assert "/x#y"[0] == '/' && "/x#y"[1..] == "x#y";
      assert "x#y"[0] == 'x' && "x#y"[1..] == "#y";
      assert PathOf("#y") == "";
    }
    assert !StartsWith("/x", "/x#y");
    assert !IsActive("/x#y", "/other");
    assert !ItemsMatch(target.sections[0].items, "/other");
    assert !ContainsPath(target, "/other");
    assert !ContainsPath(target, "/x");
    assert !StartsWith("/x", "/other");
    assert !ContainsPath(other, "/x");
  }

  /** A navigable collection selected by a non-empty id is shown on every
      page it holds. */
  lemma ShownWhenHeld(collections: seq<Collection>, pathname: string, id: string)
    requires id != "" && FindById(collections, id).Some?
    requires |FindById(collections, id).value.sections| > 0
    requires ContainsPath(FindById(collections, id).value, pathname)
    ensures Active(collections, pathname, Some(id)) == FindById(collections, id)
  {
    FindByIdNavigable(collections, id);
  }

  /** A collection whose id is the empty string can be picked but never
      becomes the selection. */
  lemma EmptyIdNeverSelected(collections: seq<Collection>, pathname: string)
    ensures Active(collections, pathname, Some("")) == Matched(collections, pathname)
  {
  }
}

=== FILE: slug.dfy ===
/** The three string rules of the navigation builder in src/data/docs.ts:
    `slugifyId`, `normalizeHref` and `deriveTitleFromSlug`. */
module Slug {
  import opened Wrappers
  import opened Text

  // ---------------------------------------------------------------------------
  // slugifyId: lower-case, collapse every run of characters outside [a-z0-9]
  // into one '-', then drop a leading and a trailing '-'.
  // ---------------------------------------------------------------------------

  predicate IsSlugChar(c: char) {
    ('a' <= c <= 'z') || ('0' <= c <= '9')
  }

  /** No two adjacent dashes. */
  predicate NoDoubleDash(s: string) {
    forall i, j :: 0 <= i < |s| && 0 <= j < |s| && j == i + 1 ==> !(s[i] == '-' && s[j] == '-')
  }

  predicate DashedSlugChars(s: string) {
    forall k :: 0 <= k < |s| ==> IsSlugChar(s[k]) || s[k] == '-'
  }

  /** The shape of every identifier `slugifyId` produces. */
  predicate IsSlug(s: string) {
    && DashedSlugChars(s)
    && NoDoubleDash(s)
    && (|s| == 0 || (s[0] != '-' && s[|s| - 1] != '-'))
  }

  /** The letters and digits of a string, in order. */
  function SlugChars(s: string): (r: string)
    ensures |r| <= |s|
  {
    if |s| == 0 then ""
    else (if IsSlugChar(s[0]) then [s[0]] else "") + SlugChars(s[1..])
  }

  /** `toLowerCase` on one character, as far as a slug can tell: ASCII capitals
      are lowered, and the only two characters outside ASCII whose lower case
      contains an ASCII letter (U+212A KELVIN SIGN and U+0130 LATIN CAPITAL
      LETTER I WITH DOT ABOVE) are mapped as Unicode maps them. Every other
      character stays outside [a-z0-9] after lowering and is kept as it is. */
  function LowerChar(c: char): string {
    if 'A' <= c <= 'Z' then [LowerAscii(c)]
    else if c as int == 0x212A then "k"
    else if c as int == 0x0130 then ['i', 0x0307 as char]
    else [c]
  }

  function Lower(s: string): string {
    if |s| == 0 then "" else LowerChar(s[0]) + Lower(s[1..])
  }

  /** Drops the run of non-slug characters at the head of `s`. */
  function DropSeparators(s: string): (r: string)
    ensures |r| <= |s| && r == s[|s| - |r|..]
    ensures |r| == 0 || IsSlugChar(r[0])
    ensures forall k :: 0 <= k < |s| - |r| ==> !IsSlugChar(s[k])
  {
    if |s| > 0 && !IsSlugChar(s[0]) then
      var r := DropSeparators(s[1..]);
      assert s[1..][|s| - 1 - |r|..] == s[|s| - |r|..];
      assert forall k :: 1 <= k < |s| - |r| ==> s[k] == s[1..][k - 1];
      r
    else s
  }

  /** `.replace(/[^a-z0-9]+/g, '-')`. */
  function Dashify(s: string): (r: string)
    ensures DashedSlugChars(r) && NoDoubleDash(r)
    ensures |r| == 0 <==> |s| == 0
    ensures |s| > 0 ==> (IsSlugChar(r[0]) <==> IsSlugChar(s[0]))
    ensures SlugChars(r) == SlugChars(s)
    decreases |s|
  {
    if |s| == 0 then ""
    else if IsSlugChar(s[0]) then [s[0]] + Dashify(s[1..])
    else
      var rest := DropSeparators(s);
      DroppedSeparatorsHaveNoSlugChars(s, rest);
      ['-'] + Dashify(rest)
  }

  lemma DroppedSeparatorsHaveNoSlugChars(s: string, rest: string)
    requires |s| > 0 && !IsSlugChar(s[0])
    requires rest == DropSeparators(s)
    ensures |rest| < |s|
    ensures SlugChars(s) == SlugChars(rest)
    decreases |s|
  {
    if |s[1..]| > 0 && !IsSlugChar(s[1]) {
      DroppedSeparatorsHaveNoSlugChars(s[1..], rest);
    }
  }

  /** `.replace(/(^-|-$)+/g, '')`: on a string with no double dash this drops
      one leading and one trailing dash. */
  function StripDashes(s: string): string {
    DropTrailingDash(DropLeadingDash(s))
  }

  function DropLeadingDash(s: string): string {
    if |s| > 0 && s[0] == '-' then s[1..] else s
  }

  function DropTrailingDash(s: string): string {
    if |s| > 0 && s[|s| - 1] == '-' then s[..|s| - 1] else s
  }

  function SlugifyId(value: string): (r: string)
    ensures IsSlug(r)
    ensures SlugChars(r) == SlugChars(Lower(value))
  {
    var d := Dashify(Lower(value));
    StripDashesGivesSlug(d);
    StripDashes(d)
  }

  lemma {:induction false} SlugCharsConcat(a: string, b: string)
    ensures SlugChars(a + b) == SlugChars(a) + SlugChars(b)
    decreases |a|
  {
    if |a| == 0 {
      assert a + b == b;
    } else {
      var h := if IsSlugChar(a[0]) then [a[0]] else "";
      assert (a + b)[0] == a[0] && (a + b)[1..] == a[1..] + b;
      assert SlugChars(a + b) == h + SlugChars(a[1..] + b);
      SlugCharsConcat(a[1..], b);
      assert SlugChars(a) == h + SlugChars(a[1..]);
      ConcatAssoc(h, SlugChars(a[1..]), SlugChars(b));
    }
  }

  lemma StripDashesGivesSlug(d: string)
    requires DashedSlugChars(d) && NoDoubleDash(d)
    ensures IsSlug(StripDashes(d))
    ensures SlugChars(StripDashes(d)) == SlugChars(d)
  {
    StripLeadingDash(d);
    StripTrailingDash(DropLeadingDash(d));
  }

  lemma StripLeadingDash(d: string)
    requires DashedSlugChars(d) && NoDoubleDash(d)
    ensures var a := DropLeadingDash(d);
      DashedSlugChars(a) && NoDoubleDash(a) && (|a| == 0 || a[0] != '-') && SlugChars(a) == SlugChars(d)
  {
    if |d| > 0 && d[0] == '-' {
      var a := d[1..];
      assert d == [d[0]] + a;
      SlugCharsConcat([d[0]], a);
      if |a| > 0 { assert d[1] == a[0]; }
    }
  }

  lemma StripTrailingDash(a: string)
    requires DashedSlugChars(a) && NoDoubleDash(a) && (|a| == 0 || a[0] != '-')
    ensures IsSlug(DropTrailingDash(a)) && SlugChars(DropTrailingDash(a)) == SlugChars(a)
  {
    if |a| > 0 && a[|a| - 1] == '-' {
      DropLastDash(a);
    }
  }

  lemma DropLastDash(a: string)
    requires DashedSlugChars(a) && NoDoubleDash(a) && |a| > 0 && a[0] != '-' && a[|a| - 1] == '-'
    ensures IsSlug(a[..|a| - 1]) && SlugChars(a[..|a| - 1]) == SlugChars(a)
  {
    var b := a[..|a| - 1];
    assert a == b + [a[|a| - 1]];
    SlugCharsConcat(b, [a[|a| - 1]]);
    PrefixKeepsShape(a, |a| - 1);
    if |b| > 0 {
      assert a[|a| - 2] == b[|b| - 1];
      assert b[0] == a[0];
    }
  }

  lemma PrefixKeepsShape(a: string, n: nat)
    requires DashedSlugChars(a) && NoDoubleDash(a) && n <= |a|
    ensures DashedSlugChars(a[..n]) && NoDoubleDash(a[..n])
  {
    var b := a[..n];
    assert forall k :: 0 <= k < |b| ==> b[k] == a[k];
  }

  lemma {:induction false} LowerOfSlugIsIdentity(t: string)
    requires DashedSlugChars(t)
    ensures Lower(t) == t
    decreases |t|
  {
    if |t| > 0 {
      LowerOfSlugIsIdentity(t[1..]);
    }
  }

  lemma {:induction false} DashifyOfSlugIsIdentity(t: string)
    requires DashedSlugChars(t) && NoDoubleDash(t)
    ensures Dashify(t) == t
    decreases |t|
  {
    if |t| > 0 {
      TailKeepsShape(t);
      DashifyOfSlugIsIdentity(t[1..]);
      if IsSlugChar(t[0]) {
        assert Dashify(t) == [t[0]] + Dashify(t[1..]);
      } else {
        assert DropSeparators(t) == t[1..] by {
          if |t| > 1 { assert IsSlugChar(t[1]); }
        }
        assert Dashify(t) == ['-'] + Dashify(t[1..]);
      }
      assert t == [t[0]] + t[1..];
    }
  }

  lemma TailKeepsShape(t: string)
    requires DashedSlugChars(t) && NoDoubleDash(t) && |t| > 0
    ensures DashedSlugChars(t[1..]) && NoDoubleDash(t[1..])
  {
    assert forall k :: 0 <= k < |t| - 1 ==> t[1..][k] == t[k + 1];
  }

  /** `slugifyId` leaves exactly the slugs unchanged. */
  lemma SlugifyFixpoints(t: string)
    ensures SlugifyId(t) == t <==> IsSlug(t)
  {
    if IsSlug(t) {
      LowerOfSlugIsIdentity(t);
      DashifyOfSlugIsIdentity(t);
    }
  }

  /** `slugifyId` is idempotent. */
  lemma SlugifyIdempotent(value: string)
    ensures SlugifyId(SlugifyId(value)) == SlugifyId(value)
  {
    SlugifyFixpoints(SlugifyId(value));
  }

  // ---------------------------------------------------------------------------
  // normalizeHref
  // ---------------------------------------------------------------------------

  /** Case-insensitive prefix test against a lower-case ASCII pattern, as the
      `i` flag compares ASCII letters. */
  predicate StartsWithIgnoringCase(s: string, lowerPrefix: string) {
    |lowerPrefix| <= |s| && forall k :: 0 <= k < |lowerPrefix| ==> LowerAscii(s[k]) == lowerPrefix[k]
  }

  /** `/^https?:\/\//i`. */
  predicate IsHttpUrl(s: string) {
    StartsWithIgnoringCase(s, "http://") || StartsWithIgnoringCase(s, "https://")
  }

  function NormalizeHref(pageId: string): (r: string)
    ensures |r| > 0
    ensures IsHttpUrl(pageId) ==> r == pageId
    ensures !IsHttpUrl(pageId) ==> StartsWith(r, "/")
    ensures EndsWith(r, pageId) && |r| <= |pageId| + 1
    ensures r == pageId <==> IsHttpUrl(pageId) || StartsWith(pageId, "/")
  {
    if IsHttpUrl(pageId) then pageId
    else if StartsWith(pageId, "/") then pageId
    else "/" + pageId
  }

  lemma NormalizeHrefIdempotent(pageId: string)
    ensures NormalizeHref(NormalizeHref(pageId)) == NormalizeHref(pageId)
  {
    var r := NormalizeHref(pageId);
    if !IsHttpUrl(pageId) && !StartsWith(pageId, "/") {
      assert r[..1] == "/";
    }
  }

  // ---------------------------------------------------------------------------
  // deriveTitleFromSlug
  // ---------------------------------------------------------------------------

  /** `.split('/').filter(Boolean).pop()`. */
  function LastSegment(pageId: string): Option<string> {
    var segs := NonEmpty(Split(pageId, '/'));
    if |segs| == 0 then None else Some(segs[|segs| - 1])
  }

  /** `.replace(/[-_]/g, ' ')`. */
  function SpaceOut(s: string): string {
    seq(|s|, k requires 0 <= k < |s| => if s[k] == '-' || s[k] == '_' then ' ' else s[k])
  }

  /** Position `k` of `s` is matched by `\b\w`: a word character not preceded by one. */
  predicate StartsWord(s: string, k: int)
    requires 0 <= k < |s|
  {
    IsWordChar(s[k]) && (k == 0 || !IsWordChar(s[k - 1]))
  }

  /** `.replace(/\b\w/g, (char) => char.toUpperCase())`, scanning left to right;
      `afterWord` says whether the character before `s` is a word character. */
  function CapitalizeFrom(s: string, afterWord: bool): (r: string)
    ensures |r| == |s|
    ensures forall k :: 0 < k < |s| ==>
      r[k] == (if StartsWord(s, k) then UpperAscii(s[k]) else s[k])
    ensures |s| > 0 ==> r[0] == (if IsWordChar(s[0]) && !afterWord then UpperAscii(s[0]) else s[0])
    decreases |s|
  {
    if |s| == 0 then ""
    else
      var c := if IsWordChar(s[0]) && !afterWord then UpperAscii(s[0]) else s[0];
      var rest := CapitalizeFrom(s[1..], IsWordChar(s[0]));
      assert forall k :: 1 < k < |s| ==> StartsWord(s, k) == StartsWord(s[1..], k - 1);
      [c] + rest
  }

  function Capitalize(s: string): (r: string)
    ensures |r| == |s|
    ensures forall k :: 0 <= k < |s| ==> r[k] == (if StartsWord(s, k) then UpperAscii(s[k]) else s[k])
  {
    CapitalizeFrom(s, false)
  }

  function DeriveTitleFromSlug(pageId: string): (r: string)
    ensures LastSegment(pageId).None? ==> r == "Overview"
    ensures LastSegment(pageId).Some? ==>
      && |r| == |LastSegment(pageId).value|
      && '-' !in r && '_' !in r && '/' !in r
      && forall k :: 0 <= k < |r| && StartsWord(r, k) ==> !('a' <= r[k] <= 'z')
  {
    match LastSegment(pageId)
    case None => "Overview"
    case Some(seg) =>
      LastSegmentHasNoSlash(pageId);
      var spaced := SpaceOut(seg);
      var r := Capitalize(spaced);
      assert forall k :: 0 <= k < |r| ==> IsWordChar(r[k]) == IsWordChar(spaced[k]);
      r
  }

  lemma LastSegmentHasNoSlash(pageId: string)
    ensures LastSegment(pageId).Some? ==> '/' !in LastSegment(pageId).value
  {
    var segs := NonEmpty(Split(pageId, '/'));
    if |segs| > 0 {
      assert segs[|segs| - 1] in Split(pageId, '/');
    }
  }

  lemma {:induction false} NonEmptyOfEmpties(parts: seq<string>)
    ensures NonEmpty(parts) == [] <==> forall k :: 0 <= k < |parts| ==> parts[k] == ""
    decreases |parts|
  {
    if |parts| > 0 {
      NonEmptyOfEmpties(parts[1..]);
      assert forall k :: 1 <= k < |parts| ==> parts[k] == parts[1..][k - 1];
    }
  }

  lemma {:induction false} SplitOfSlashes(q: string)
    requires forall k :: 0 <= k < |q| ==> q[k] == '/'
    ensures NonEmpty(Split(q, '/')) == []
    decreases |q|
  {
    if |q| == 0 {
      assert Split(q, '/') == [""];
    } else {
      assert q == "" + ['/'] + q[1..];
      SplitConcat("", q[1..], '/');
      SplitOfSlashes(q[1..]);
      assert Split("", '/') == [""];
      NonEmptyConcat([""], Split(q[1..], '/'));
    }
  }

  lemma {:induction false} JoinOfEmpties(parts: seq<string>)
    requires forall k :: 0 <= k < |parts| ==> parts[k] == ""
    ensures forall k :: 0 <= k < |Join(parts, "/")| ==> Join(parts, "/")[k] == '/'
    decreases |parts|
  {
    if |parts| > 1 {
      JoinOfEmpties(parts[1..]);
      assert Join(parts, "/") == "" + "/" + Join(parts[1..], "/");
    }
  }

  /** `deriveTitleFromSlug` falls back to "Overview" exactly when the page id has
      no character other than '/'. */
  lemma LastSegmentNone(pageId: string)
    ensures LastSegment(pageId).None? <==> forall k :: 0 <= k < |pageId| ==> pageId[k] == '/'
  {
    var parts := Split(pageId, '/');
    if forall k :: 0 <= k < |pageId| ==> pageId[k] == '/' {
      SplitOfSlashes(pageId);
    }
    if LastSegment(pageId).None? {
      NonEmptyOfEmpties(parts);
      JoinOfEmpties(parts);
    }
  }

  lemma SegmentThenSlashes(seg: string, q: string)
    requires seg != "" && '/' !in seg
    requires forall k :: 0 <= k < |q| ==> q[k] == '/'
    ensures NonEmpty(Split(seg + q, '/')) == [seg]
  {
    assert Split(seg, '/') == [seg];
    if |q| == 0 {
      assert seg + q == seg;
    } else {
      SegmentThenMoreSlashes(seg, q);
    }
  }

  lemma SegmentThenMoreSlashes(seg: string, q: string)
    requires seg != "" && '/' !in seg && |q| > 0
    requires forall k :: 0 <= k < |q| ==> q[k] == '/'
    requires Split(seg, '/') == [seg]
    ensures NonEmpty(Split(seg + q, '/')) == [seg]
  {
    assert seg + q == seg + ['/'] + q[1..];
    SplitConcat(seg, q[1..], '/');
    SplitOfSlashes(q[1..]);
    NonEmptyConcat([seg], Split(q[1..], '/'));
  }

  /** The segment the title is made from is the last non-empty one: in
      `p + seg + q`, where `p` is empty or ends in '/' and `q` holds only
      slashes, it is `seg`. */
  lemma LastSegmentOf(p: string, seg: string, q: string)
    requires seg != "" && '/' !in seg
    requires forall k :: 0 <= k < |q| ==> q[k] == '/'
    requires p == "" || p[|p| - 1] == '/'
    ensures LastSegment(p + seg + q) == Some(seg)
  {
    SegmentThenSlashes(seg, q);
    if p == "" {
      assert p + seg + q == seg + q;
    } else {
      var p0 := p[..|p| - 1];
      var tail := seg + q;
      assert p + seg + q == p0 + ['/'] + tail;
      assert Split(p + seg + q, '/') == Split(p0, '/') + Split(tail, '/') by {
        SplitConcat(p0, tail, '/');
      }
      assert NonEmpty(Split(p + seg + q, '/')) == NonEmpty(Split(p0, '/')) + [seg] by {
        NonEmptyConcat(Split(p0, '/'), Split(tail, '/'));
      }
    }
  }

  predicate IsLowerWord(w: string) {
    |w| > 0 && forall k :: 0 <= k < |w| ==> 'a' <= w[k] <= 'z'
  }

  /** The title depends on the page id only through its last segment. */
  lemma TitleOfSegment(pageId: string, seg: string)
    requires LastSegment(pageId) == Some(seg)
    ensures DeriveTitleFromSlug(pageId) == Capitalize(SpaceOut(seg))
  {
  }

  /** A two-word segment joined by '-' or '_' becomes the two words,
      capitalised and separated by a space. */
  lemma TwoWordTitle(w1: string, sep: char, w2: string)
    requires IsLowerWord(w1) && IsLowerWord(w2) && (sep == '-' || sep == '_')
    ensures Capitalize(SpaceOut(w1 + [sep] + w2))
         == [UpperAscii(w1[0])] + w1[1..] + " " + [UpperAscii(w2[0])] + w2[1..]
  {
    var seg := w1 + [sep] + w2;
    var spaced := w1 + " " + w2;
    assert SpaceOut(seg) == spaced;
    CapitalizeTwoWords(spaced, |w1| + 1);
    assert spaced[1..|w1| + 1] == w1[1..] + " ";
    assert spaced[|w1| + 2..] == w2[1..];
  }

  lemma GettingStartedTitle(pageId: string)
    requires pageId == "getting-started"
    ensures DeriveTitleFromSlug(pageId) == "Getting Started"
  {
    GettingStartedSegment(pageId);
    TitleOfSegment(pageId, pageId);
    GettingStartedCapitalized(pageId);
  }

  lemma GettingStartedSegment(pageId: string)
    requires pageId == "getting-started"
    ensures LastSegment(pageId) == Some(pageId)
  {
    assert pageId == "" + pageId + "";
    LastSegmentOf("", pageId, "");
  }

  lemma GettingStartedCapitalized(seg: string)
    requires seg == "getting-started"
    ensures Capitalize(SpaceOut(seg)) == "Getting Started"
  {
    var w1, w2 := seg[..7], seg[8..];
    assert seg == w1 + ['-'] + w2;
    TwoWordTitle(w1, '-', w2);
    GettingStartedWords(w1, w2);
  }

  lemma GettingStartedWords(w1: string, w2: string)
    requires w1 == "getting" && w2 == "started"
    ensures [UpperAscii(w1[0])] + w1[1..] + " " + [UpperAscii(w2[0])] + w2[1..] == "Getting Started"
  {
  }

  lemma NestedTitle(pageId: string)
    requires pageId == "/guides/api_keys/"
    ensures DeriveTitleFromSlug(pageId) == "Api Keys"
  {
    NestedSegment(pageId, "api_keys");
    TitleOfSegment(pageId, "api_keys");
    ApiKeysCapitalized("api_keys");
  }

  lemma NestedSegment(pageId: string, seg: string)
    requires pageId == "/guides/api_keys/" && seg == "api_keys"
    ensures LastSegment(pageId) == Some(seg)
  {
    assert pageId == pageId[..8] + seg + pageId[16..];
    LastSegmentOf(pageId[..8], seg, pageId[16..]);
  }

  lemma ApiKeysCapitalized(seg: string)
    requires seg == "api_keys"
    ensures Capitalize(SpaceOut(seg)) == "Api Keys"
  {
    var w1, w2 := seg[..3], seg[4..];
    assert seg == w1 + ['_'] + w2;
    TwoWordTitle(w1, '_', w2);
    ApiKeysWords(w1, w2);
  }

  lemma ApiKeysWords(w1: string, w2: string)
    requires w1 == "api" && w2 == "keys"
    ensures [UpperAscii(w1[0])] + w1[1..] + " " + [UpperAscii(w2[0])] + w2[1..] == "Api Keys"
  {
  }

  /** Two lower-case words separated by one space get their first letters raised. */
  lemma CapitalizeTwoWords(s: string, gap: nat)
    requires 0 < gap < |s| && s[gap - 1] == ' '
    requires forall k :: 0 <= k < |s| && k != gap - 1 ==> 'a' <= s[k] <= 'z'
    ensures Capitalize(s) == [UpperAscii(s[0])] + s[1..gap] + [UpperAscii(s[gap])] + s[gap + 1..]
  {
  }
}

=== FILE: snippets.dfy ===
/** The snippet registry of src/mdx/snippet-registry.ts: a fixed two-level table
    from the literal import path written in a document and an export name to a
    loader, and the loader's behaviour once the module it imports is available. */
module Snippets {
  import opened Wrappers
  import opened Text

  /** A component exported by a snippet module; what it renders is out of scope. */
  datatype Component = Component(name: string)

  /** What `loadSnippetComponent(importer, exportName)` builds: the module the
      importer loads and the export the loader reads from it. */
  datatype Loader = Loader(modulePath: string, exportName: string)

  /** The ways running a loader can fail: the dynamic import rejects, or the
      module lacks the export (the error the source throws, naming the export). */
  datatype LoadError = ModuleUnavailable(modulePath: string) | ComponentNotFound(exportName: string)

  /** The modules the dynamic imports can reach, each a map from export name to
      the (truthy) component it exports. */
  type Modules = map<string, map<string, Component>>

  const SnippetPrefix := "/snippets/"

  function Registry(): map<string, map<string, Loader>> {
    map[
      "/snippets/evm-tools.jsx" := map["EvmTools" := Loader("../../../lifi-docs/snippets/evm-tools.jsx", "EvmTools")],
      "/snippets/contract-addresses.jsx" := map["ContractAddresses" := Loader("../../../lifi-docs/snippets/contract-addresses.jsx", "ContractAddresses")],
      "/snippets/supported-chains.jsx" := map["SupportedChains" := Loader("../../../lifi-docs/snippets/supported-chains.jsx", "SupportedChains")],
      "/snippets/supported-tools.jsx" := map["SupportedTools" := Loader("../../../lifi-docs/snippets/supported-tools.jsx", "SupportedTools")]
    ]
  }

  /** `resolveSnippetComponent(path, name)`: exact lookup on both keys. A hit is
      a loader for the very export that was asked for, under a path in the
      reserved snippets directory. */
  function ResolveSnippetComponent(path: string, name: string): (r: Option<Loader>)
    ensures r.Some? <==> path in Registry() && name in Registry()[path]
    ensures r.Some? ==> r.value.exportName == name && StartsWith(path, SnippetPrefix)
  {
    RegistryShape();
    if path in Registry() && name in Registry()[path] then Some(Registry()[path][name]) else None
  }

  const RegisteredPaths: set<string> := {"/snippets/evm-tools.jsx", "/snippets/contract-addresses.jsx",
                                         "/snippets/supported-chains.jsx", "/snippets/supported-tools.jsx"}

  /** The table holds four paths under "/snippets/", each with exactly one
      name, and every loader requests the export it is registered under. */
  lemma RegistryShape()
    ensures |Registry()| == 4
    ensures forall p :: p in Registry() ==> StartsWith(p, SnippetPrefix) && |Registry()[p]| == 1
    ensures forall p, n :: p in Registry() && n in Registry()[p] ==> Registry()[p][n].exportName == n
  {
    RegistryKeys();
    RegisteredPathsArePrefixed();
  }

  lemma RegistryKeys()
    ensures Registry().Keys == RegisteredPaths && |RegisteredPaths| == 4
    ensures forall p :: p in Registry() ==> |Registry()[p]| == 1
    ensures forall p, n :: p in Registry() && n in Registry()[p] ==> Registry()[p][n].exportName == n
  {
    RegisteredPathsCount();
  }

  lemma RegisteredPathsCount()
    ensures |RegisteredPaths| == 4
  {
  }

  lemma RegisteredPathsArePrefixed()
    ensures forall p :: p in RegisteredPaths ==> StartsWith(p, SnippetPrefix)
  {
    forall p | p in RegisteredPaths
      ensures StartsWith(p, SnippetPrefix)
    {
      assert p[..10] == SnippetPrefix;
    }
  }

  /** No path normalisation: the same file written without the leading slash is unknown. */
  lemma LookupIsExact(path: string)
    requires path == "snippets/evm-tools.jsx"
    ensures ResolveSnippetComponent(path, "EvmTools") == None
  {
    RegisteredPathsArePrefixed();
    RegistryKeys();
    assert path[..10][0] != SnippetPrefix[0];
  }

  /** No case folding of export names either. */
  lemma NamesAreCaseSensitive(name: string)
    requires name == "evmTools"
    ensures ResolveSnippetComponent("/snippets/evm-tools.jsx", name) == None
  {
    assert Registry()["/snippets/evm-tools.jsx"].Keys == {"EvmTools"};
  }

  /** Running a loader: the export when the module has it, otherwise the
      failure that names the missing export. */
  function RunLoader(loader: Loader, modules: Modules): (r: Result<Component, LoadError>)
    ensures r.Success? <==> loader.modulePath in modules && loader.exportName in modules[loader.modulePath]
    ensures r.Success? ==> r.value == modules[loader.modulePath][loader.exportName]
    ensures r == Failure(ComponentNotFound(loader.exportName)) <==>
      loader.modulePath in modules && loader.exportName !in modules[loader.modulePath]
  {
    if loader.modulePath !in modules then Failure(ModuleUnavailable(loader.modulePath))
    else
      var mod := modules[loader.modulePath];
      if loader.exportName in mod then Success(mod[loader.exportName])
      else Failure(ComponentNotFound(loader.exportName))
  }

  /** The error text the source throws for a missing export. */
  function NotFoundMessage(exportName: string): (m: string)
    ensures |m| == |exportName| + 45 && m[19..19 + |exportName|] == exportName
  {
    "Snippet component \"" + exportName + "\" was not found in module."
  }
}

=== FILE: text.dfy ===
/** String helpers shared by the content pipeline: character classes as the
    source's regular expressions and `String.prototype` methods define them,
    prefix tests, `join` and `split`. Strings are sequences of Unicode scalar values. */
module Text {

  /** `\w` in a regular expression without the `u` flag: ASCII letters, digits and `_`. */
  predicate IsWordChar(c: char) {
    ('a' <= c <= 'z') || ('A' <= c <= 'Z') || ('0' <= c <= '9') || c == '_'
  }

  /** The characters matched by `\s` and removed by `trim()`: the WhiteSpace and
      LineTerminator productions of ECMAScript. */
  predicate IsSpace(c: char) {
    var n := c as int;
    n == 0x09 || n == 0x0A || n == 0x0B || n == 0x0C || n == 0x0D || n == 0x20
    || n == 0xA0 || n == 0x1680 || (0x2000 <= n <= 0x200A) || n == 0x2028 || n == 0x2029
    || n == 0x202F || n == 0x205F || n == 0x3000 || n == 0xFEFF
  }

  function UpperAscii(c: char): (r: char)
    ensures 'a' <= c <= 'z' ==> 'A' <= r <= 'Z'
    ensures !('a' <= c <= 'z') ==> r == c
  {
    if 'a' <= c <= 'z' then (c as int - 'a' as int + 'A' as int) as char else c
  }

  function LowerAscii(c: char): (r: char)
    ensures 'A' <= c <= 'Z' ==> 'a' <= r <= 'z'
    ensures !('A' <= c <= 'Z') ==> r == c
  {
    if 'A' <= c <= 'Z' then (c as int - 'A' as int + 'a' as int) as char else c
  }

  predicate StartsWith(s: string, prefix: string) {
    |prefix| <= |s| && s[..|prefix|] == prefix
  }

  predicate EndsWith(s: string, suffix: string) {
    |suffix| <= |s| && s[|s| - |suffix|..] == suffix
  }

  lemma PrefixOfConcat(a: string, b: string)
    ensures StartsWith(a + b, a)
  {
    assert (a + b)[..|a|] == a;
  }

  lemma SuffixOfConcat(a: string, b: string)
    ensures EndsWith(a + b, b)
  {
    assert (a + b)[|a|..] == b;
  }

  /** `parts.join(sep)`: the empty list joins to the empty string. */
  function Join(parts: seq<string>, sep: string): string {
    if |parts| == 0 then ""
    else if |parts| == 1 then parts[0]
    else parts[0] + sep + Join(parts[1..], sep)
  }

  /** `parts.filter(Boolean)` on strings: drops the empty ones, keeping order. */
  function NonEmpty(parts: seq<string>): (r: seq<string>)
    ensures forall k :: 0 <= k < |r| ==> r[k] != ""
    ensures forall k :: 0 <= k < |r| ==> r[k] in parts
    ensures forall p :: p in parts && p != "" ==> p in r
  {
    if |parts| == 0 then []
    else if parts[0] == "" then NonEmpty(parts[1..])
    else [parts[0]] + NonEmpty(parts[1..])
  }

  /** Filtering a list without empty strings changes nothing. */
  lemma {:induction false} NonEmptyKeepsAll(parts: seq<string>)
    requires forall k :: 0 <= k < |parts| ==> parts[k] != ""
    ensures NonEmpty(parts) == parts
  {
    if |parts| > 0 {
      NonEmptyKeepsAll(parts[1..]);
      assert [parts[0]] + parts[1..] == parts;
    }
  }

  /** Filtering drops exactly the empty strings. */
  lemma {:induction false} NonEmptyCount(parts: seq<string>)
    ensures |NonEmpty(parts)| + multiset(parts)[""] == |parts|
  {
    if |parts| > 0 {
      assert parts == [parts[0]] + parts[1..];
      NonEmptyCount(parts[1..]);
    }
  }

  function IndexOf(s: string, c: char): (i: nat)
    requires c in s
    ensures i < |s| && s[i] == c && c !in s[..i]
  {
    if s[0] == c then 0 else 1 + IndexOf(s[1..], c)
  }

  /** `s.split(c)` for a one-character separator. Its contract says the result
      is the unique list of separator-free pieces that `Join` puts back together. */
  function Split(s: string, c: char): (r: seq<string>)
    ensures |r| >= 1
    ensures forall k :: 0 <= k < |r| ==> c !in r[k]
    ensures Join(r, [c]) == s
    decreases |s|
  {
    if c !in s then [s]
    else
      var i := IndexOf(s, c);
      assert s == s[..i] + [c] + s[i + 1..];
      [s[..i]] + Split(s[i + 1..], c)
  }

  /** `s.trim()`: drops whitespace at both ends. */
  function Trim(s: string): (r: string)
    ensures |r| == 0 || (!IsSpace(r[0]) && !IsSpace(r[|r| - 1]))
  {
    TrimEnd(TrimStart(s))
  }

  function TrimStart(s: string): (r: string)
    ensures |r| <= |s| && r == s[|s| - |r|..]
    ensures forall k :: 0 <= k < |s| - |r| ==> IsSpace(s[k])
    ensures |r| == 0 || !IsSpace(r[0])
  {
    if |s| > 0 && IsSpace(s[0]) then TrimStart(s[1..]) else s
  }

  function TrimEnd(s: string): (r: string)
    ensures |r| <= |s| && r == s[..|r|]
    ensures forall k :: |r| <= k < |s| ==> IsSpace(s[k])
    ensures |r| == 0 || !IsSpace(r[|r| - 1])
    ensures |s| > 0 && !IsSpace(s[0]) ==> |r| > 0 && r[0] == s[0]
  {
    if |s| > 0 && IsSpace(s[|s| - 1]) then TrimEnd(s[..|s| - 1]) else s
  }

  /** Trimming adds no character. */
  lemma NotInTrim(s: string, c: char)
    requires c !in s
    ensures c !in Trim(s)
  {
    NotInTrimStart(s, c);
    NotInTrimEnd(TrimStart(s), c);
  }

  lemma {:induction false} NotInTrimStart(s: string, c: char)
    requires c !in s
    ensures c !in TrimStart(s)
    decreases |s|
  {
    if |s| > 0 && IsSpace(s[0]) {
      assert s == [s[0]] + s[1..];
      NotInTrimStart(s[1..], c);
    }
  }

  lemma {:induction false} NotInTrimEnd(s: string, c: char)
    requires c !in s
    ensures c !in TrimEnd(s)
    decreases |s|
  {
    if |s| > 0 && IsSpace(s[|s| - 1]) {
      assert s == s[..|s| - 1] + [s[|s| - 1]];
      NotInTrimEnd(s[..|s| - 1], c);
    }
  }

  /** A string that neither starts nor ends with whitespace is its own trim. */
  lemma TrimOfTrimmed(s: string)
    requires |s| > 0 ==> !IsSpace(s[0]) && !IsSpace(s[|s| - 1])
    ensures Trim(s) == s
  {
    assert TrimStart(s) == s;
  }

  /** Leading whitespace does not change where `TrimStart` stops. */
  lemma {:induction false} TrimStartAfterSpaces(ws: string, s: string)
    requires forall k :: 0 <= k < |ws| ==> IsSpace(ws[k])
    ensures TrimStart(ws + s) == TrimStart(s)
    decreases |ws|
  {
    if |ws| > 0 {
      assert (ws + s)[1..] == ws[1..] + s;
      TrimStartAfterSpaces(ws[1..], s);
    } else {
      assert ws + s == s;
    }
  }

  /** `IndexOf` finds the first occurrence. */
  lemma {:induction false} IndexOfFirst(s: string, c: char, j: nat)
    requires j < |s| && s[j] == c && c !in s[..j]
    ensures c in s && IndexOf(s, c) == j
  {
    if j > 0 {
      assert s[0] in s[..j];
      assert s[1..][..j - 1] == s[..j][1..];
      IndexOfFirst(s[1..], c, j - 1);
    }
  }

  /** Splitting is the inverse of joining separator-free pieces. */
  lemma {:induction false} SplitJoin(parts: seq<string>, c: char)
    requires |parts| >= 1
    requires forall k :: 0 <= k < |parts| ==> c !in parts[k]
    ensures Split(Join(parts, [c]), c) == parts
    decreases |parts|
  {
    if |parts| == 1 {
      assert Join(parts, [c]) == parts[0];
    } else {
      var a := parts[0];
      var rest := Join(parts[1..], [c]);
      var s := a + [c] + rest;
      assert Join(parts, [c]) == s;
      assert s[..|a|] == a;
      IndexOfFirst(s, c, |a|);
      assert s[|a| + 1..] == rest;
      SplitJoin(parts[1..], c);
    }
  }

  /** Regrouping a concatenation, as a step the solver need not search for. */
  lemma ConcatAssoc<T>(x: seq<T>, y: seq<T>, z: seq<T>)
    ensures x + (y + z) == (x + y) + z
  {
  }

  /** Splitting at the first separator. */
  lemma SplitAt(s: string, c: char, j: nat)
    requires j < |s| && s[j] == c && c !in s[..j]
    ensures Split(s, c) == [s[..j]] + Split(s[j + 1..], c)
  {
    IndexOfFirst(s, c, j);
  }

  /** Splitting `a + c + b` splits `a` and `b` independently. */
  lemma {:induction false} SplitConcat(a: string, b: string, c: char)
    ensures Split(a + [c] + b, c) == Split(a, c) + Split(b, c)
    decreases |a|, 1
  {
    var s := a + [c] + b;
    if c !in a {
      assert s[..|a|] == a && s[|a| + 1..] == b;
      SplitAt(s, c, |a|);
    } else {
      SplitConcatAtSeparator(a, b, c);
    }
  }

  lemma {:induction false} SplitConcatAtSeparator(a: string, b: string, c: char)
    requires c in a
    ensures Split(a + [c] + b, c) == Split(a, c) + Split(b, c)
    decreases |a|, 0
  {
    var s := a + [c] + b;
    var j := IndexOf(a, c);
    var t := a[j + 1..];
    assert Split(s, c) == [a[..j]] + Split(t + [c] + b, c) by {
      assert a == a[..j + 1] + t;
      assert s == a[..j + 1] + (t + [c] + b);
      assert s[..j] == a[..j] && s[j + 1..] == t + [c] + b;
      SplitAt(s, c, j);
    }
    assert Split(a, c) == [a[..j]] + Split(t, c) by {
      SplitAt(a, c, j);
    }
    SplitConcat(t, b, c);
    ConcatAssoc([a[..j]], Split(t, c), Split(b, c));
  }

  lemma {:induction false} NonEmptyConcat(a: seq<string>, b: seq<string>)
    ensures NonEmpty(a + b) == NonEmpty(a) + NonEmpty(b)
    decreases |a|
  {
    if |a| > 0 {
      assert (a + b)[0] == a[0];
      assert (a + b)[1..] == a[1..] + b;
      NonEmptyConcat(a[1..], b);
      if a[0] != "" {
        ConcatAssoc([a[0]], NonEmpty(a[1..]), NonEmpty(b));
      }
    } else {
      assert a + b == b;
    }
  }
}

=== FILE: wrappers.dfy ===
/** Option and Result, the two failure-carrying datatypes the rest of the model uses
    for the source's `undefined`/`null` returns and its rejected promises. */
module Wrappers {

  datatype Option<+T> = None | Some(value: T) {

    /** The value, or `default` when absent (the source's `??`). */
    function GetOr(default: T): T {
      match this
      case Some(v) => v
      case None => default
    }
  }

  datatype Result<+R, +E> = Success(value: R) | Failure(error: E)
}
